=== FILE: README.md ===
# Vulkan OBJ voxelizer, modelled in Dafny

The voxelizer loads a triangle mesh from an OBJ file and builds a compute shader over it.
It runs the shader over a `width × height × depth` grid of RGBA8 voxels, reads the 3D image
back, and saves each of its ten frames as a PNG. The PNG tiles the `height` slices of the
grid as an atlas of `grid_side × grid_side` tiles, each `width × depth` pixels.

This project models the application and the `boza` wrappers it is built on. The Vulkan
driver is an oracle: every driver call the code makes becomes an input (a `*Driver` value)
that says whether the call succeeds and what it returns. The code's own logic is modelled,
with the differences listed under "Left out":

- **The slice-to-atlas rearrangement** (`Atlas`). Its pure specification is:
  - the side of the tile grid is the least `g` with `g·g ≥ height`;
  - every destination index lies inside the atlas;
  - tiles do not overlap;
  - every source byte lands exactly once;
  - uncovered bytes stay 0.
  
  `RearrangeImageData` is the four-deep loop that fills a zeroed buffer in place, proved
  against that specification.
- **Launch and buffer arithmetic** (`Atlas.GroupCount`, `ComputeApps`):
  - workgroup counts `ceil(n/8)`;
  - the 16-byte vertex padding with `w = 0`;
  - the bytes copied into the vertex and index buffers, read back word by word;
  - the uniform parameters.
- **Selection rules inside the wrappers:**
  - memory-type searches (`Buffers`, `Images`);
  - choice of the physical device and of its compute queue family (`Devices`);
  - the extension and layer support check, and the debug-callback severity mapping (`Instances`);
  - push-constant sizing and the bounded push-constant write (`Shaders`);
  - aggregation of descriptor-pool sizes per descriptor type (`Shaders`);
  - OBJ attribute flattening (`Meshes`).
- **Fail-fast construction** of `App`, `ComputeApp`, `ComputeShader`, `Buffer`, `Image3D`,
  `Device` and `Instance`:
  - each is a class whose constructor runs its steps in order and stops at the first
    failing one, clearing `ok` or setting `hasThrown`;
  - `FailFast.FirstFailure` is the common specification: each `*StepsIsFirstFailure`
    lemma shows that a constructor's step count is the index of the first failing
    outcome;
  - the move constructors and move assignments empty their source; self-assignment is a
    no-op.

All arithmetic is on mathematical integers. Where the source computes in `uint32_t` and
can wrap, the model reduces modulo 2^32 explicitly (`Common.ToU32`):

- push-constant `offset + size`;
- descriptor-count accumulation;
- `int` to `uint32_t` casts of OBJ indices and of the index count.

Module layout: `Common` holds the shared types, `FailFast` the first-failure specification,
and there is one module per source file:

| module | source file |
|---|---|
| `Atlas` | the atlas part of `ComputeApp.cpp` |
| `ComputeApps` | `ComputeApp.cpp` |
| `Shaders` | `ComputeShader.cpp`, `ComputeShader.hpp` |
| `Buffers` | `Buffer.cpp` |
| `Images` | `Image3D.cpp` |
| `Devices` | `Device.cpp` |
| `Instances` | `Instance.cpp` |
| `Meshes` | `TriangleLoader.cpp` |
| `Apps` | `App.cpp` |

## Model

| member | source | states |
|---|---|---|
| Common.ToU32 | src/Boza/TriangleLoader.cpp:41 | a conversion to `uint32_t` leaves every representable value unchanged |
| Common.Overwrite | src/Boza/ComputeShader.hpp:86-87 | a `memcpy` into a byte buffer: the length is unchanged, the written range holds the data, every other byte is unchanged |
| Common.OverwriteReadBack | src/Boza/Buffer.cpp:119 | reading the written range back gives exactly the data copied |
| Common.OverwriteTwice | src/Boza/Buffer.cpp:137-151 | a second same-size write at the same offset wipes out the first, as each frame's uniform update replaces the previous one |
| Common.U32RoundTrip | src/ComputeApp.cpp:153 | a 32-bit word copied as 4 bytes reads back as the same word |
| Common.U32sBytesAt | src/ComputeApp.cpp:153 | in the bytes of a word array, word k occupies bytes 4k to 4k+3 |
| FailFast.FirstFailure | src/Boza/check.hpp:14-15 | a chain of checks stops at the first failing one: every earlier check passed and that one failed |
| FailFast.FirstFailureIs | src/Boza/check.hpp:14-15 | an index whose predecessors all pass and which itself fails (or is the end) is the first failure |
| FailFast.AllOkIffNoFailure | src/Boza/check.hpp:14-15 | the chain runs to its end exactly when every check passes |
| FailFast.FirstFailureSnoc | src/Boza/check.hpp:14-15 | after a run of passing checks, one more check either passes or is the first failure |
| FailFast.FirstFailureAppend | src/Boza/check.hpp:14-15 | two chains run back to back stop in the first chain if it fails, otherwise in the second |
| FailFast.FirstFailurePrefix | src/Boza/check.hpp:14-15 | once a chain has failed, the checks after it never change where it stopped |
| Atlas.GridSide | src/ComputeApp.cpp:255 | `grid_side` is the integer ceiling of `sqrt(height)`: `g·g ≥ height` and `(g-1)² < height` |
| Atlas.GridSideIsLeast | src/ComputeApp.cpp:255 | no smaller side covers `height` slices: every k with `k·k ≥ height` is at least `grid_side` |
| Atlas.GridSideIs | src/ComputeApp.cpp:255 | the two bounds determine `grid_side` uniquely |
| Atlas.GridSideExamples | src/ComputeApp.cpp:255 | heights 0, 1, 2, 64 and 65 give sides 0, 1, 2, 8 and 9 |
| Atlas.GroupCount | src/ComputeApp.cpp:197-199 | `ceil(n / 8.0)` workgroups of 8 cover n invocations, and one group fewer would not |
| Atlas.GroupCountExamples | src/ComputeApp.cpp:197-199 | extents 128, 64, 1 and 0 give 16, 8, 1 and 0 groups |
| Atlas.AtlasTexel | src/ComputeApp.cpp:263-273 | decoding an atlas index gives a channel below 4, a column below `width` and a row below `depth` |
| Atlas.SourceTexel | src/ComputeApp.cpp:272 | decoding a grid index gives a channel below 4, a column below `width` and a slice below `height` |
| Atlas.AtlasSizePositive | src/ComputeApp.cpp:259 | a non-empty atlas has a positive width, depth and grid side |
| Atlas.SourceIndexInGrid | src/ComputeApp.cpp:272 | every `src_idx` of the loop is inside the read-back grid of `width·height·depth·4` bytes |
| Atlas.AtlasIndexDigits | src/ComputeApp.cpp:263-273 | `dst_idx` is built from tile row `slice / g`, tile column `slice % g`, then z, x and c |
| Atlas.AtlasDigitsBound | src/ComputeApp.cpp:273 | with every digit in range, `dst_idx` is inside the `width·g × depth·g × 4` atlas |
| Atlas.AtlasDigitsDecode | src/ComputeApp.cpp:273 | decoding a `dst_idx` gives back the slice, z, x and c it was built from |
| Atlas.AtlasTexelOfIndex | src/ComputeApp.cpp:263-273 | every destination index is inside the atlas, and decoding it gives back its voxel channel |
| Atlas.AtlasIndexOfTexel | src/ComputeApp.cpp:263-273 | every atlas index is the `dst_idx` of the voxel channel it decodes to, so the index map is onto |
| Atlas.AtlasIndexOfTile | src/ComputeApp.cpp:263-273 | a voxel of slice `tileY·g + tileX` lands at the `dst_idx` of that tile's row and column |
| Atlas.SourceDigits | src/ComputeApp.cpp:272 | a grid index splits into z, slice, x and c, and `src_idx` rebuilds it |
| Atlas.SourceTexelOfIndex | src/ComputeApp.cpp:272 | every byte of the grid is the `src_idx` of exactly the voxel channel it decodes to |
| Atlas.CopiedToTile | src/ComputeApp.cpp:261-275 | for every slice, z, x and c: `out[dst_idx] == in[src_idx]`, both indices in bounds |
| Atlas.TilesDisjoint | src/ComputeApp.cpp:263-273 | distinct (slice, z, x, c) get distinct destination indices, so tiles never overlap |
| Atlas.UncoveredIsZero | src/ComputeApp.cpp:259-261 | an atlas byte that no voxel maps to stays 0, such as the trailing tiles when `height` is not a square |
| Atlas.EachSourceByteOnce | src/ComputeApp.cpp:261-275 | every source byte lands at exactly one atlas index and is copied there |
| Atlas.SourceIndexInjective | src/ComputeApp.cpp:272 | distinct voxel channels read distinct source bytes |
| Atlas.FillStepAt | src/ComputeApp.cpp:274 | one assignment of the loop extends the filled prefix by one voxel channel, at any index |
| Atlas.FillStep | src/ComputeApp.cpp:274 | one assignment of the loop moves the fill invariant to the next channel |
| Atlas.FillCarry | src/ComputeApp.cpp:261-278 | a loop carry (c to x, x to z, z to slice) does not change which atlas bytes are filled |
| Atlas.RearrangeImageData | src/ComputeApp.cpp:249-281 | the result has `width·g · depth·g · 4` bytes, and each is its voxel's source byte or 0 where no voxel maps |
| Buffers.FindMemoryType | src/Boza/Buffer.cpp:33-42 | the result is the first memory type whose flags include every requested property, or `UINT32_MAX` exactly when there is none |
| Buffers.BufferStepsIsFirstFailure | src/Boza/Buffer.cpp:23-65 | buffer construction stops at its first failing step: create, memory type, allocate |
| Buffers.Buffer.Null | src/Boza/Buffer.hpp:9 | a null buffer holds nothing; that header has no `ok` flag, so "not ok" is inferred from the state Buffer.cpp:86 leaves a moved-from buffer in |
| Buffers.Buffer.constructor | src/Boza/Buffer.cpp:7-69 | `ok` iff all three steps succeed; the buffer is exclusive to the device's compute family; the memory type is the first supporting one; `size` is set only on success |
| Buffers.Buffer.UniformBuffer | src/Boza/Buffer.cpp:71-79 | a uniform buffer requests uniform-buffer usage in host-visible, host-coherent memory |
| Buffers.Buffer.MoveFrom | src/Boza/Buffer.cpp:81-90 | the target takes the handles, size and `ok`; the source is left with size 0, not ok and without a device |
| Buffers.Buffer.MoveAssign | src/Boza/Buffer.cpp:92-106 | self-assignment changes nothing; otherwise it acts as the move constructor, and a target keeps its device when the source has none |
| Buffers.Buffer.CopyData | src/Boza/Buffer.cpp:109-123 | a successful map puts the data at offset 0 and leaves every other byte as it was; a failed map returns false, clears `ok` and leaves memory untouched |
| Buffers.Buffer.Bind | src/Boza/Buffer.cpp:125-135 | failure returns false and clears `ok`; success returns true and leaves `ok` as it was |
| Buffers.Buffer.UpdateUniform | src/Boza/Buffer.cpp:137-151 | the same contract as `copy_data`, for the per-frame parameters |
| Images.FindDeviceLocalType | src/Boza/Image3D.cpp:43-52 | the result is the first type allowed by `memoryTypeBits` that is device-local, or `UINT32_MAX` exactly when there is none |
| Images.ImageStepsIsFirstFailure | src/Boza/Image3D.cpp:30-112 | image construction stops at its first failing step: image, memory type, allocate, bind, optional view, copy command buffer |
| Images.ReadbackStepsIsFirstFailure | src/Boza/Image3D.cpp:150-222 | `get_data` stops at its first failing stage: staging create, bind, begin, end, submit, wait, map |
| ComputeApps.ReadbackLayoutIsSourceIndex | src/Boza/Image3D.cpp:178-185 | the tightly packed copy of the whole output image (offset 0, row length and image height 0) puts byte c of texel (x, slice, z) at `src_idx`, the index `rearrange_image_data` reads at ComputeApp.cpp:272, inside the grid |
| Images.Image3D.Null | src/Boza/Image3D.hpp:11 | a null image holds nothing, has a zero extent and is not ok |
| Images.Image3D.constructor | src/Boza/Image3D.cpp:8-113 | `ok` iff every step succeeds; each handle exists iff its step was reached and succeeded; a view is made only when requested |
| Images.Image3D.MoveFrom | src/Boza/Image3D.cpp:115-127 | the target takes everything; the source is left with a zero extent and not ok |
| Images.Image3D.MoveAssign | src/Boza/Image3D.cpp:129-146 | self-assignment changes nothing; otherwise it acts as the move constructor |
| Images.Image3D.GetData | src/Boza/Image3D.cpp:148-229 | any failing stage gives an empty result; success gives exactly the image's memory size in bytes, as the copy left them |
| Devices.LastComputeFamily | src/Boza/Device.cpp:82-89 | the loop never breaks, so the recorded family is the last one with the compute flag |
| Devices.FirstSuitable | src/Boza/Device.cpp:78-106 | the chosen device is the first one in enumeration order that is suitable |
| Devices.FirstSuitableIs | src/Boza/Device.cpp:78-106 | a suitable device with only unsuitable devices before it is the one chosen |
| Devices.SuitableIffComputeFamily | src/Boza/Device.cpp:80-89 | a device is suitable iff one of its queue families has the compute flag |
| Devices.DeviceStepsIsFirstFailure | src/Boza/Device.cpp:11-12 | device construction runs choose, then create, and stops at the first failure |
| Devices.Device.constructor | src/Boza/Device.cpp:7-21 | `ok` iff both steps succeed; the device, family index, logical device and queue follow from how far it got |
| Devices.Device.ChoosePhysicalDevice | src/Boza/Device.cpp:57-112 | on success it picks the first suitable device and its last compute family; a failed enumeration or no suitable device clears `ok` |
| Devices.Device.ScanQueueFamilies | src/Boza/Device.cpp:80-89 | the inner loop finds whether the device is suitable and leaves its last compute family in the index |
| Devices.Device.CreateLogicalDevice | src/Boza/Device.cpp:115-147 | the logical device requests exactly one queue from the compute family; failure clears `ok` |
| Devices.Device.MoveFrom | src/Boza/Device.cpp:29-38 | the target takes everything; the source is left with family index 0 and not ok |
| Devices.Device.MoveAssign | src/Boza/Device.cpp:40-54 | self-assignment changes nothing; otherwise it acts as the move constructor |
| Instances.DriverVerdictNoneIff | src/Boza/Instance.cpp:73-76 | with the names the constructor requires, the check passes iff the build is a release build, or both enumerations succeed and the loader lists the debug-utils extension and the validation layer |
| Instances.EnabledNamesSupported | src/Boza/Instance.cpp:73-97 | every extension and layer a created instance enables was reported as supported by the loader |
| Instances.MessengerNeedsDebugUtils | src/Boza/Instance.cpp:12-19 | a debug messenger exists only on an instance that enabled the debug-utils extension and the validation layer, both reported supported |
| Instances.FirstMissing | src/Boza/Instance.cpp:132-150 | the first required name missing from the supported list; none exactly when all are supported |
| Instances.FirstMissingIs | src/Boza/Instance.cpp:132-150 | a missing name with only supported names before it is the first missing one |
| Instances.SupportVerdictNoneIff | src/Boza/Instance.cpp:99-182 | the check passes iff both lists are empty, or both enumerations succeed and every required name is supported |
| Instances.ExtensionsCheckedFirst | src/Boza/Instance.cpp:132-179 | when an extension is missing, the failure is reported for extensions, before any layer is looked at |
| Instances.Contains | src/Boza/Instance.cpp:134-142 | the inner search loop finds a name iff it equals some supported name |
| Instances.DebugCallback | src/Boza/Instance.cpp:210-218 | verbose, info, warning and error are logged, any other severity is not, and the callback always returns false |
| Instances.CallbackKeepsSeverityOrder | src/Boza/Instance.cpp:212-215 | a more severe message is logged at a higher level |
| Instances.MessengerLogsWarningsAndErrors | src/Boza/Instance.cpp:195 | the messenger subscribes to exactly the severities logged as warn or error |
| Instances.InstanceStepsIsFirstFailure | src/Boza/Instance.cpp:12-19 | instance construction stops at its first failing step: version, support check, create, debug messenger |
| Instances.ReleaseBuildSkipsCheck | src/Boza/Instance.cpp:103 | a release build requires no extension or layer, so the support check makes no enumeration and passes whatever the loader reports, and the constructor leaves no messenger |
| Instances.Instance.constructor | src/Boza/Instance.cpp:12-19 | `ok` iff every step succeeds; the messenger exists only in a debug build after the instance was created |
| Instances.Instance.CreateVkInstance | src/Boza/Instance.cpp:45-97 | the instance gets the app name, engine "Boza", version 0.1.0 and the required layers and extensions; any failure clears `ok` |
| Instances.Instance.CheckExtensionsAndLayersSupport | src/Boza/Instance.cpp:99-182 | the verdict is that of the reference check; extensions are enumerated before layers, and neither when both lists are empty |
| Instances.Instance.MoveFrom | src/Boza/Instance.cpp:27-31 | the target takes the instance and `ok`; the source is left not ok and keeps no instance |
| Instances.Instance.MoveAssign | src/Boza/Instance.cpp:33-42 | self-assignment changes nothing; otherwise the instance and `ok` move and the source is left not ok |
| Meshes.Triples | src/Boza/TriangleLoader.cpp:27-36 | a coordinate array of 3n floats gives n vertices |
| Meshes.TriplesAt | src/Boza/TriangleLoader.cpp:29-36 | vertex j is `(v[3j], v[3j+1], v[3j+2])` |
| Meshes.ShapeIndices | src/Boza/TriangleLoader.cpp:40-41 | one index per face corner, in order, each `vertex_index` cast to `uint32_t` |
| Meshes.MeshIndicesAppend | src/Boza/TriangleLoader.cpp:38-42 | the indices of two batches of shapes are those of the first batch followed by those of the second |
| Meshes.MeshIndicesLength | src/Boza/TriangleLoader.cpp:38-42 | the mesh has one index per face corner over all shapes |
| Meshes.MeshData.constructor | src/Boza/TriangleLoader.hpp:6-10 | a new mesh is empty |
| Meshes.LoadFromObj | src/Boza/TriangleLoader.cpp:9-45 | a failed parse returns false and leaves the mesh untouched; otherwise the old contents are replaced by the vertex triples and the shapes' indices, warnings or not |
| Meshes.ReadVertices | src/Boza/TriangleLoader.cpp:24-36 | the vertex loop makes the mesh vertices the coordinate triples, in order |
| Meshes.ReadIndices | src/Boza/TriangleLoader.cpp:38-42 | the index loops make the mesh indices every shape's indices, shape after shape |
| Apps.AppStepsIsFirstFailure | src/Boza/App.cpp:14-20 | application construction stops at its first failing step: instance, device, command pool |
| Apps.Attempted | src/Boza/App.cpp:14-20 | at most three `create` calls are made after the logger |
| Apps.TeardownReversesCreation | src/Boza/App.cpp:27-33 | the destructor's order is exactly the creation order, logger included, reversed |
| Apps.App.constructor | src/Boza/App.cpp:10-25 | the logger is created first; then each subsystem in order up to the first failure; `hasThrown` iff some step failed |
| Apps.App.CreateSubsystems | src/Boza/App.cpp:14-20 | the checked lambda creates instance, device and command pool until one fails, and reports whether all succeeded |
| Apps.App.Teardown | src/Boza/App.cpp:27-33 | the destructor destroys command pool, device, instance and logger in that order, whatever construction achieved |
| Shaders.ShaderWordCount | src/Boza/ComputeShader.cpp:351-367 | the returned vector holds `file_size / 4` words; a file that cannot be opened gives none |
| Shaders.MaxRangeEndIsMax | src/Boza/ComputeShader.cpp:21-23 | the push-constant size covers every `offset + size`, and is one of them or 0 when there are no ranges |
| Shaders.TotalPushConstantSize | src/Boza/ComputeShader.cpp:21-23 | the running-max loop computes that largest range end |
| Shaders.LayoutBindingsOf | src/Boza/ComputeShader.cpp:219-223 | layout bindings are translated one to one, in order, with the same binding, type, count and stages |
| Shaders.PushRangesOf | src/Boza/ComputeShader.cpp:248-252 | push ranges are translated one to one, in order, with the same stages, offset and size |
| Shaders.TranslateBindings | src/Boza/ComputeShader.cpp:216-223 | the `push_back` loop builds exactly that translation |
| Shaders.TranslateRanges | src/Boza/ComputeShader.cpp:246-252 | the `push_back` loop builds exactly that translation |
| Shaders.AddCount | src/Boza/ComputeShader.cpp:306 | `type_counts[t] += count` gives an entry for t and keeps every other entry |
| Shaders.TypeCountsKeys | src/Boza/ComputeShader.cpp:304-306 | `type_counts` has an entry for exactly the descriptor types the bindings use |
| Shaders.TypeCountsAreTotals | src/Boza/ComputeShader.cpp:304-306 | each entry is the sum of `descriptorCount` over that type's bindings, modulo 2^32 |
| Shaders.AddCountAt | src/Boza/ComputeShader.cpp:306 | one `+=` updates only the binding's own type |
| Shaders.AccumulateModulo | src/Boza/ComputeShader.cpp:306 | adding to a `uint32_t` that holds a reduced total gives the reduced new total |
| Shaders.TypeTotalAbsent | src/Boza/ComputeShader.cpp:304-306 | a type no binding uses totals 0, which is where `operator[]` starts a new entry |
| Shaders.CountTypes | src/Boza/ComputeShader.cpp:304-306 | the accumulation loop computes `type_counts` |
| Shaders.PoolSizesOf | src/Boza/ComputeShader.cpp:308-310 | the pool sizes list each used type exactly once, with its accumulated count, in some order |
| Shaders.PoolSizesCountAll | src/Boza/ComputeShader.cpp:304-316 | when nothing wraps, the pool-size counts add up to the total descriptor count of all bindings |
| Shaders.SizeSumIsTotals | src/Boza/ComputeShader.cpp:308-310 | without wrap-around each pool-size count is its type's exact total |
| Shaders.AppTypeCounts | src/ComputeApp.cpp:89-95 | the application's bindings need one storage image, two storage buffers and one uniform buffer |
| Shaders.StepsDoneIsFirstFailure | src/Boza/ComputeShader.cpp:15-19 | shader construction stops at its first failing step |
| Shaders.ComputeShader.Null | src/Boza/ComputeShader.hpp:25 | a shader from `nullptr` holds nothing and is not ok, since `ok` defaults to false |
| Shaders.ComputeShader.constructor | src/Boza/ComputeShader.cpp:7-26 | `ok` iff every step succeeds; the handles are those of the steps reached, in order; the push-constant block is sized, all zeros, only on full success |
| Shaders.ComputeShader.CreatePipelineObjects | src/Boza/ComputeShader.cpp:15-18 | the first four steps stop at the first failure and keep the handles created so far in order |
| Shaders.ComputeShader.CreatePoolObjects | src/Boza/ComputeShader.cpp:19 | the pool and set step completes the handle list or stops with `ok` cleared |
| Shaders.ComputeShader.CreateShaderModule | src/Boza/ComputeShader.cpp:182-212 | empty code or a driver error fails and clears `ok`; the module size is 4 bytes per word |
| Shaders.ComputeShader.CreateDescriptorSetLayout | src/Boza/ComputeShader.cpp:214-242 | the set layout carries the translated bindings; failure clears `ok` |
| Shaders.ComputeShader.CreatePipelineLayout | src/Boza/ComputeShader.cpp:244-271 | the pipeline layout has one set layout and the translated push ranges; failure clears `ok` |
| Shaders.ComputeShader.CreatePipeline | src/Boza/ComputeShader.cpp:273-300 | the pipeline has a compute stage with entry point `main`; failure clears `ok` |
| Shaders.ComputeShader.CreateDescriptorPoolAndSet | src/Boza/ComputeShader.cpp:302-348 | the pool allows one set and has one size entry per used type; allocation fails unless it succeeds with exactly one set |
| Shaders.ComputeShader.Dispatch | src/Boza/ComputeShader.cpp:164-179 | it binds the pipeline and the single set, pushes the whole block at offset 0 only when it is non-empty, then dispatches the given counts last |
| Shaders.ComputeShader.SetPushConstant | src/Boza/ComputeShader.hpp:82-88 | the bytes are written at the offset only when they fit; otherwise nothing changes and nothing is reported; the length never changes |
| Shaders.ComputeShader.MoveFrom | src/Boza/ComputeShader.cpp:29-44 | the target takes the handles, block and `ok`; the source is left empty and not ok |
| Shaders.ComputeShader.MoveAssign | src/Boza/ComputeShader.cpp:46-66 | self-assignment changes nothing; otherwise it acts as the move constructor |
| ComputeApps.PadVertices | src/ComputeApp.cpp:131-134 | the padding loop keeps count and order, copies xyz and sets w to 0 |
| ComputeApps.Vec4WordsAt | src/ComputeApp.cpp:136 | padded vertex i occupies words 4i to 4i+3, in component order |
| ComputeApps.VertexBytes | src/ComputeApp.cpp:121 | the vertex buffer holds 16 bytes per vertex |
| ComputeApps.IndexBytes | src/ComputeApp.cpp:143 | the index buffer holds 4 bytes per index |
| ComputeApps.VertexBufferLayout | src/ComputeApp.cpp:121-136 | reading the vertex buffer at offset 16i gives vertex i's x, y and z, then a zero w |
| ComputeApps.IndexBufferLayout | src/ComputeApp.cpp:143-153 | reading the index buffer at offset 4k gives index k |
| ComputeApps.DescriptorWritesMatchBindings | src/ComputeApp.cpp:39-42 | each descriptor update targets a binding the shader declared, with the declared type |
| ComputeApps.InitStepsIsFirstFailure | src/ComputeApp.cpp:25-45 | construction runs shader, image, mesh, vertex, index and uniform checks in order and stops at the first failure |
| ComputeApps.InitStepsByStage | src/ComputeApp.cpp:25-45 | the eleven checks stop where the first failing stage (setup, vertex, index, uniform) stops |
| ComputeApps.SaveInputsAsWritten | src/ComputeApp.cpp:68-80 | as written, every frame reached hands its data to the save step, the empty vector after a failed dispatch included |
| ComputeApps.FramesRun | src/ComputeApp.cpp:63-66 | the loop reaches at most the given frames: all of them, or up to the first failed uniform update |
| ComputeApps.SavesAreAtlases | src/ComputeApp.cpp:231-246 | every saved image is `width·g` by `depth·g` RGBA pixels covering its bytes exactly, and frames are saved in increasing order |
| ComputeApps.SavesAll | src/ComputeApp.cpp:63-81 | when every frame reads back a whole grid, frames 1 to n are all saved, in order |
| ComputeApps.AsWrittenSaveReadsPastEnd | src/ComputeApp.cpp:73-80 | as written, a frame whose dispatch fails hands the save step fewer bytes than the rearrangement reads |
| ComputeApps.AsWrittenCounterexample | src/ComputeApp.cpp:73-80 | a 1×1×1 grid whose dispatch cannot begin: all ten frames run, and the first save gets 0 bytes where 4 are read |
| ComputeApps.ComputeApp.constructor | src/ComputeApp.cpp:22-50 | the base application is built first; the checks run even if it failed; each resource exists iff its step was reached and succeeded; `hasThrown` iff the base or any check failed; descriptors are written only when all checks pass |
| ComputeApps.ComputeApp.Initialize | src/ComputeApp.cpp:25-45 | the checked lambda succeeds iff all eleven checks pass, and then binds the four resources |
| ComputeApps.ComputeApp.SetUp | src/ComputeApp.cpp:27-32 | shader, image and mesh in order; on success `index_count` is the mesh's index count as `uint32_t` |
| ComputeApps.ComputeApp.CreateMeshBuffers | src/ComputeApp.cpp:34-37 | the vertex, index and uniform buffers, in order, up to the first failure |
| ComputeApps.ComputeApp.VertexStage | src/ComputeApp.cpp:34 | the vertex buffer check succeeds iff its create, bind and copy do |
| ComputeApps.ComputeApp.IndexAndParamsStage | src/ComputeApp.cpp:35-37 | the index buffer, then the uniform buffer, up to the first failure |
| ComputeApps.ComputeApp.IndexStage | src/ComputeApp.cpp:35 | the index buffer check succeeds iff its create, bind and copy do |
| ComputeApps.ComputeApp.CreateComputeShader | src/ComputeApp.cpp:87-102 | the shader is built with the four application bindings |
| ComputeApps.ComputeApp.CreateOutputImage | src/ComputeApp.cpp:104-116 | the output image is RGBA8, the grid's extent, storage and transfer-source usage, with a view |
| ComputeApps.ComputeApp.CreateVertexBuffer | src/ComputeApp.cpp:119-139 | a host-visible storage buffer of 16 bytes per vertex, bound before it is filled with the padded vertices |
| ComputeApps.ComputeApp.CreateIndexBuffer | src/ComputeApp.cpp:141-156 | a host-visible storage buffer of 4 bytes per index, bound before it is filled with the indices |
| ComputeApps.ComputeApp.CreateUniformBuffer | src/ComputeApp.cpp:159-168 | a uniform buffer the size of `Params`, then bound |
| ComputeApps.DispatchStopsAtFirstFailure | src/ComputeApp.cpp:171-229 | the calls made stop right after the first failing check (1 call after begin, 5 after end, 6 after submit, all 7 otherwise), and a dispatch succeeds iff every check passes |
| ComputeApps.DispatchCoversGrid | src/ComputeApp.cpp:196-199 | the single group launch of a dispatch covers the grid with 8 × 8 × 8 groups, with less than one whole group to spare on each axis |
| ComputeApps.ComputeApp.Dispatch | src/ComputeApp.cpp:171-229 | the calls made are exactly the prefix of begin, barrier to General, group launch, barrier to transfer source, end, submit and wait that reaches the first failing check; it succeeds iff all four checks pass |
| ComputeApps.ComputeApp.DispatchAndRead | src/ComputeApp.cpp:70-75 | the image is read back only after a successful dispatch; otherwise the frame's data stays empty |
| ComputeApps.ComputeApp.SaveImageData | src/ComputeApp.cpp:231-246 | the saved PNG is `width·g` by `depth·g` pixels of 4 bytes, holding the atlas of the grid |
| ComputeApps.ComputeApp.RunAsWritten | src/ComputeApp.cpp:61-84 | frames 1 to 10, whether or not construction succeeded; a failed uniform update returns false; a failed dispatch still sends its empty data to the save step; on success the last parameters are frame 10 with the index count, or with the unassigned value when the mesh was never loaded; when the update of frame i fails, they are those of frame i−1, or unchanged when i is 1 |
| ComputeApps.ComputeApp.Run | src/ComputeApp.cpp:61-84 | frames 1 to 10, whether or not construction succeeded; a failed uniform update returns false; each frame with a whole grid is saved as its atlas; on success the last parameters are frame 10 with the index count, or with the unassigned value when the mesh was never loaded; when the update of frame i fails, they are those of frame i−1, or unchanged when i is 1 |

## Left out

- **The Vulkan driver and the loader.** Handles, image layouts, pipeline barriers, command
  recording, queue submission and memory mapping are results of a driver oracle, or
  recorded calls.
  - The global `defaultDispatchLoaderDynamic` updates (Instance.cpp:14,17 and Device.cpp:14-18,37,51) are not modelled.
  - The `update_*` descriptor writes of the shader are recorded by `ComputeApps.AppDescriptorWrites`; the `VkWriteDescriptorSet` contents are not.
  - The compute queue is taken by family index only.
- **Resource factories.** `ComputeApp` obtains its resources through static factories (`ComputeShader::create`, `Image3D::create`, `Buffer::create`, `Buffer::create_uniform_buffer`, `CommandPool::get_command_buffer`, `Device::get_compute_queue`). These are declared in headers whose interface does not match the `Buffer`, `Image3D`, `Device` and `Instance` classes implemented here.
  - The application's resources are therefore recorded as the requests it makes (size, usage, memory properties, format, bindings) plus the bytes it copies into them, not as instances of the wrapper classes.
  - The factories' success is an input.
- **PNG output and timing.**
  - PNG encoding with `stb_image_write`, its vertical flip and the file names `output_NN.png` are not modelled; a saved image is described by its frame, pixel size and bytes.
  - `std::chrono` timing and the log line per frame are not modelled.
- **OBJ text parsing** by tinyobjloader is an input (`Meshes.ObjParse`); only its flattening into the mesh is modelled.
- **SPIR-V loading.** Reading the binary file is not modelled, and neither is the native-endian byte-to-word reinterpretation. Only the word count of a file of a given size is kept.
  - `load_shader_binary` (ComputeShader.cpp:358-362) sizes its vector to `file_size / 4` words but reads all `file_size` bytes into it. For a file whose size is not a multiple of 4, the last 1 to 3 bytes are written past the end of the vector; a file of 1 to 3 bytes is read into an empty vector. The model keeps only the vector's length and does not model this out-of-bounds write.
- **Floating point.** Coordinates are opaque 32-bit patterns that are only copied. `Params.scale = i * 0.1f` is represented by the frame number i. `std::sqrt` and `std::ceil` are replaced by the integer definitions `Atlas.GridSide` and `Atlas.GroupCount`. For every `uint32_t` operand the double-precision expressions of the source give the same values; that agreement is argued, not proved.
- **Byte order.** The host is taken to be little-endian when words are copied into buffers (`Common.U32Bytes`).
- **Out of scope.**
  - The logger (an output sink with a mutex and wall-clock timestamps) is not modelled.
  - The messages of the check macros are not modelled; their early-return effect is the fail-fast control flow.
  - `CommandPool.cpp` is not part of this model: `Image3D` receives the result of its command-buffer allocation as an input.
  - `main.cpp` is not part of this model.
- **Destructors.** The `ComputeApp` destructor, which destroys the three buffers and the image, is not modelled. Neither are the trace-only destructors of `Device` and `Instance`. The `App` destructor is modelled (`Apps.App.Teardown`).
- **Iteration order.** `unordered_map` iteration order is unspecified; `Shaders.PoolSizesOf` accepts any order.
- **Vulkan limits.** A device reports at most 32 memory types, which bounds the `1 << i` test in `Image3D`. `memoryTypeBits` is not consulted by `Buffer` (Buffer.cpp:51 reads the requirements only for their size).
- Atlas.RearrangeImageData: requires `width·height·depth·4` and the atlas size to fit in 32 bits. Beyond that the source's `uint32_t` index arithmetic wraps, and the model does not follow it.
- Images.Image3D.GetData: requires a fully constructed image with memory, because `get_data` dereferences the image and copy-buffer handles. A call on a failed image is not modelled.
- ComputeApps.ComputeApp.Run: the uniform buffer's own `ok` flag, cleared by a failed update, is not tracked; the run's result is. The run requires the grid and the atlas to fit in 32 bits, as `Atlas.RearrangeImageData` does.
- ComputeApps.ComputeApp.Run and ComputeApps.ComputeApp.RunAsWritten: `run` does not check whether construction succeeded (main.cpp calls it after a failed construction). When construction stopped before the mesh was loaded, `index_count` (ComputeApp.hpp:36) has no initializer; the model takes its indeterminate value as the input `unassigned`. The frame answers remain inputs, so what the driver does with the null shader, image and buffers of such an application is not modelled.
- ComputeApps.ComputeApp.RunAsWritten: the uniform buffer's own `ok` flag is not tracked, as for `Run`.

## Findings

| source | as written | input that shows it | evidently intended | confidence | as-written member | corrected member |
|---|---|---|---|---|---|---|
| src/ComputeApp.cpp:73-80 | a failed `dispatch()` only leaves the timed lambda. The empty `image_data` is still passed to `save_image_data`, whose rearrangement reads `width·height·depth·4` bytes from it (the same happens when `get_data` fails and returns an empty vector) | a 1×1×1 grid whose command buffer cannot begin: the first save gets 0 bytes and reads index 0 | skip saving a frame whose read-back did not produce the whole grid | not executed | ComputeApps.AsWrittenCounterexample | ComputeApps.ComputeApp.Run |

=== FILE: app.dfy ===
/**
 * `boza::App`: the application lifecycle. The logger comes first, then the instance, the
 * device and the command pool, each only if the previous one was created; the destructor
 * tears all four down in the reverse order, whatever construction achieved.
 *
 * The subsystems are created through their static `create` functions, whose results are
 * an oracle (`AppDriver`); the lifecycle is recorded as a sequence of events.
 */
module Apps {
  import opened FailFast

  /** The subsystems the application owns. */
  datatype Subsystem = Logger | Instance | Device | CommandPool

  /** A lifecycle event: a subsystem's `create` was called, or its `destroy`. */
  datatype Event = Create(subsystem: Subsystem) | Destroy(subsystem: Subsystem)

  /** What the three fallible `create` calls return. */
  datatype AppDriver = AppDriver(instanceCreated: bool, deviceCreated: bool, commandPoolCreated: bool)

  /** The fallible subsystems, in creation order. */
  const CREATION_ORDER: seq<Subsystem> := [Instance, Device, CommandPool]

  /** The teardown order of the destructor. */
  const TEARDOWN_ORDER: seq<Subsystem> := [CommandPool, Device, Instance, Logger]

  function AppOutcomes(driver: AppDriver): seq<bool>
  {
    [driver.instanceCreated, driver.deviceCreated, driver.commandPoolCreated]
  }

  /** How many of the three fallible steps succeed before the first failure. */
  function AppSteps(driver: AppDriver): nat
  {
    if !driver.instanceCreated then 0
    else if !driver.deviceCreated then 1
    else if !driver.commandPoolCreated then 2
    else 3
  }

  /** The application's construction stops at its first failing step. */
  lemma AppStepsIsFirstFailure(driver: AppDriver)
    ensures AppSteps(driver) == FirstFailure(AppOutcomes(driver))
    ensures AppSteps(driver) == 3 <==> AllOk(AppOutcomes(driver))
  {
    FirstFailureIs(AppOutcomes(driver), AppSteps(driver));
  }

  /** The `create` calls made: every step up to and including the first failing one. */
  function Attempted(driver: AppDriver): (n: nat)
    ensures n <= 3
  {
    if AppSteps(driver) == 3 then 3 else AppSteps(driver) + 1
  }

  function CreateEvents(subsystems: seq<Subsystem>): seq<Event>
  {
    seq(|subsystems|, i requires 0 <= i < |subsystems| => Create(subsystems[i]))
  }

  function DestroyEvents(subsystems: seq<Subsystem>): seq<Event>
  {
    seq(|subsystems|, i requires 0 <= i < |subsystems| => Destroy(subsystems[i]))
  }

  function Reverse<T>(s: seq<T>): (r: seq<T>)
    ensures |r| == |s|
    ensures forall i :: 0 <= i < |s| ==> r[i] == s[|s| - 1 - i]
  {
    if s == [] then [] else Reverse(s[1..]) + [s[0]]
  }

  /** The destructor undoes the full creation order, logger included, in reverse. */
  lemma TeardownReversesCreation()
    ensures TEARDOWN_ORDER == Reverse([Logger] + CREATION_ORDER)
  {
    var r := Reverse([Logger] + CREATION_ORDER);
    assert r[0] == CommandPool && r[1] == Device && r[2] == Instance && r[3] == Logger;
  }

  class App {
    var hasThrown: bool
    /** Every `create` and `destroy` call made so far, in order. */
    var events: seq<Event>

    /** `operator bool`: the application is usable when nothing failed. */
    predicate IsOk()
      reads this
    {
      !hasThrown
    }

    /**
     * Create the logger, then the instance, the device and the command pool; the first
     * failure skips the rest and sets `hasThrown`.
     */
    constructor (driver: AppDriver)
      ensures hasThrown == (AppSteps(driver) < 3)
      ensures events == [Create(Logger)] + CreateEvents(CREATION_ORDER[..Attempted(driver)])
    {
      hasThrown := false;
      events := [Create(Logger)];
      new;
      var ok := CreateSubsystems(driver);
      if !ok {
        hasThrown := true;
      }
    }

    /** The checked lambda of the constructor: each `create` runs only if the previous ones returned true. */
    method CreateSubsystems(driver: AppDriver) returns (ok: bool)
      modifies this
      ensures ok == (AppSteps(driver) == 3)
      ensures events == old(events) + CreateEvents(CREATION_ORDER[..Attempted(driver)])
      ensures hasThrown == old(hasThrown)
    {
      events := events + [Create(Instance)];
      if !driver.instanceCreated {
        return false;
      }
      events := events + [Create(Device)];
      if !driver.deviceCreated {
        return false;
      }
      events := events + [Create(CommandPool)];
      if !driver.commandPoolCreated {
        return false;
      }
      return true;
    }

    /** The destructor: tear everything down in reverse order, whether or not construction succeeded. */
    method Teardown()
      modifies this
      ensures events == old(events) + DestroyEvents(TEARDOWN_ORDER)
      ensures hasThrown == old(hasThrown)
    {
      events := events + [Destroy(CommandPool)];
      events := events + [Destroy(Device)];
      events := events + [Destroy(Instance)];
      events := events + [Destroy(Logger)];
    }
  }
}

=== FILE: atlas.dfy ===
/**
 * The slice-to-atlas rearrangement of `ComputeApp::rearrange_image_data` and the launch
 * arithmetic around it (grid side, atlas size, workgroup counts).
 *
 * The read-back voxel grid stores texel (x, slice, z), channel c at byte
 * ((z * height + slice) * width + x) * 4 + c. The atlas is a 2D RGBA8 image made of
 * side x side tiles, each width x depth pixels; slice s goes to tile column s % side and
 * tile row s / side.
 */
module Atlas {
  import opened Common

  // ---------------------------------------------------------------------------------------
  // Arithmetic facts the index proofs rest on
  // ---------------------------------------------------------------------------------------

  lemma MulMono(a: int, b: int, n: int)
    requires 0 <= a <= b && 0 <= n
    ensures a * n <= b * n
  {
    assert b * n - a * n == (b - a) * n;
  }

  /** Mixed-radix digits stay below the product of the radices. */
  lemma Radix(a: int, b: int, bigA: int, bigB: int)
    requires 0 <= a < bigA && 0 <= b < bigB
    ensures 0 <= a * bigB + b < bigA * bigB
  {
    MulMono(a + 1, bigA, bigB);
    MulMono(0, a, bigB);
  }

  /** Division and remainder recover the digits of q * n + r. */
  lemma DivModOf(q: int, r: int, n: int)
    requires 0 <= q && 0 <= r < n
    ensures (q * n + r) / n == q
    ensures (q * n + r) % n == r
  {
    var a := q * n + r;
    var q', r' := a / n, a % n;
    assert a == q' * n + r';
    assert q' * n < (q + 1) * n;
    assert q * n < (q' + 1) * n;
    LessMul(q', q + 1, n);
    LessMul(q, q' + 1, n);
  }

  /** The quotient and remainder of a natural by a positive divisor. */
  lemma DivMod(a: int, n: int)
    requires 0 <= a && 0 < n
    ensures 0 <= a / n && 0 <= a % n < n
    ensures a == (a / n) * n + a % n
  {
  }

  /** Cancelling a positive factor from a strict inequality. */
  lemma LessMul(a: int, b: int, n: int)
    requires n > 0 && a * n < b * n
    ensures a < b
  {
    assert (b - a) * n > 0;
  }

  /** A square is monotone on naturals, read backwards. */
  lemma SquareLess(a: int, b: int)
    requires 0 <= a && 0 <= b && a * a < b * b
    ensures a < b
  {
    assert (b - a) * (b + a) > 0;
  }

  lemma DivBelow(a: int, g: int)
    requires 0 <= a < g * g && 0 < g
    ensures a / g < g
  {
    var q := a / g;
    assert q * g <= a;
    LessMul(q, g, g);
  }

  // ---------------------------------------------------------------------------------------
  // Grid side: ceil(sqrt(height)) on integers
  // ---------------------------------------------------------------------------------------

  /** Search upwards from g for the least side whose square covers height. */
  function SideFrom(height: nat, g: nat): (r: nat)
    requires g == 0 || (g - 1) * (g - 1) < height
    ensures r * r >= height
    ensures r == 0 || (r - 1) * (r - 1) < height
    decreases height - g
  {
    if g * g >= height then g
    else
      assert g < height by {
        assert g * g < height;
        MulMono(1, if g == 0 then 1 else g, g);
      }
      SideFrom(height, g + 1)
  }

  /**
   * `ceil(sqrt(height))`: the number of tiles on each side of the atlas. Computed on
   * integers; for any `uint32_t` height the double-precision expression of the source
   * yields the same value.
   */
  function GridSide(height: nat): (g: nat)
    ensures g * g >= height
    ensures g == 0 || (g - 1) * (g - 1) < height
  {
    SideFrom(height, 0)
  }

  lemma GridSideIsLeast(height: nat, k: nat)
    requires k * k >= height
    ensures GridSide(height) <= k
  {
    var g := GridSide(height);
    if g > 0 {
      SquareLess(g - 1, k);
    }
  }

  /** Any side that covers height and whose predecessor does not is the grid side. */
  lemma GridSideIs(height: nat, g: nat)
    requires g * g >= height
    requires g == 0 || (g - 1) * (g - 1) < height
    ensures GridSide(height) == g
  {
    GridSideIsLeast(height, g);
    var s := GridSide(height);
    if g > 0 {
      SquareLess(g - 1, s);
    }
  }

  lemma GridSideExamples()
    ensures GridSide(0) == 0
    ensures GridSide(1) == 1
    ensures GridSide(2) == 2
    ensures GridSide(64) == 8
    ensures GridSide(65) == 9
  {
    GridSideIs(0, 0);
    GridSideIs(1, 1);
    GridSideIs(2, 2);
    GridSideIs(64, 8);
    GridSideIs(65, 9);
  }

  // ---------------------------------------------------------------------------------------
  // Workgroup counts
  // ---------------------------------------------------------------------------------------

  /** `ceil(extent / 8.0)`: workgroups of the fixed local size 8 needed to cover extent. */
  function GroupCount(extent: nat): (n: nat)
    ensures 8 * n >= extent
    ensures 8 * n < extent + 8
  {
    (extent + 7) / 8
  }

  lemma GroupCountExamples()
    ensures GroupCount(128) == 16 && GroupCount(64) == 8 && GroupCount(1) == 1 && GroupCount(0) == 0
  {
  }

  // ---------------------------------------------------------------------------------------
  // Index spaces
  // ---------------------------------------------------------------------------------------

  /** One byte of the voxel grid: channel c of texel (x, slice, z). */
  datatype Texel = Texel(slice: nat, z: nat, x: nat, c: nat)

  predicate InGrid(t: Texel, width: nat, height: nat, depth: nat)
  {
    t.slice < height && t.z < depth && t.x < width && t.c < 4
  }

  /** Byte length of a width x height x depth RGBA8 grid. */
  function GridSize(width: nat, height: nat, depth: nat): nat
  {
    width * height * depth * 4
  }

  /** `output_size_x * output_size_y * 4`, with `output_size_x = width * side`, `output_size_y = depth * side`. */
  function AtlasSize(width: nat, height: nat, depth: nat): nat
  {
    var side := GridSide(height);
    (width * side) * (depth * side) * 4
  }

  /** `src_idx`: where the texel byte sits in the read-back grid. */
  function SourceIndex(t: Texel, width: nat, height: nat): nat
  {
    ((t.z * height + t.slice) * width + t.x) * 4 + t.c
  }

  /** `dst_idx`: where the texel byte goes in the atlas of the given grid side. */
  function AtlasIndex(t: Texel, width: nat, depth: nat, side: nat): nat
    requires side > 0
  {
    var tileX: nat := t.slice % side;
    var tileY: nat := t.slice / side;
    var gridX: nat := tileX * width;
    var gridY: nat := tileY * depth;
    var sizeX: nat := width * side;
    var row: nat := gridY + t.z;
    var rowStart: nat := row * sizeX;
    (rowStart + (gridX + t.x)) * 4 + t.c
  }

  /** The texel whose byte an atlas offset holds (its slice is >= height in uncovered tiles). */
  function AtlasTexel(i: nat, width: nat, depth: nat, side: nat): (t: Texel)
    requires width > 0 && depth > 0 && side > 0
    ensures t.c < 4 && t.x < width && t.z < depth
  {
    var p := i / 4;
    var sizeX: nat := width * side;
    var row: nat := p / sizeX;
    var col: nat := p % sizeX;
    var tileY: nat := row / depth;
    var tileX: nat := col / width;
    var sliceBase: nat := tileY * side;
    Texel(sliceBase + tileX, row % depth, col % width, i % 4)
  }

  /** The texel stored at a grid offset. */
  function SourceTexel(j: nat, width: nat, height: nat): (t: Texel)
    requires width > 0 && height > 0
    ensures t.c < 4 && t.x < width && t.slice < height
  {
    var p := j / 4;
    var row := p / width;
    Texel(row % height, row / height, p % width, j % 4)
  }

  lemma AtlasSizePositive(width: nat, height: nat, depth: nat)
    requires AtlasSize(width, height, depth) > 0
    ensures width > 0 && depth > 0 && GridSide(height) > 0
  {
  }

  lemma SourceIndexInGrid(t: Texel, width: nat, height: nat, depth: nat)
    requires InGrid(t, width, height, depth)
    ensures SourceIndex(t, width, height) < GridSize(width, height, depth)
  {
    var row := t.z * height + t.slice;
    var p := row * width + t.x;
    Radix(t.z, t.slice, depth, height);
    Radix(row, t.x, depth * height, width);
    Radix(p, t.c, depth * height * width, 4);
  }

  /** The atlas offset of a texel, written with its tile digits. */
  lemma AtlasIndexDigits(t: Texel, width: nat, depth: nat, g: nat)
    requires g > 0
    ensures AtlasIndex(t, width, depth, g)
         == ((t.slice / g * depth + t.z) * (width * g) + (t.slice % g * width + t.x)) * 4 + t.c
  {
  }

  /** An atlas offset built from in-range digits lies inside the atlas. */
  lemma AtlasDigitsBound(tileY: int, tileX: int, z: int, x: int, c: int, width: int, depth: int, g: int)
    requires 0 <= tileY < g && 0 <= tileX < g && 0 <= z < depth && 0 <= x < width && 0 <= c < 4
    ensures 0 <= ((tileY * depth + z) * (width * g) + (tileX * width + x)) * 4 + c
    ensures ((tileY * depth + z) * (width * g) + (tileX * width + x)) * 4 + c < (width * g) * (depth * g) * 4
  {
    var col := tileX * width + x;
    var row := tileY * depth + z;
    Radix(tileX, x, g, width);
    assert col < width * g;
    Radix(tileY, z, g, depth);
    assert row < depth * g;
    Radix(row, col, depth * g, width * g);
    var p := row * (width * g) + col;
    assert p < (width * g) * (depth * g);
    Radix(p, c, (width * g) * (depth * g), 4);
  }

  /** Decoding an atlas offset built from in-range digits recovers the digits. */
  lemma AtlasDigitsDecode(tileY: int, tileX: int, z: int, x: int, c: int, width: int, depth: int, g: int)
    requires 0 <= tileY && 0 <= tileX < g && 0 <= z < depth && 0 <= x < width && 0 <= c < 4
    ensures 0 <= ((tileY * depth + z) * (width * g) + (tileX * width + x)) * 4 + c
    ensures AtlasTexel(((tileY * depth + z) * (width * g) + (tileX * width + x)) * 4 + c, width, depth, g)
         == Texel(tileY * g + tileX, z, x, c)
  {
    var col := tileX * width + x;
    var row := tileY * depth + z;
    var sizeX := width * g;
    var p := row * sizeX + col;
    Radix(tileX, x, g, width);
    assert col < sizeX;
    DivModOf(p, c, 4);
    DivModOf(row, col, sizeX);
    DivModOf(tileY, z, depth);
    DivModOf(tileX, x, width);
  }

  /** Encoding a texel and decoding the offset gives the texel back; the offset is in the atlas. */
  lemma AtlasTexelOfIndex(t: Texel, width: nat, height: nat, depth: nat)
    requires InGrid(t, width, height, depth)
    ensures GridSide(height) > 0
    ensures AtlasIndex(t, width, depth, GridSide(height)) < AtlasSize(width, height, depth)
    ensures AtlasTexel(AtlasIndex(t, width, depth, GridSide(height)), width, depth, GridSide(height)) == t
  {
    var g := GridSide(height);
    DivBelow(t.slice, g);
    DivMod(t.slice, g);
    AtlasIndexDigits(t, width, depth, g);
    AtlasDigitsBound(t.slice / g, t.slice % g, t.z, t.x, t.c, width, depth, g);
    AtlasDigitsDecode(t.slice / g, t.slice % g, t.z, t.x, t.c, width, depth, g);
  }

  /** Decoding an atlas offset and encoding the texel gives the offset back. */
  lemma AtlasIndexOfTexel(i: nat, width: nat, height: nat, depth: nat)
    requires i < AtlasSize(width, height, depth)
    ensures width > 0 && depth > 0 && GridSide(height) > 0
    ensures AtlasIndex(AtlasTexel(i, width, depth, GridSide(height)), width, depth, GridSide(height)) == i
  {
    var g := GridSide(height);
    AtlasSizePositive(width, height, depth);
    var sizeX := width * g;
    var p, c := i / 4, i % 4;
    DivMod(i, 4);
    var row, col := p / sizeX, p % sizeX;
    DivMod(p, sizeX);
    var tileY, z := row / depth, row % depth;
    DivMod(row, depth);
    var tileX, x := col / width, col % width;
    DivMod(col, width);
    assert tileX < g by {
      assert tileX * width <= col < g * width;
      LessMul(tileX, g, width);
    }
    var t := AtlasTexel(i, width, depth, g);
    assert t == Texel(tileY * g + tileX, z, x, c);
    AtlasIndexOfTile(tileY, tileX, z, x, c, width, depth, g);
    assert row == tileY * depth + z && col == tileX * width + x;
    assert p == row * sizeX + col && i == p * 4 + c;
  }

  /** The offset of a texel given by its tile row and column. */
  lemma AtlasIndexOfTile(tileY: nat, tileX: nat, z: nat, x: nat, c: nat, width: nat, depth: nat, side: nat)
    requires tileX < side
    ensures AtlasIndex(Texel(tileY * side + tileX, z, x, c), width, depth, side)
         == ((tileY * depth + z) * (width * side) + (tileX * width + x)) * 4 + c
  {
    DivModOf(tileY, tileX, side);
  }

  /** The digits of a grid offset: it is rebuilt from them, and the outermost one is below depth. */
  lemma SourceDigits(j: int, width: int, height: int, depth: int)
    requires 0 <= j < width * height * depth * 4 && width > 0 && height > 0
    ensures 0 <= j / 4 / width / height < depth
    ensures ((j / 4 / width / height * height + j / 4 / width % height) * width + j / 4 % width) * 4 + j % 4 == j
  {
    var p := j / 4;
    DivMod(j, 4);
    var row := p / width;
    DivMod(p, width);
    DivMod(row, height);
    assert p < width * height * depth by {
      assert p * 4 <= j < (width * height * depth) * 4;
      LessMul(p, width * height * depth, 4);
    }
    assert row / height < depth by {
      assert row * width <= p < (depth * height) * width;
      LessMul(row, depth * height, width);
      assert (row / height) * height <= row < depth * height;
      LessMul(row / height, depth, height);
    }
  }

  /** Decoding a grid offset gives a texel of the grid whose offset it is. */
  lemma SourceTexelOfIndex(j: nat, width: nat, height: nat, depth: nat)
    requires j < GridSize(width, height, depth)
    ensures width > 0 && height > 0
    ensures InGrid(SourceTexel(j, width, height), width, height, depth)
    ensures SourceIndex(SourceTexel(j, width, height), width, height) == j
  {
    SourceDigits(j, width, height, depth);
  }

  // ---------------------------------------------------------------------------------------
  // The atlas, defined byte by byte
  // ---------------------------------------------------------------------------------------

  /**
   * The byte the atlas holds at offset i: the channel of the texel whose tile covers i,
   * or 0 where the tile belongs to no slice.
   */
  function AtlasByte(image: seq<Byte>, width: nat, height: nat, depth: nat, i: nat): Byte
    requires |image| >= GridSize(width, height, depth)
    requires i < AtlasSize(width, height, depth)
  {
    AtlasSizePositive(width, height, depth);
    var t := AtlasTexel(i, width, depth, GridSide(height));
    if t.slice < height then
      SourceIndexInGrid(t, width, height, depth);
      image[SourceIndex(t, width, height)]
    else 0
  }

  /** Every grid byte is copied to its tile position: `out[dst_idx] == in[src_idx]`. */
  lemma CopiedToTile(image: seq<Byte>, width: nat, height: nat, depth: nat, t: Texel)
    requires |image| >= GridSize(width, height, depth)
    requires InGrid(t, width, height, depth)
    ensures GridSide(height) > 0
    ensures AtlasIndex(t, width, depth, GridSide(height)) < AtlasSize(width, height, depth)
    ensures SourceIndex(t, width, height) < GridSize(width, height, depth)
    ensures AtlasByte(image, width, height, depth, AtlasIndex(t, width, depth, GridSide(height)))
         == image[SourceIndex(t, width, height)]
  {
    AtlasTexelOfIndex(t, width, height, depth);
    SourceIndexInGrid(t, width, height, depth);
  }

  /** Distinct texels land on distinct atlas bytes: tiles never overlap. */
  lemma TilesDisjoint(t1: Texel, t2: Texel, width: nat, height: nat, depth: nat)
    requires InGrid(t1, width, height, depth) && InGrid(t2, width, height, depth)
    requires t1 != t2
    ensures GridSide(height) > 0
    ensures AtlasIndex(t1, width, depth, GridSide(height)) != AtlasIndex(t2, width, depth, GridSide(height))
  {
    AtlasTexelOfIndex(t1, width, height, depth);
    AtlasTexelOfIndex(t2, width, height, depth);
  }

  /** An atlas byte that no texel of the grid is copied to stays 0. */
  lemma UncoveredIsZero(image: seq<Byte>, width: nat, height: nat, depth: nat, i: nat)
    requires |image| >= GridSize(width, height, depth)
    requires i < AtlasSize(width, height, depth)
    requires GridSide(height) > 0
    requires forall t :: InGrid(t, width, height, depth) ==> AtlasIndex(t, width, depth, GridSide(height)) != i
    ensures AtlasByte(image, width, height, depth, i) == 0
  {
    AtlasIndexOfTexel(i, width, height, depth);
    var t := AtlasTexel(i, width, depth, GridSide(height));
    if t.slice < height {
      assert InGrid(t, width, height, depth);
    }
  }

  /**
   * Each byte of the grid appears in the atlas exactly once: at offset i it is copied to,
   * and at no other offset whose texel exists.
   */
  lemma EachSourceByteOnce(image: seq<Byte>, width: nat, height: nat, depth: nat, j: nat)
    requires |image| >= GridSize(width, height, depth)
    requires j < GridSize(width, height, depth)
    ensures width > 0 && height > 0 && GridSide(height) > 0
    ensures var i := AtlasIndex(SourceTexel(j, width, height), width, depth, GridSide(height));
      && i < AtlasSize(width, height, depth)
      && AtlasByte(image, width, height, depth, i) == image[j]
      && forall i' :: 0 <= i' < AtlasSize(width, height, depth)
           && AtlasTexel(i', width, depth, GridSide(height)).slice < height
           && SourceIndex(AtlasTexel(i', width, depth, GridSide(height)), width, height) == j
           ==> i' == i
  {
    SourceTexelOfIndex(j, width, height, depth);
    var t := SourceTexel(j, width, height);
    CopiedToTile(image, width, height, depth, t);
    var g := GridSide(height);
    var i := AtlasIndex(t, width, depth, g);
    forall i' | 0 <= i' < AtlasSize(width, height, depth)
        && AtlasTexel(i', width, depth, g).slice < height
        && SourceIndex(AtlasTexel(i', width, depth, g), width, height) == j
      ensures i' == i
    {
      var t' := AtlasTexel(i', width, depth, g);
      AtlasIndexOfTexel(i', width, height, depth);
      assert InGrid(t', width, height, depth);
      SourceTexelOfIndex(j, width, height, depth);
      SourceIndexInjective(t, t', width, height, depth);
    }
  }

  lemma SourceIndexInjective(t1: Texel, t2: Texel, width: nat, height: nat, depth: nat)
    requires InGrid(t1, width, height, depth) && InGrid(t2, width, height, depth)
    requires SourceIndex(t1, width, height) == SourceIndex(t2, width, height)
    ensures t1 == t2
  {
    var j := SourceIndex(t1, width, height);
    SourceIndexInGrid(t1, width, height, depth);
    DivModOf((t1.z * height + t1.slice) * width + t1.x, t1.c, 4);
    DivModOf((t2.z * height + t2.slice) * width + t2.x, t2.c, 4);
    DivModOf(t1.z * height + t1.slice, t1.x, width);
    DivModOf(t2.z * height + t2.slice, t2.x, width);
    DivModOf(t1.z, t1.slice, height);
    DivModOf(t2.z, t2.slice, height);
  }

  // ---------------------------------------------------------------------------------------
  // The in-place fill of rearrange_image_data
  // ---------------------------------------------------------------------------------------

  /** Lexicographic order of the loop nest (slice, z, x, c): u is copied before n. */
  predicate Precedes(u: Texel, n: Texel)
  {
    u.slice < n.slice || (u.slice == n.slice &&
      (u.z < n.z || (u.z == n.z &&
        (u.x < n.x || (u.x == n.x && u.c < n.c)))))
  }

  /** The output holds the atlas bytes of every texel copied before next, and 0 elsewhere. */
  ghost predicate Filled(a: seq<Byte>, image: seq<Byte>, width: nat, height: nat, depth: nat, next: Texel)
    requires |image| >= GridSize(width, height, depth)
  {
    && |a| == AtlasSize(width, height, depth)
    && (width > 0 && depth > 0 && GridSide(height) > 0 ==>
         forall i :: 0 <= i < |a| ==>
           a[i] == if Precedes(AtlasTexel(i, width, depth, GridSide(height)), next)
                   then AtlasByte(image, width, height, depth, i) else 0)
  }

  /** One atlas byte after copying the byte of texel t: the fill moves past t and no further. */
  lemma FillStepAt(a: seq<Byte>, image: seq<Byte>, width: nat, height: nat, depth: nat, t: Texel, i: nat)
    requires |image| >= GridSize(width, height, depth)
    requires InGrid(t, width, height, depth)
    requires |a| == AtlasSize(width, height, depth) && i < |a|
    requires GridSide(height) > 0
    requires a[i] == if Precedes(AtlasTexel(i, width, depth, GridSide(height)), t)
                     then AtlasByte(image, width, height, depth, i) else 0
    ensures AtlasIndex(t, width, depth, GridSide(height)) < |a|
    ensures SourceIndex(t, width, height) < |image|
    ensures a[AtlasIndex(t, width, depth, GridSide(height)) := image[SourceIndex(t, width, height)]][i]
         == if Precedes(AtlasTexel(i, width, depth, GridSide(height)), t.(c := t.c + 1))
            then AtlasByte(image, width, height, depth, i) else 0
  {
    var g := GridSide(height);
    CopiedToTile(image, width, height, depth, t);
    var dst := AtlasIndex(t, width, depth, g);
    var u := AtlasTexel(i, width, depth, g);
    if i == dst {
      AtlasTexelOfIndex(t, width, height, depth);
    } else {
      AtlasIndexOfTexel(i, width, height, depth);
      assert AtlasIndex(u, width, depth, g) == i;
      assert u != t;
      assert Precedes(u, t) <==> Precedes(u, t.(c := t.c + 1));
    }
  }

  /** Copying the byte of texel t advances the fill by one position of the loop nest. */
  lemma FillStep(a: seq<Byte>, image: seq<Byte>, width: nat, height: nat, depth: nat, t: Texel)
    requires |image| >= GridSize(width, height, depth)
    requires InGrid(t, width, height, depth)
    requires Filled(a, image, width, height, depth, t)
    ensures GridSide(height) > 0
    ensures AtlasIndex(t, width, depth, GridSide(height)) < |a|
    ensures SourceIndex(t, width, height) < |image|
    ensures Filled(a[AtlasIndex(t, width, depth, GridSide(height)) := image[SourceIndex(t, width, height)]],
                   image, width, height, depth, t.(c := t.c + 1))
  {
    CopiedToTile(image, width, height, depth, t);
    var a' := a[AtlasIndex(t, width, depth, GridSide(height)) := image[SourceIndex(t, width, height)]];
    forall i | 0 <= i < |a'|
      ensures a'[i] == if Precedes(AtlasTexel(i, width, depth, GridSide(height)), t.(c := t.c + 1))
                       then AtlasByte(image, width, height, depth, i) else 0
    {
      FillStepAt(a, image, width, height, depth, t, i);
    }
  }

  /** Two loop positions that no texel lies between describe the same fill. */
  lemma FillCarry(a: seq<Byte>, image: seq<Byte>, width: nat, height: nat, depth: nat, n1: Texel, n2: Texel)
    requires |image| >= GridSize(width, height, depth)
    requires Filled(a, image, width, height, depth, n1)
    requires forall u: Texel :: u.c < 4 && u.x < width && u.z < depth ==> (Precedes(u, n1) <==> Precedes(u, n2))
    ensures Filled(a, image, width, height, depth, n2)
  {
  }

  /**
   * `rearrange_image_data`: copy each height slice of the read-back grid into its own tile
   * of a zero-filled atlas, with the source's four nested loops. The indices are computed
   * in `uint32_t` by the source; the preconditions on the two sizes say that none of them wraps.
   */
  method RearrangeImageData(image: seq<Byte>, width: U32, height: U32, depth: U32) returns (atlas: seq<Byte>)
    requires |image| >= GridSize(width, height, depth)
    requires GridSize(width, height, depth) <= UINT32_MAX
    requires AtlasSize(width, height, depth) <= UINT32_MAX
    ensures |atlas| == AtlasSize(width, height, depth)
    ensures forall i :: 0 <= i < |atlas| ==> atlas[i] == AtlasByte(image, width, height, depth, i)
  {
    var side := GridSide(height);
    var sizeX := width * side;
    var sizeY := depth * side;
    var out := new Byte[sizeX * sizeY * 4](_ => 0);
    var slice := 0;
    while slice < height
      invariant slice <= height
      invariant Filled(out[..], image, width, height, depth, Texel(slice, 0, 0, 0))
    {
      var gridX := (slice % side) * width;
      var gridY := (slice / side) * depth;
      var z := 0;
      while z < depth
        invariant z <= depth
        invariant Filled(out[..], image, width, height, depth, Texel(slice, z, 0, 0))
      {
        var x := 0;
        while x < width
          invariant x <= width
          invariant Filled(out[..], image, width, height, depth, Texel(slice, z, x, 0))
        {
          var c := 0;
          while c < 4
            invariant c <= 4
            invariant Filled(out[..], image, width, height, depth, Texel(slice, z, x, c))
          {
            var src := ((z * height + slice) * width + x) * 4 + c;
            var dst := ((gridY + z) * sizeX + (gridX + x)) * 4 + c;
            FillStep(out[..], image, width, height, depth, Texel(slice, z, x, c));
            assert src == SourceIndex(Texel(slice, z, x, c), width, height);
            assert dst == AtlasIndex(Texel(slice, z, x, c), width, depth, side);
            out[dst] := image[src];
            c := c + 1;
          }
          FillCarry(out[..], image, width, height, depth, Texel(slice, z, x, 4), Texel(slice, z, x + 1, 0));
          x := x + 1;
        }
        FillCarry(out[..], image, width, height, depth, Texel(slice, z, width, 0), Texel(slice, z + 1, 0, 0));
        z := z + 1;
      }
      FillCarry(out[..], image, width, height, depth, Texel(slice, depth, 0, 0), Texel(slice + 1, 0, 0, 0));
      slice := slice + 1;
    }
    atlas := out[..];
    forall i | 0 <= i < |atlas|
      ensures atlas[i] == AtlasByte(image, width, height, depth, i)
    {
      AtlasSizePositive(width, height, depth);
    }
  }
}

=== FILE: buffer.dfy ===
/**
 * `boza::Buffer`: a Vulkan buffer with its own device memory, and the host-side writes
 * into that memory. The driver is an oracle (`BufferDriver`); the memory is modelled by
 * its bytes as the host sees them through a mapping.
 */
module Buffers {
  import opened Common
  import opened FailFast

  /** `vk::MemoryPropertyFlags`. */
  type MemoryPropertyFlags = bv32

  const DEVICE_LOCAL: MemoryPropertyFlags := 0x1
  const HOST_VISIBLE: MemoryPropertyFlags := 0x2
  const HOST_COHERENT: MemoryPropertyFlags := 0x4

  /** `vk::BufferUsageFlags`. */
  type BufferUsageFlags = bv32

  const TRANSFER_DST_USAGE: BufferUsageFlags := 0x2
  const UNIFORM_BUFFER_USAGE: BufferUsageFlags := 0x10
  const STORAGE_BUFFER_USAGE: BufferUsageFlags := 0x20

  /** The property flags of each memory type of a physical device; Vulkan reports at most 32 types. */
  type MemoryTypes = s: seq<MemoryPropertyFlags> | |s| <= 32

  /** A memory type offers every requested property. */
  predicate Supports(flags: MemoryPropertyFlags, properties: MemoryPropertyFlags)
  {
    flags & properties == properties
  }

  /** Index i is the first memory type that offers every requested property. */
  predicate IsFirstSupporting(types: MemoryTypes, properties: MemoryPropertyFlags, i: nat)
  {
    i < |types| && Supports(types[i], properties) && forall j :: 0 <= j < i ==> !Supports(types[j], properties)
  }

  predicate AnySupporting(types: MemoryTypes, properties: MemoryPropertyFlags)
  {
    exists i :: 0 <= i < |types| && Supports(types[i], properties)
  }

  /**
   * The memory-type search of the constructor: the first type whose flags include every
   * requested property, or `UINT32_MAX` when there is none. The buffer's own
   * `memoryTypeBits` are not consulted.
   */
  method FindMemoryType(types: MemoryTypes, properties: MemoryPropertyFlags) returns (index: U32)
    ensures index == UINT32_MAX <==> !AnySupporting(types, properties)
    ensures index != UINT32_MAX ==> IsFirstSupporting(types, properties, index)
  {
    var i := 0;
    while i < |types|
      invariant i <= |types|
      invariant forall j :: 0 <= j < i ==> !Supports(types[j], properties)
    {
      if Supports(types[i], properties) {
        return i;
      }
      i := i + 1;
    }
    return UINT32_MAX;
  }

  /** `vk::BufferCreateInfo` as far as the model looks at it: exclusive to one queue family. */
  datatype BufferInfo = BufferInfo(size: nat, usage: BufferUsageFlags, queueFamilyIndex: U32)

  /** `vk::MemoryAllocateInfo`. */
  datatype Allocation = Allocation(size: nat, memoryTypeIndex: U32)

  /**
   * What the environment answers: the result of `createBufferUnique`, the memory types of
   * the physical device, the compute queue family of the device, the result of
   * `allocateMemoryUnique`, and the bytes the new allocation holds (its length is the
   * buffer's memory-requirement size).
   */
  datatype BufferDriver = BufferDriver(
    createResult: VkResult,
    memoryTypes: MemoryTypes,
    queueFamilyIndex: U32,
    allocateResult: VkResult,
    initialMemory: seq<Byte>)

  /** How many of the three creation steps (buffer, memory type, allocation) succeed before the first failure. */
  function BufferSteps(driver: BufferDriver, properties: MemoryPropertyFlags): nat
  {
    if driver.createResult != Success then 0
    else if !AnySupporting(driver.memoryTypes, properties) then 1
    else if driver.allocateResult != Success then 2
    else 3
  }

  /** The outcome of each creation step. */
  function BufferOutcomes(driver: BufferDriver, properties: MemoryPropertyFlags): seq<bool>
  {
    [driver.createResult == Success, AnySupporting(driver.memoryTypes, properties), driver.allocateResult == Success]
  }

  /** The constructor's sequence is fail-fast: it stops exactly at the first failing step. */
  lemma BufferStepsIsFirstFailure(driver: BufferDriver, properties: MemoryPropertyFlags)
    ensures BufferSteps(driver, properties) == FirstFailure(BufferOutcomes(driver, properties))
    ensures BufferSteps(driver, properties) == 3 <==> AllOk(BufferOutcomes(driver, properties))
  {
    FirstFailureIs(BufferOutcomes(driver, properties), BufferSteps(driver, properties));
  }

  class Buffer {
    /** The buffer handle and its create-info, once created. */
    var buffer: Option<BufferInfo>
    /** The memory handle and its allocate-info, once allocated. */
    var allocation: Option<Allocation>
    /** The bytes of the allocation, as a host mapping sees them. */
    var memory: seq<Byte>
    /** Whether the memory has been bound to the buffer. */
    var bound: bool
    var size: nat
    var hasDevice: bool
    var ok: bool

    /** `operator bool`. */
    predicate IsOk()
      reads this
    {
      ok
    }

    /**
     * `Buffer(nullptr)`: holds nothing. The header declaring it has no `ok` flag; the null
     * buffer is taken to be not ok, the state a moved-from buffer is left in.
     */
    constructor Null()
      ensures buffer == None && allocation == None && memory == [] && !bound
      ensures size == 0 && !hasDevice && !IsOk()
    {
      buffer := None;
      allocation := None;
      memory := [];
      bound := false;
      size := 0;
      hasDevice := false;
      ok := false;
    }

    /**
     * Create the buffer, pick the first memory type with the requested properties, allocate
     * the memory; the first failure clears `ok` and ends construction. `size` is recorded
     * only when all three steps succeed.
     */
    constructor (driver: BufferDriver, size: nat, usage: BufferUsageFlags, properties: MemoryPropertyFlags)
      ensures hasDevice && !bound
      ensures ok == (BufferSteps(driver, properties) == 3)
      ensures buffer == if BufferSteps(driver, properties) >= 1
                        then Some(BufferInfo(size, usage, driver.queueFamilyIndex)) else None
      ensures BufferSteps(driver, properties) == 3 ==>
        && allocation.Some?
        && allocation.value.size == |driver.initialMemory|
        && IsFirstSupporting(driver.memoryTypes, properties, allocation.value.memoryTypeIndex)
      ensures BufferSteps(driver, properties) < 3 ==> allocation == None
      ensures memory == if ok then driver.initialMemory else []
      ensures this.size == if ok then size else 0
    {
      buffer := None;
      allocation := None;
      memory := [];
      bound := false;
      this.size := 0;
      hasDevice := true;
      ok := true;
      new;
      if driver.createResult != Success {
        ok := false;
        return;
      }
      buffer := Some(BufferInfo(size, usage, driver.queueFamilyIndex));
      var memoryType := FindMemoryType(driver.memoryTypes, properties);
      if memoryType == UINT32_MAX {
        ok := false;
        return;
      }
      if driver.allocateResult != Success {
        ok := false;
        return;
      }
      allocation := Some(Allocation(|driver.initialMemory|, memoryType));
      memory := driver.initialMemory;
      this.size := size;
    }

    /** `uniform_buffer`: a uniform buffer in host-visible, host-coherent memory. */
    static method UniformBuffer(driver: BufferDriver, size: nat) returns (b: Buffer)
      ensures fresh(b)
      ensures b.ok == (BufferSteps(driver, HOST_VISIBLE | HOST_COHERENT) == 3)
      ensures b.buffer == if BufferSteps(driver, HOST_VISIBLE | HOST_COHERENT) >= 1
                          then Some(BufferInfo(size, UNIFORM_BUFFER_USAGE, driver.queueFamilyIndex)) else None
      ensures b.ok ==>
        && b.allocation.Some?
        && IsFirstSupporting(driver.memoryTypes, HOST_VISIBLE | HOST_COHERENT, b.allocation.value.memoryTypeIndex)
      ensures b.size == if b.ok then size else 0
    {
      b := new Buffer(driver, size, UNIFORM_BUFFER_USAGE, HOST_VISIBLE | HOST_COHERENT);
    }

    /** The move constructor: takes the handles, size and flag, leaving other empty and not ok. */
    constructor MoveFrom(other: Buffer)
      modifies other
      ensures buffer == old(other.buffer) && allocation == old(other.allocation) && memory == old(other.memory)
      ensures bound == old(other.bound) && size == old(other.size) && ok == old(other.ok)
      ensures hasDevice == old(other.hasDevice)
      ensures other.buffer == None && other.allocation == None && other.memory == [] && !other.bound
      ensures other.size == 0 && !other.ok && !other.hasDevice
    {
      buffer := other.buffer;
      allocation := other.allocation;
      memory := other.memory;
      bound := other.bound;
      size := other.size;
      ok := other.ok;
      hasDevice := other.hasDevice;
      new;
      other.buffer := None;
      other.allocation := None;
      other.memory := [];
      other.bound := false;
      other.size := 0;
      other.ok := false;
      other.hasDevice := false;
    }

    /** Move assignment: a no-op on itself; otherwise as the move constructor, keeping its own device if other has none. */
    method MoveAssign(other: Buffer)
      modifies this, other
      ensures other == this ==>
        && buffer == old(buffer) && allocation == old(allocation) && memory == old(memory)
        && bound == old(bound) && size == old(size) && ok == old(ok) && hasDevice == old(hasDevice)
      ensures other != this ==>
        && buffer == old(other.buffer) && allocation == old(other.allocation) && memory == old(other.memory)
        && bound == old(other.bound) && size == old(other.size) && ok == old(other.ok)
        && hasDevice == (old(other.hasDevice) || old(hasDevice))
        && other.buffer == None && other.allocation == None && other.memory == [] && !other.bound
        && other.size == 0 && !other.ok && !other.hasDevice
    {
      if other != this {
        buffer := other.buffer;
        allocation := other.allocation;
        memory := other.memory;
        bound := other.bound;
        size := other.size;
        ok := other.ok;
        if other.hasDevice {
          hasDevice := true;
        }
        other.buffer := None;
        other.allocation := None;
        other.memory := [];
        other.bound := false;
        other.size := 0;
        other.ok := false;
        other.hasDevice := false;
      }
    }

    /**
     * `copy_data`: map the first |data| bytes, copy, unmap. A failed map clears `ok` and
     * leaves the memory as it was.
     */
    method CopyData(data: seq<Byte>, mapResult: VkResult) returns (success: bool)
      requires |data| <= |memory|
      modifies this
      ensures success == (mapResult == Success)
      ensures memory == if success then Overwrite(old(memory), 0, data) else old(memory)
      ensures ok == (old(ok) && success)
      ensures buffer == old(buffer) && allocation == old(allocation) && bound == old(bound)
      ensures size == old(size) && hasDevice == old(hasDevice)
    {
      if mapResult != Success {
        ok := false;
        return false;
      }
      memory := Overwrite(memory, 0, data);
      return true;
    }

    /** `bind`: bind the memory at offset 0; a failure clears `ok`, a success leaves it as it was. */
    method Bind(bindResult: VkResult) returns (success: bool)
      modifies this
      ensures success == (bindResult == Success)
      ensures bound == (old(bound) || success)
      ensures ok == (old(ok) && success)
      ensures buffer == old(buffer) && allocation == old(allocation) && memory == old(memory)
      ensures size == old(size) && hasDevice == old(hasDevice)
    {
      if bindResult != Success {
        ok := false;
        return false;
      }
      bound := true;
      return true;
    }

    /** `update_uniform`: the same mapped write as `copy_data`, used for the per-frame parameters. */
    method UpdateUniform(data: seq<Byte>, mapResult: VkResult) returns (success: bool)
      requires |data| <= |memory|
      modifies this
      ensures success == (mapResult == Success)
      ensures memory == if success then Overwrite(old(memory), 0, data) else old(memory)
      ensures ok == (old(ok) && success)
      ensures buffer == old(buffer) && allocation == old(allocation) && bound == old(bound)
      ensures size == old(size) && hasDevice == old(hasDevice)
    {
      if mapResult != Success {
        ok := false;
        return false;
      }
      memory := Overwrite(memory, 0, data);
      return true;
    }
  }
}

=== FILE: common.dfy ===
/** Types shared by every wrapper: fixed-width integers, bytes, optional values. */
module Common {

  /** 2^32: the modulus of C++ `uint32_t` arithmetic. */
  const U32_LIMIT: int := 0x1_0000_0000

  /** `UINT32_MAX`, used by the source as the "no memory type found" sentinel. */
  const UINT32_MAX: int := 0xFFFF_FFFF

  /** A C++ `uint32_t`. */
  type U32 = n: int | 0 <= n < 0x1_0000_0000

  /** A C++ `uint8_t`. */
  type Byte = b: int | 0 <= b < 256

  datatype Option<T> = None | Some(value: T)

  /** The result of a Vulkan call that can only succeed or fail, as far as the wrappers look at it. */
  datatype VkResult = Success | Error

  /**
   * Conversion of an integer to `uint32_t` (`static_cast<uint32_t>`): reduction modulo 2^32.
   * Dafny's `%` is Euclidean, so the remainder is never negative, as the C++ conversion requires.
   */
  function ToU32(n: int): (r: U32)
    ensures 0 <= n < U32_LIMIT ==> r == n
  {
    n % U32_LIMIT
  }

  /** `std::vector<uint8_t>(n, 0)`. */
  function Zeros(n: nat): seq<Byte>
  {
    seq(n, _ => 0)
  }

  /** A `memcpy` into a byte array: data replaces the bytes at [offset, offset + |data|). */
  function Overwrite(buffer: seq<Byte>, offset: nat, data: seq<Byte>): (r: seq<Byte>)
    requires offset + |data| <= |buffer|
    ensures |r| == |buffer|
    ensures forall k :: 0 <= k < |data| ==> r[offset + k] == data[k]
    ensures forall k :: 0 <= k < |r| && !(offset <= k < offset + |data|) ==> r[k] == buffer[k]
  {
    buffer[..offset] + data + buffer[offset + |data|..]
  }

  /** Reading back the written window gives the data, whatever the buffer held before. */
  lemma OverwriteReadBack(buffer: seq<Byte>, offset: nat, data: seq<Byte>)
    requires offset + |data| <= |buffer|
    ensures Overwrite(buffer, offset, data)[offset..offset + |data|] == data
  {
  }

  /** A later write over the same window hides an earlier one. */
  lemma OverwriteTwice(buffer: seq<Byte>, offset: nat, first: seq<Byte>, second: seq<Byte>)
    requires |first| == |second| && offset + |first| <= |buffer|
    ensures Overwrite(Overwrite(buffer, offset, first), offset, second) == Overwrite(buffer, offset, second)
  {
  }

  /** The four bytes of a `uint32_t` in memory, lowest byte first (the byte order of the x86 and ARM hosts the program targets). */
  function U32Bytes(n: U32): (r: seq<Byte>)
    ensures |r| == 4
  {
    [n % 256, n / 256 % 256, n / 65536 % 256, n / 16777216]
  }

  /** Reading a `uint32_t` back from four bytes, lowest byte first. */
  function U32Of(b: seq<Byte>): U32
    requires |b| == 4
  {
    var lo: int := b[0] as int + 256 * (b[1] as int);
    var hi: int := b[2] as int + 256 * (b[3] as int);
    lo + 65536 * hi
  }

  /** Storing a `uint32_t` and reading it back gives the same value. */
  lemma U32RoundTrip(n: U32)
    ensures U32Of(U32Bytes(n)) == n
  {
    var b := U32Bytes(n);
    assert n == n % 256 + 256 * (n / 256);
    assert n / 256 == n / 256 % 256 + 256 * (n / 65536);
    assert n / 65536 == n / 65536 % 256 + 256 * (n / 16777216);
  }

  /** The bytes of a sequence of `uint32_t`, laid out one after the other. */
  function U32sBytes(ns: seq<U32>): (r: seq<Byte>)
    ensures |r| == 4 * |ns|
  {
    if ns == [] then [] else U32sBytes(ns[..|ns| - 1]) + U32Bytes(ns[|ns| - 1])
  }

  /** Word k of a sequence sits at bytes [4k, 4k + 4) of its layout. */
  lemma {:induction false} U32sBytesAt(ns: seq<U32>, k: nat)
    requires k < |ns|
    ensures U32sBytes(ns)[4 * k..4 * k + 4] == U32Bytes(ns[k])
  {
    var n := |ns| - 1;
    if k < n {
      U32sBytesAt(ns[..n], k);
      assert U32sBytes(ns) == U32sBytes(ns[..n]) + U32Bytes(ns[n]);
      assert U32sBytes(ns)[4 * k..4 * k + 4] == U32sBytes(ns[..n])[4 * k..4 * k + 4];
      assert ns[..n][k] == ns[k];
    } else {
      assert U32sBytes(ns) == U32sBytes(ns[..n]) + U32Bytes(ns[n]);
    }
  }
}

=== FILE: compute_app.dfy ===
/**
 * `boza::ComputeApp`: the voxelizer application. It builds the compute shader, the 3D
 * output image, the vertex, index and uniform buffers from a mesh, binds them to the
 * shader, then runs ten frames: each writes the per-frame parameters, dispatches the
 * shader over the grid, reads the image back and saves it as a 2D atlas of its slices.
 *
 * The subsystems are created through static factory functions that are not part of this
 * model; their answers are oracles (`InitDriver`, `FrameDriver`). What the application
 * itself computes is modelled, with the differences the project's README lists: the
 * requests it makes (sizes, usages, memory properties), the bytes it copies into the
 * buffers, the launch sizes and the atlas.
 */
module ComputeApps {
  import opened Common
  import opened FailFast
  import Atlas
  import Meshes
  import Shaders
  import Buffers
  import Images
  import Apps

  /** The shader source the application loads. */
  const SHADER_FILE: string := "compute.comp"

  /** The mesh the application voxelizes. */
  const MODEL_FILE: string := "model.obj"

  /** The number of frames `run` renders. */
  const FRAME_COUNT: nat := 10

  /** `sizeof(glm::vec4)`. */
  const VEC4_SIZE: nat := 16

  /** `sizeof(uint32_t)`. */
  const INDEX_SIZE: nat := 4

  /** `sizeof(Params)`: a `uint32_t` and a `float`. */
  const PARAMS_SIZE: nat := 8

  /** The bit pattern of `0.0f`. */
  const FLOAT_ZERO: Meshes.Float := 0

  // ---------------------------------------------------------------------------------------
  // Vertex and index data
  // ---------------------------------------------------------------------------------------

  /** `glm::vec4`. */
  datatype Vec4 = Vec4(x: Meshes.Float, y: Meshes.Float, z: Meshes.Float, w: Meshes.Float)

  /** `glm::vec4(v, 0.0f)`: the vertex padded to the 16-byte layout the shader reads. */
  function Pad(v: Meshes.Vec3): Vec4
  {
    Vec4(v.x, v.y, v.z, FLOAT_ZERO)
  }

  function PaddedOf(vertices: seq<Meshes.Vec3>): seq<Vec4>
  {
    seq(|vertices|, i requires 0 <= i < |vertices| => Pad(vertices[i]))
  }

  /** The padding loop of `create_vertex_buffer`: same count, same order, w = 0. */
  method PadVertices(vertices: seq<Meshes.Vec3>) returns (padded: seq<Vec4>)
    ensures |padded| == |vertices|
    ensures forall i :: 0 <= i < |padded| ==>
      && padded[i].x == vertices[i].x && padded[i].y == vertices[i].y && padded[i].z == vertices[i].z
      && padded[i].w == FLOAT_ZERO
    ensures padded == PaddedOf(vertices)
  {
    padded := [];
    var i := 0;
    while i < |vertices|
      invariant i <= |vertices|
      invariant padded == PaddedOf(vertices[..i])
    {
      padded := padded + [Vec4(vertices[i].x, vertices[i].y, vertices[i].z, FLOAT_ZERO)];
      i := i + 1;
      assert vertices[..i] == vertices[..i - 1] + [vertices[i - 1]];
    }
    assert vertices[..i] == vertices;
  }

  /** The 32-bit words of a sequence of `vec4`, four per vector. */
  function Vec4Words(vs: seq<Vec4>): (r: seq<U32>)
    ensures |r| == 4 * |vs|
  {
    if vs == [] then []
    else
      var v := vs[|vs| - 1];
      Vec4Words(vs[..|vs| - 1]) + [Bits(v.x), Bits(v.y), Bits(v.z), Bits(v.w)]
  }

  /** The bit pattern of a float as the 32-bit word stored for it. */
  function Bits(f: Meshes.Float): U32
  {
    f as int
  }

  /** Vector i occupies words 4i to 4i + 3, in component order. */
  lemma {:induction false} Vec4WordsAt(vs: seq<Vec4>, i: nat)
    requires i < |vs|
    ensures Vec4Words(vs)[4 * i] == Bits(vs[i].x) && Vec4Words(vs)[4 * i + 1] == Bits(vs[i].y)
    ensures Vec4Words(vs)[4 * i + 2] == Bits(vs[i].z) && Vec4Words(vs)[4 * i + 3] == Bits(vs[i].w)
  {
    var n := |vs| - 1;
    if i < n {
      Vec4WordsAt(vs[..n], i);
      assert vs[..n][i] == vs[i];
    }
  }

  /** The bytes `copy_data` writes into the vertex buffer. */
  function VertexBytes(padded: seq<Vec4>): (r: seq<Byte>)
    ensures |r| == VEC4_SIZE * |padded|
  {
    U32sBytes(Vec4Words(padded))
  }

  /** The bytes `copy_data` writes into the index buffer. */
  function IndexBytes(indices: seq<U32>): (r: seq<Byte>)
    ensures |r| == INDEX_SIZE * |indices|
  {
    U32sBytes(indices)
  }

  /** Reading vertex i back at offset 16i, as the shader does, gives x, y, z and a zero w. */
  lemma VertexBufferLayout(vertices: seq<Meshes.Vec3>, i: nat)
    requires i < |vertices|
    ensures 16 * i + 16 <= |VertexBytes(PaddedOf(vertices))|
    ensures U32Of(VertexBytes(PaddedOf(vertices))[16 * i..16 * i + 4]) == Bits(vertices[i].x)
    ensures U32Of(VertexBytes(PaddedOf(vertices))[16 * i + 4..16 * i + 8]) == Bits(vertices[i].y)
    ensures U32Of(VertexBytes(PaddedOf(vertices))[16 * i + 8..16 * i + 12]) == Bits(vertices[i].z)
    ensures U32Of(VertexBytes(PaddedOf(vertices))[16 * i + 12..16 * i + 16]) == Bits(FLOAT_ZERO)
  {
    var padded := PaddedOf(vertices);
    var words := Vec4Words(padded);
    assert padded[i] == Vec4(vertices[i].x, vertices[i].y, vertices[i].z, FLOAT_ZERO);
    Vec4WordsAt(padded, i);
    WordAt(words, 4 * i, 16 * i);
    WordAt(words, 4 * i + 1, 16 * i + 4);
    WordAt(words, 4 * i + 2, 16 * i + 8);
    WordAt(words, 4 * i + 3, 16 * i + 12);
  }

  /** Word k of a buffer of 32-bit words reads back from bytes 4k to 4k + 3. */
  lemma WordAt(words: seq<U32>, k: nat, offset: nat)
    requires k < |words| && offset == 4 * k
    ensures offset + 4 <= |U32sBytes(words)|
    ensures U32Of(U32sBytes(words)[offset..offset + 4]) == words[k]
  {
    U32sBytesAt(words, k);
    U32RoundTrip(words[k]);
  }

  /** Reading index k back at offset 4k gives index k. */
  lemma IndexBufferLayout(indices: seq<U32>, k: nat)
    requires k < |indices|
    ensures 4 * k + 4 <= |IndexBytes(indices)|
    ensures U32Of(IndexBytes(indices)[4 * k..4 * k + 4]) == indices[k]
  {
    WordAt(indices, k, 4 * k);
  }

  // ---------------------------------------------------------------------------------------
  // Construction
  // ---------------------------------------------------------------------------------------

  /** What the application asks the image factory for. */
  datatype ImageRequest = ImageRequest(format: Images.Format, extent: Images.Extent3D, usage: Images.ImageUsageFlags, createView: bool)

  /** What the application asks a buffer factory for. */
  datatype BufferRequest = BufferRequest(size: nat, usage: Buffers.BufferUsageFlags, properties: Buffers.MemoryPropertyFlags)

  /** What a descriptor update binds. */
  datatype BoundResource = OutputImageView | VertexBuffer | IndexBuffer | ParamsBuffer

  /** Image layouts that appear in the model. */
  datatype ImageLayout = Undefined | General | TransferSrcOptimal

  /** One `update_*` call on the shader's descriptor set. */
  datatype DescriptorWrite = DescriptorWrite(binding: U32, descriptorType: Shaders.DescriptorType, resource: BoundResource, layout: Option<ImageLayout>)

  const HOST_MEMORY: Buffers.MemoryPropertyFlags := Buffers.HOST_VISIBLE | Buffers.HOST_COHERENT

  function OutputImage(width: U32, height: U32, depth: U32): ImageRequest
  {
    ImageRequest(Images.R8G8B8A8_UNORM, Images.Extent3D(width, height, depth),
                 Images.STORAGE_USAGE | Images.TRANSFER_SRC_USAGE, true)
  }

  /** The descriptor updates that close construction, one per binding of the shader. */
  function AppDescriptorWrites(): seq<DescriptorWrite>
  {
    [ DescriptorWrite(0, Shaders.StorageImage, OutputImageView, Some(General)),
      DescriptorWrite(1, Shaders.StorageBuffer, VertexBuffer, None),
      DescriptorWrite(2, Shaders.StorageBuffer, IndexBuffer, None),
      DescriptorWrite(3, Shaders.UniformBuffer, ParamsBuffer, None) ]
  }

  /** Every descriptor update targets a binding the shader declared, with the type it declared. */
  lemma DescriptorWritesMatchBindings()
    ensures |AppDescriptorWrites()| == |Shaders.AppBindings()|
    ensures forall i :: 0 <= i < |AppDescriptorWrites()| ==>
      && AppDescriptorWrites()[i].binding == Shaders.AppBindings()[i].binding
      && AppDescriptorWrites()[i].descriptorType == Shaders.AppBindings()[i].descriptorType
  {
  }

  /**
   * The answers the constructor gets: the base application's, then whether each checked
   * step succeeds, and the parsed OBJ file.
   */
  datatype InitDriver = InitDriver(
    app: Apps.AppDriver,
    shaderCreated: bool,
    imageCreated: bool,
    mesh: Meshes.ObjParse,
    vertexCreated: bool,
    vertexBound: bool,
    vertexCopied: bool,
    indexCreated: bool,
    indexBound: bool,
    indexCopied: bool,
    uniformCreated: bool,
    uniformBound: bool)

  /** The parser only yields whole coordinate triples. */
  predicate WellFormed(driver: InitDriver)
  {
    driver.mesh.loaded ==> |driver.mesh.vertices| % 3 == 0
  }

  /** The outcomes of the setup checks: shader, output image, OBJ file. */
  function SetupOutcomes(driver: InitDriver): (r: seq<bool>)
    ensures |r| == 3
  {
    [driver.shaderCreated, driver.imageCreated, driver.mesh.loaded]
  }

  /** The outcomes of the vertex buffer's creation, binding and copy. */
  function VertexOutcomes(driver: InitDriver): (r: seq<bool>)
    ensures |r| == 3
  {
    [driver.vertexCreated, driver.vertexBound, driver.vertexCopied]
  }

  /** The outcomes of the index buffer's creation, binding and copy. */
  function IndexOutcomes(driver: InitDriver): (r: seq<bool>)
    ensures |r| == 3
  {
    [driver.indexCreated, driver.indexBound, driver.indexCopied]
  }

  /** The outcomes of the uniform buffer's creation and binding. */
  function ParamsOutcomes(driver: InitDriver): (r: seq<bool>)
    ensures |r| == 2
  {
    [driver.uniformCreated, driver.uniformBound]
  }

  /** The outcome of each checked step of the constructor, in order. */
  function InitOutcomes(driver: InitDriver): seq<bool>
  {
    SetupOutcomes(driver) + VertexOutcomes(driver) + IndexOutcomes(driver) + ParamsOutcomes(driver)
  }

  const INIT_STEPS: nat := 11

  /** How many of the eleven checked steps succeed before the first failure. */
  function InitSteps(driver: InitDriver): nat
  {
    if !driver.shaderCreated then 0
    else if !driver.imageCreated then 1
    else if !driver.mesh.loaded then 2
    else if !driver.vertexCreated then 3
    else if !driver.vertexBound then 4
    else if !driver.vertexCopied then 5
    else if !driver.indexCreated then 6
    else if !driver.indexBound then 7
    else if !driver.indexCopied then 8
    else if !driver.uniformCreated then 9
    else if !driver.uniformBound then 10
    else 11
  }

  /** The constructor's checks are fail-fast: it stops at the first failing one. */
  lemma InitStepsIsFirstFailure(driver: InitDriver)
    ensures InitSteps(driver) == FirstFailure(InitOutcomes(driver))
    ensures InitSteps(driver) == INIT_STEPS <==> AllOk(InitOutcomes(driver))
  {
    InitStepsByStage(driver);
    AllOkIffNoFailure(InitOutcomes(driver));
  }

  /** The eleven checks fall into four stages: setup, vertex buffer, index buffer, uniform buffer. */
  lemma InitStepsByStage(driver: InitDriver)
    ensures InitSteps(driver) == FirstFailure(InitOutcomes(driver))
  {
    ThreeSteps(driver.shaderCreated, driver.imageCreated, driver.mesh.loaded);
    ThreeSteps(driver.vertexCreated, driver.vertexBound, driver.vertexCopied);
    ThreeSteps(driver.indexCreated, driver.indexBound, driver.indexCopied);
    TwoSteps(driver.uniformCreated, driver.uniformBound);
    StagedFirstFailure(SetupOutcomes(driver), VertexOutcomes(driver), IndexOutcomes(driver), ParamsOutcomes(driver));
  }

  /** The step count of four stages run one after the other, from each stage's own count. */
  function Staged(a: nat, b: nat, c: nat, d: nat): nat
  {
    if a < 3 then a else if b < 3 then 3 + b else if c < 3 then 6 + c else 9 + d
  }

  lemma StagedFirstFailure(setup: seq<bool>, vertex: seq<bool>, index: seq<bool>, params: seq<bool>)
    requires |setup| == 3 && |vertex| == 3 && |index| == 3
    ensures FirstFailure(setup + vertex + index + params)
         == Staged(FirstFailure(setup), FirstFailure(vertex), FirstFailure(index), FirstFailure(params))
  {
    FirstFailureAppend(setup, vertex);
    FirstFailureAppend(setup + vertex, index);
    FirstFailureAppend(setup + vertex + index, params);
  }

  /** The first failure among three steps. */
  lemma ThreeSteps(x: bool, y: bool, z: bool)
    ensures FirstFailure([x, y, z]) == if !x then 0 else if !y then 1 else if !z then 2 else 3
  {
    FirstFailureIs([x, y, z], if !x then 0 else if !y then 1 else if !z then 2 else 3);
  }

  /** The first failure among two steps. */
  lemma TwoSteps(x: bool, y: bool)
    ensures FirstFailure([x, y]) == if !x then 0 else if !y then 1 else 2
  {
    FirstFailureIs([x, y], if !x then 0 else if !y then 1 else 2);
  }

  /** The mesh vertices, once the OBJ file is loaded. */
  function MeshVertices(driver: InitDriver): seq<Meshes.Vec3>
    requires WellFormed(driver) && driver.mesh.loaded
  {
    Meshes.Triples(driver.mesh.vertices)
  }

  /** The mesh indices, once the OBJ file is loaded. */
  function MeshIndices(driver: InitDriver): seq<U32>
  {
    Meshes.MeshIndices(driver.mesh.shapes)
  }

  // ---------------------------------------------------------------------------------------
  // Frames
  // ---------------------------------------------------------------------------------------

  /** `Params`: the index count and the frame whose scale (`frame * 0.1f`) the shader uses. */
  datatype Params = Params(indexCount: U32, frame: nat)

  /** The answers of the four fallible calls of `dispatch`. */
  datatype DispatchDriver = DispatchDriver(beginResult: VkResult, endResult: VkResult, submitResult: VkResult, waitResult: VkResult)

  predicate DispatchSucceeds(driver: DispatchDriver)
  {
    driver.beginResult == Success && driver.endResult == Success
    && driver.submitResult == Success && driver.waitResult == Success
  }

  /** The calls `dispatch` makes on the command buffer and the queue. */
  datatype DispatchCall =
    | Begin
    | Barrier(oldLayout: ImageLayout, newLayout: ImageLayout)
    | Groups(x: nat, y: nat, z: nat)
    | End
    | Submit
    | WaitIdle

  /** The calls of a dispatch that goes through: the recording, then submit and wait. */
  function DispatchCalls(width: nat, height: nat, depth: nat): seq<DispatchCall>
  {
    [ Begin, Barrier(Undefined, General),
      Groups(Atlas.GroupCount(width), Atlas.GroupCount(height), Atlas.GroupCount(depth)),
      Barrier(General, TransferSrcOptimal), End, Submit, WaitIdle ]
  }

  /** How many of those calls are made: every one up to the first failing check. */
  function DispatchCallCount(driver: DispatchDriver): nat
  {
    if driver.beginResult != Success then 1
    else if driver.endResult != Success then 5
    else if driver.submitResult != Success then 6
    else 7
  }

  /** The four checked results of `dispatch`, in order. */
  function DispatchOutcomes(driver: DispatchDriver): seq<bool>
  {
    [ driver.beginResult == Success, driver.endResult == Success,
      driver.submitResult == Success, driver.waitResult == Success ]
  }

  /**
   * The calls stop right after the first failing check (begin ends the list, end follows
   * the recording, submit and wait follow end), every call is made when all checks pass,
   * and the dispatch succeeds exactly then.
   */
  lemma DispatchStopsAtFirstFailure(driver: DispatchDriver)
    ensures var f := FirstFailure(DispatchOutcomes(driver));
      DispatchCallCount(driver) == [1, 5, 6, 7, 7][f]
    ensures DispatchSucceeds(driver) <==> AllOk(DispatchOutcomes(driver))
  {
    var f := if driver.beginResult != Success then 0
             else if driver.endResult != Success then 1
             else if driver.submitResult != Success then 2
             else if driver.waitResult != Success then 3
             else 4;
    FirstFailureIs(DispatchOutcomes(driver), f);
  }

  /** The one dispatch of a successful frame launches enough 8 x 8 x 8 groups to cover the grid, and no whole group more. */
  lemma DispatchCoversGrid(width: nat, height: nat, depth: nat)
    ensures var c := DispatchCalls(width, height, depth)[2];
      && c.Groups?
      && 8 * c.x >= width && 8 * c.y >= height && 8 * c.z >= depth
      && 8 * c.x < width + 8 && 8 * c.y < height + 8 && 8 * c.z < depth + 8
    ensures forall i :: 0 <= i < 7 && i != 2 ==> !DispatchCalls(width, height, depth)[i].Groups?
  {
  }

  /**
   * One frame's answers: whether the uniform update maps, the dispatch's answers, and what
   * `get_data` returns (empty when the read-back fails).
   */
  datatype FrameDriver = FrameDriver(uniformMapped: bool, dispatch: DispatchDriver, readback: seq<Byte>)

  /** The image data a frame hands to the save step: the read-back after a good dispatch, nothing otherwise. */
  function FrameImage(frame: FrameDriver): seq<Byte>
  {
    if DispatchSucceeds(frame.dispatch) then frame.readback else []
  }

  function UniformOutcomes(frames: seq<FrameDriver>): seq<bool>
  {
    seq(|frames|, i requires 0 <= i < |frames| => frames[i].uniformMapped)
  }

  /** A saved PNG: its frame number, its pixel size, and its RGBA8 rows. */
  datatype SavedImage = SavedImage(frame: nat, widthPx: nat, heightPx: nat, pixels: seq<Byte>)

  /** The bytes per texel of the `R8G8B8A8_UNORM` output image. */
  const RGBA8_TEXEL_SIZE: nat := 4

  /**
   * The copy `get_data` records puts the output image in the buffer exactly where
   * `rearrange_image_data` reads it: byte c of texel (x, slice, z) lands at `src_idx`,
   * inside the grid.
   */
  lemma ReadbackLayoutIsSourceIndex(width: U32, height: U32, depth: U32, t: Atlas.Texel)
    requires Atlas.InGrid(t, width, height, depth)
    ensures Images.BufferAddress(Images.CopyRegion(OutputImage(width, height, depth).extent),
                                 RGBA8_TEXEL_SIZE, t.x, t.slice, t.z, t.c)
            == Atlas.SourceIndex(t, width, height)
    ensures Atlas.SourceIndex(t, width, height) < Atlas.GridSize(width, height, depth)
  {
    Atlas.SourceIndexInGrid(t, width, height, depth);
  }

  /** The atlas of a read-back grid, byte by byte. */
  function AtlasOf(image: seq<Byte>, width: nat, height: nat, depth: nat): seq<Byte>
    requires |image| >= Atlas.GridSize(width, height, depth)
  {
    seq(Atlas.AtlasSize(width, height, depth),
        i requires 0 <= i < Atlas.AtlasSize(width, height, depth) => Atlas.AtlasByte(image, width, height, depth, i))
  }

  /** The image `save_image_data` writes for a grid. */
  function SavedOf(image: seq<Byte>, frame: nat, width: nat, height: nat, depth: nat): SavedImage
    requires |image| >= Atlas.GridSize(width, height, depth)
  {
    var side := Atlas.GridSide(height);
    SavedImage(frame, width * side, depth * side, AtlasOf(image, width, height, depth))
  }

  /** The images the first n frames save, when a frame whose read-back is short is skipped. */
  function Saves(frames: seq<FrameDriver>, n: nat, width: nat, height: nat, depth: nat): seq<SavedImage>
    requires n <= |frames|
  {
    if n == 0 then []
    else
      var image := FrameImage(frames[n - 1]);
      Saves(frames, n - 1, width, height, depth)
        + if |image| >= Atlas.GridSize(width, height, depth) then [SavedOf(image, n, width, height, depth)] else []
  }

  /** What the first n frames hand to `save_image_data` as written: every frame's data, empty or not. */
  function SaveInputsAsWritten(frames: seq<FrameDriver>, n: nat): (r: seq<seq<Byte>>)
    requires n <= |frames|
    ensures |r| == n
    ensures forall i :: 0 <= i < n ==> r[i] == FrameImage(frames[i])
  {
    if n == 0 then [] else SaveInputsAsWritten(frames, n - 1) + [FrameImage(frames[n - 1])]
  }

  /** The frames `run` reaches: all ten, or up to the first failed uniform update. */
  function FramesRun(frames: seq<FrameDriver>): (n: nat)
    ensures n <= |frames|
  {
    var k := FirstFailure(UniformOutcomes(frames));
    if k < |frames| then k + 1 else k
  }

  /** Every saved image is a whole atlas: its rows of widthPx RGBA8 pixels cover its bytes exactly, and frames come in increasing order. */
  lemma {:induction false} SavesAreAtlases(frames: seq<FrameDriver>, n: nat, width: nat, height: nat, depth: nat)
    requires n <= |frames|
    ensures |Saves(frames, n, width, height, depth)| <= n
    ensures forall j :: 0 <= j < |Saves(frames, n, width, height, depth)| ==>
      var s := Saves(frames, n, width, height, depth)[j];
      && 1 <= s.frame <= n
      && |s.pixels| == s.widthPx * s.heightPx * 4
      && s.widthPx == width * Atlas.GridSide(height) && s.heightPx == depth * Atlas.GridSide(height)
    ensures forall j, k :: 0 <= j < k < |Saves(frames, n, width, height, depth)| ==>
      Saves(frames, n, width, height, depth)[j].frame < Saves(frames, n, width, height, depth)[k].frame
  {
    if n > 0 {
      SavesAreAtlases(frames, n - 1, width, height, depth);
    }
  }

  /** When every frame runs and reads back a whole grid, frames 1 to n are all saved, in order. */
  lemma {:induction false} SavesAll(frames: seq<FrameDriver>, n: nat, width: nat, height: nat, depth: nat)
    requires n <= |frames|
    requires forall i :: 0 <= i < n ==> |FrameImage(frames[i])| >= Atlas.GridSize(width, height, depth)
    ensures |Saves(frames, n, width, height, depth)| == n
    ensures forall j :: 0 <= j < n ==> Saves(frames, n, width, height, depth)[j].frame == j + 1
  {
    if n > 0 {
      SavesAll(frames, n - 1, width, height, depth);
    }
  }

  /**
   * As written, a frame whose dispatch fails still hands its (empty) data to the save
   * step, and the rearrangement then reads a grid that is not there.
   */
  lemma AsWrittenSaveReadsPastEnd(frames: seq<FrameDriver>, width: nat, height: nat, depth: nat)
    requires |frames| == FRAME_COUNT
    requires frames[0].uniformMapped && frames[0].dispatch.beginResult != Success
    requires width > 0 && height > 0 && depth > 0
    ensures FramesRun(frames) >= 1
    ensures |SaveInputsAsWritten(frames, FramesRun(frames))[0]| < Atlas.GridSize(width, height, depth)
  {
    assert UniformOutcomes(frames)[0];
    assert Atlas.GridSize(width, height, depth) == ((width * height) * depth) * 4;
    Atlas.MulMono(1, width, height);
    Atlas.MulMono(1, width * height, depth);
  }

  /** A concrete instance: a 1 x 1 x 1 grid whose first dispatch cannot begin. */
  lemma AsWrittenCounterexample()
    ensures var frames := seq(FRAME_COUNT, _ => FrameDriver(true, DispatchDriver(Error, Success, Success, Success), []));
      && FramesRun(frames) == FRAME_COUNT
      && SaveInputsAsWritten(frames, FramesRun(frames))[0] == []
      && Atlas.GridSize(1, 1, 1) == 4
  {
    var frames := seq(FRAME_COUNT, _ => FrameDriver(true, DispatchDriver(Error, Success, Success, Success), []));
    assert AllOk(UniformOutcomes(frames));
    AllOkIffNoFailure(UniformOutcomes(frames));
  }

  class ComputeApp {
    /** The base application (instance, device, command pool) and its `hasThrown` flag. */
    var app: Apps.App
    var width: U32
    var height: U32
    var depth: U32
    /** The bindings of the compute shader held, once created. */
    var shaderBindings: Option<seq<Shaders.DescriptorBindingInfo>>
    var image: Option<ImageRequest>
    /** `index_count`; not set before the mesh is loaded. */
    var indexCount: Option<U32>
    var vertexBuffer: Option<BufferRequest>
    var vertexBound: bool
    var vertexData: Option<seq<Byte>>
    var indexBuffer: Option<BufferRequest>
    var indexBound: bool
    var indexData: Option<seq<Byte>>
    var uniformBuffer: Option<BufferRequest>
    var uniformBound: bool
    var descriptorWrites: seq<DescriptorWrite>
    /** The parameters last written to the uniform buffer. */
    var params: Option<Params>

    /** `operator bool`, inherited from the base application. */
    predicate IsOk()
      reads this, app
    {
      !app.hasThrown
    }

    /** The state after the first s checked steps succeeded and nothing later ran. */
    predicate Reached(driver: InitDriver, s: nat)
      requires WellFormed(driver) && s <= InitSteps(driver)
      reads this
    {
      && shaderBindings == (if s >= 1 then Some(Shaders.AppBindings()) else None)
      && image == (if s >= 2 then Some(OutputImage(width, height, depth)) else None)
      && indexCount == (if s >= 3 then Some(ToU32(|MeshIndices(driver)|)) else None)
      && vertexBuffer == (if s >= 4 then Some(BufferRequest(VEC4_SIZE * |MeshVertices(driver)|, Buffers.STORAGE_BUFFER_USAGE, HOST_MEMORY)) else None)
      && vertexBound == (s >= 5)
      && vertexData == (if s >= 6 then Some(VertexBytes(PaddedOf(MeshVertices(driver)))) else None)
      && indexBuffer == (if s >= 7 then Some(BufferRequest(INDEX_SIZE * |MeshIndices(driver)|, Buffers.STORAGE_BUFFER_USAGE, HOST_MEMORY)) else None)
      && indexBound == (s >= 8)
      && indexData == (if s >= 9 then Some(IndexBytes(MeshIndices(driver))) else None)
      && uniformBuffer == (if s >= 10 then Some(BufferRequest(PARAMS_SIZE, Buffers.UNIFORM_BUFFER_USAGE, HOST_MEMORY)) else None)
      && uniformBound == (s >= 11)
    }

    /**
     * Construct the base application, then run the checked steps in order: shader, output
     * image, mesh, vertex buffer, index buffer, uniform buffer, and bind the four resources
     * to the shader. The steps run even when the base application failed; the first failing
     * step skips the rest and sets `hasThrown`.
     */
    constructor (driver: InitDriver, width: U32, height: U32, depth: U32)
      requires WellFormed(driver)
      ensures fresh(app)
      ensures app.events == [Apps.Create(Apps.Logger)] + Apps.CreateEvents(Apps.CREATION_ORDER[..Apps.Attempted(driver.app)])
      ensures app.hasThrown == (Apps.AppSteps(driver.app) < 3 || InitSteps(driver) < INIT_STEPS)
      ensures this.width == width && this.height == height && this.depth == depth
      ensures Reached(driver, InitSteps(driver))
      ensures descriptorWrites == if InitSteps(driver) == INIT_STEPS then AppDescriptorWrites() else []
      ensures params == None
    {
      this.width := width;
      this.height := height;
      this.depth := depth;
      shaderBindings := None;
      image := None;
      indexCount := None;
      vertexBuffer := None;
      vertexBound := false;
      vertexData := None;
      indexBuffer := None;
      indexBound := false;
      indexData := None;
      uniformBuffer := None;
      uniformBound := false;
      descriptorWrites := [];
      params := None;
      app := new Apps.App(driver.app);
      new;
      var ok := Initialize(driver);
      if !ok {
        app.hasThrown := true;
      }
    }

    /** The checked lambda of the constructor. */
    method Initialize(driver: InitDriver) returns (ok: bool)
      requires WellFormed(driver)
      requires Reached(driver, 0) && descriptorWrites == []
      modifies this`shaderBindings, this`image, this`indexCount, this`vertexBuffer, this`vertexBound, this`vertexData
      modifies this`indexBuffer, this`indexBound, this`indexData, this`uniformBuffer, this`uniformBound, this`descriptorWrites
      ensures ok == (InitSteps(driver) == INIT_STEPS)
      ensures Reached(driver, InitSteps(driver))
      ensures descriptorWrites == if ok then AppDescriptorWrites() else []
    {
      var vertices, indices;
      ok, vertices, indices := SetUp(driver);
      if !ok {
        return;
      }
      ok := CreateMeshBuffers(driver, vertices, indices);
      if !ok {
        return;
      }
      descriptorWrites := AppDescriptorWrites();
    }

    /** The first three checks: the shader, the output image, and the mesh with its index count. */
    method SetUp(driver: InitDriver) returns (ok: bool, vertices: seq<Meshes.Vec3>, indices: seq<U32>)
      requires WellFormed(driver) && Reached(driver, 0)
      modifies this`shaderBindings, this`image, this`indexCount
      ensures ok == (InitSteps(driver) >= 3)
      ensures !ok ==> Reached(driver, InitSteps(driver))
      ensures ok ==> Reached(driver, 3) && vertices == MeshVertices(driver) && indices == MeshIndices(driver)
    {
      vertices, indices := [], [];
      ok := CreateComputeShader(driver.shaderCreated);
      if !ok {
        assert InitSteps(driver) == 0;
        return;
      }
      ok := CreateOutputImage(driver.imageCreated);
      if !ok {
        assert InitSteps(driver) == 1;
        return;
      }
      var mesh := new Meshes.MeshData();
      ok := Meshes.LoadFromObj(driver.mesh, mesh);
      if !ok {
        assert InitSteps(driver) == 2;
        return;
      }
      vertices, indices := mesh.vertices, mesh.indices;
      indexCount := Some(ToU32(|indices|));
    }

    /** The remaining checks: the vertex, index and uniform buffers. */
    method CreateMeshBuffers(driver: InitDriver, vertices: seq<Meshes.Vec3>, indices: seq<U32>) returns (ok: bool)
      requires WellFormed(driver) && InitSteps(driver) >= 3 && Reached(driver, 3)
      requires vertices == MeshVertices(driver) && indices == MeshIndices(driver)
      modifies this`vertexBuffer, this`vertexBound, this`vertexData, this`indexBuffer, this`indexBound, this`indexData
      modifies this`uniformBuffer, this`uniformBound
      ensures ok == (InitSteps(driver) == INIT_STEPS)
      ensures Reached(driver, InitSteps(driver))
    {
      ok := VertexStage(driver, vertices);
      if !ok {
        return;
      }
      ok := IndexAndParamsStage(driver, indices);
    }

    /** Steps 4 to 6: the vertex buffer is created, bound and filled. */
    method VertexStage(driver: InitDriver, vertices: seq<Meshes.Vec3>) returns (ok: bool)
      requires WellFormed(driver) && InitSteps(driver) >= 3 && Reached(driver, 3)
      requires vertices == MeshVertices(driver)
      modifies this`vertexBuffer, this`vertexBound, this`vertexData
      ensures ok == (InitSteps(driver) >= 6)
      ensures Reached(driver, if ok then 6 else InitSteps(driver))
    {
      ok := CreateVertexBuffer(vertices, driver.vertexCreated, driver.vertexBound, driver.vertexCopied);
    }

    /** Steps 7 to 11: the index buffer is created, bound and filled, then the uniform buffer created and bound. */
    method IndexAndParamsStage(driver: InitDriver, indices: seq<U32>) returns (ok: bool)
      requires WellFormed(driver) && InitSteps(driver) >= 6 && Reached(driver, 6)
      requires indices == MeshIndices(driver)
      modifies this`indexBuffer, this`indexBound, this`indexData, this`uniformBuffer, this`uniformBound
      ensures ok == (InitSteps(driver) == INIT_STEPS)
      ensures Reached(driver, InitSteps(driver))
    {
      ok := IndexStage(driver, indices);
      if !ok {
        return;
      }
      ok := CreateUniformBuffer(driver.uniformCreated, driver.uniformBound);
    }

    /** Steps 7 to 9: the index buffer is created, bound and filled. */
    method IndexStage(driver: InitDriver, indices: seq<U32>) returns (ok: bool)
      requires WellFormed(driver) && InitSteps(driver) >= 6 && Reached(driver, 6)
      requires indices == MeshIndices(driver)
      modifies this`indexBuffer, this`indexBound, this`indexData
      ensures ok == (InitSteps(driver) >= 9)
      ensures Reached(driver, if ok then 9 else InitSteps(driver))
    {
      ok := CreateIndexBuffer(indices, driver.indexCreated, driver.indexBound, driver.indexCopied);
    }

    /** `create_compute_shader`: the shader with the application's four bindings. */
    method CreateComputeShader(created: bool) returns (ok: bool)
      modifies this`shaderBindings
      ensures ok == created
      ensures shaderBindings == if created then Some(Shaders.AppBindings()) else old(shaderBindings)
    {
      if !created {
        return false;
      }
      shaderBindings := Some(Shaders.AppBindings());
      return true;
    }

    /** `create_output_image`: an RGBA8 storage image of the grid's extent, with a view. */
    method CreateOutputImage(created: bool) returns (ok: bool)
      modifies this`image
      ensures ok == created
      ensures image == if created then Some(OutputImage(width, height, depth)) else old(image)
    {
      if !created {
        return false;
      }
      image := Some(OutputImage(width, height, depth));
      return true;
    }

    /**
     * `create_vertex_buffer`: a host-visible storage buffer of 16 bytes per vertex, bound,
     * then filled with the padded vertices.
     */
    method CreateVertexBuffer(vertices: seq<Meshes.Vec3>, created: bool, bound: bool, copied: bool) returns (ok: bool)
      modifies this`vertexBuffer, this`vertexBound, this`vertexData
      ensures ok == (created && bound && copied)
      ensures vertexBuffer == if created then Some(BufferRequest(VEC4_SIZE * |vertices|, Buffers.STORAGE_BUFFER_USAGE, HOST_MEMORY))
                              else old(vertexBuffer)
      ensures vertexBound == if created && bound then true else old(vertexBound)
      ensures vertexData == if ok then Some(VertexBytes(PaddedOf(vertices))) else old(vertexData)
    {
      var size := VEC4_SIZE * |vertices|;
      if !created {
        return false;
      }
      vertexBuffer := Some(BufferRequest(size, Buffers.STORAGE_BUFFER_USAGE, HOST_MEMORY));
      if !bound {
        return false;
      }
      vertexBound := true;
      var padded := PadVertices(vertices);
      if !copied {
        return false;
      }
      var bytes := VertexBytes(padded);
      assert |bytes| == size;
      vertexData := Some(bytes);
      return true;
    }

    /** `create_index_buffer`: a host-visible storage buffer of 4 bytes per index, bound, then filled with the indices. */
    method CreateIndexBuffer(indices: seq<U32>, created: bool, bound: bool, copied: bool) returns (ok: bool)
      modifies this`indexBuffer, this`indexBound, this`indexData
      ensures ok == (created && bound && copied)
      ensures indexBuffer == if created then Some(BufferRequest(INDEX_SIZE * |indices|, Buffers.STORAGE_BUFFER_USAGE, HOST_MEMORY))
                             else old(indexBuffer)
      ensures indexBound == if created && bound then true else old(indexBound)
      ensures indexData == if ok then Some(IndexBytes(indices)) else old(indexData)
    {
      var size := INDEX_SIZE * |indices|;
      if !created {
        return false;
      }
      indexBuffer := Some(BufferRequest(size, Buffers.STORAGE_BUFFER_USAGE, HOST_MEMORY));
      if !bound {
        return false;
      }
      indexBound := true;
      if !copied {
        return false;
      }
      var bytes := IndexBytes(indices);
      assert |bytes| == size;
      indexData := Some(bytes);
      return true;
    }

    /** `create_uniform_buffer`: a uniform buffer the size of `Params`, bound. */
    method CreateUniformBuffer(created: bool, bound: bool) returns (ok: bool)
      modifies this`uniformBuffer, this`uniformBound
      ensures ok == (created && bound)
      ensures uniformBuffer == if created then Some(BufferRequest(PARAMS_SIZE, Buffers.UNIFORM_BUFFER_USAGE, HOST_MEMORY))
                               else old(uniformBuffer)
      ensures uniformBound == if ok then true else old(uniformBound)
    {
      if !created {
        return false;
      }
      uniformBuffer := Some(BufferRequest(PARAMS_SIZE, Buffers.UNIFORM_BUFFER_USAGE, HOST_MEMORY));
      if !bound {
        return false;
      }
      uniformBound := true;
      return true;
    }

    /**
     * `dispatch`: record the layout change to `General`, the shader dispatch with one group
     * of 8 x 8 x 8 invocations per started block of the grid, the change to
     * `TransferSrcOptimal`; then end, submit and wait, stopping at the first failure.
     */
    method Dispatch(driver: DispatchDriver) returns (ok: bool, calls: seq<DispatchCall>)
      ensures ok == DispatchSucceeds(driver)
      ensures calls == DispatchCalls(width, height, depth)[..DispatchCallCount(driver)]
      ensures forall c :: c in calls && c.Groups? ==>
        && 8 * c.x >= width && 8 * c.y >= height && 8 * c.z >= depth
        && 8 * c.x < width + 8 && 8 * c.y < height + 8 && 8 * c.z < depth + 8
    {
      calls := [Begin];
      if driver.beginResult != Success {
        return false, calls;
      }
      calls := calls + [Barrier(Undefined, General)];
      calls := calls + [Groups(Atlas.GroupCount(width), Atlas.GroupCount(height), Atlas.GroupCount(depth))];
      calls := calls + [Barrier(General, TransferSrcOptimal)];
      calls := calls + [End];
      if driver.endResult != Success {
        return false, calls;
      }
      calls := calls + [Submit];
      if driver.submitResult != Success {
        return false, calls;
      }
      calls := calls + [WaitIdle];
      if driver.waitResult != Success {
        return false, calls;
      }
      return true, calls;
    }

    /**
     * The timed block of `run`: dispatch, and read the image back only if the dispatch
     * succeeded; otherwise the frame's data stays empty.
     */
    method DispatchAndRead(frame: FrameDriver) returns (imageData: seq<Byte>)
      ensures imageData == FrameImage(frame)
      ensures !DispatchSucceeds(frame.dispatch) ==> imageData == []
    {
      imageData := [];
      var dispatched, _ := Dispatch(frame.dispatch);
      if !dispatched {
        return;
      }
      imageData := frame.readback;
    }

    /**
     * `save_image_data`: rearrange the grid into its atlas and describe the PNG written from
     * it: `width * side` by `depth * side` pixels of 4 bytes.
     */
    method SaveImageData(imageData: seq<Byte>, frame: nat) returns (saved: SavedImage)
      requires |imageData| >= Atlas.GridSize(width, height, depth)
      requires Atlas.GridSize(width, height, depth) <= UINT32_MAX
      requires Atlas.AtlasSize(width, height, depth) <= UINT32_MAX
      ensures saved == SavedOf(imageData, frame, width, height, depth)
      ensures |saved.pixels| == saved.widthPx * saved.heightPx * 4
    {
      var side := Atlas.GridSide(height);
      var atlas := Atlas.RearrangeImageData(imageData, width, height, depth);
      assert atlas == AtlasOf(imageData, width, height, depth);
      saved := SavedImage(frame, width * side, depth * side, atlas);
    }

    /**
     * `run` as written: ten frames; a failed uniform update ends the run with false; a
     * failed dispatch only skips the read-back, and the frame's empty data still goes to
     * the save step. `saveInputs` is what each save step receives. `run` does not look at
     * whether construction succeeded: when it stopped before the mesh was loaded,
     * `index_count` was never assigned and `unassigned` stands for the value it holds.
     */
    method RunAsWritten(frames: seq<FrameDriver>, unassigned: U32) returns (ok: bool, saveInputs: seq<seq<Byte>>)
      requires |frames| == FRAME_COUNT
      modifies this`params
      ensures ok == AllOk(UniformOutcomes(frames))
      ensures saveInputs == SaveInputsAsWritten(frames, if ok then FRAME_COUNT else FramesRun(frames) - 1)
      ensures ok ==> params == Some(Params(if indexCount.Some? then indexCount.value else unassigned, FRAME_COUNT))
      ensures !ok ==> params == if FramesRun(frames) >= 2
                                then Some(Params(if indexCount.Some? then indexCount.value else unassigned, FramesRun(frames) - 1))
                                else old(params)
    {
      var count := if indexCount.Some? then indexCount.value else unassigned;
      saveInputs := [];
      var i := 1;
      while i <= FRAME_COUNT
        invariant 1 <= i <= FRAME_COUNT + 1
        invariant forall k :: 0 <= k < i - 1 ==> frames[k].uniformMapped
        invariant saveInputs == SaveInputsAsWritten(frames, i - 1)
        invariant i > 1 ==> params == Some(Params(count, i - 1))
        invariant i == 1 ==> params == old(params)
      {
        if !frames[i - 1].uniformMapped {
          FirstFailureIs(UniformOutcomes(frames), i - 1);
          return false, saveInputs;
        }
        params := Some(Params(count, i));
        var imageData := DispatchAndRead(frames[i - 1]);
        saveInputs := saveInputs + [imageData];
        i := i + 1;
      }
      return true, saveInputs;
    }

    /**
     * `run` with the save step skipped for a frame whose read-back does not hold a whole
     * grid. Ten frames; a failed uniform update ends the run with false. `unassigned` is
     * the value `index_count` holds when construction stopped before the mesh was loaded.
     */
    method Run(frames: seq<FrameDriver>, unassigned: U32) returns (ok: bool, saved: seq<SavedImage>)
      requires |frames| == FRAME_COUNT
      requires Atlas.GridSize(width, height, depth) <= UINT32_MAX
      requires Atlas.AtlasSize(width, height, depth) <= UINT32_MAX
      modifies this`params
      ensures ok == AllOk(UniformOutcomes(frames))
      ensures saved == Saves(frames, if ok then FRAME_COUNT else FramesRun(frames) - 1, width, height, depth)
      ensures ok ==> params == Some(Params(if indexCount.Some? then indexCount.value else unassigned, FRAME_COUNT))
      ensures !ok ==> params == if FramesRun(frames) >= 2
                                then Some(Params(if indexCount.Some? then indexCount.value else unassigned, FramesRun(frames) - 1))
                                else old(params)
    {
      var count := if indexCount.Some? then indexCount.value else unassigned;
      saved := [];
      var i := 1;
      while i <= FRAME_COUNT
        invariant 1 <= i <= FRAME_COUNT + 1
        invariant forall k :: 0 <= k < i - 1 ==> frames[k].uniformMapped
        invariant saved == Saves(frames, i - 1, width, height, depth)
        invariant i > 1 ==> params == Some(Params(count, i - 1))
        invariant i == 1 ==> params == old(params)
      {
        if !frames[i - 1].uniformMapped {
          FirstFailureIs(UniformOutcomes(frames), i - 1);
          return false, saved;
        }
        params := Some(Params(count, i));
        var imageData := DispatchAndRead(frames[i - 1]);
        if |imageData| >= Atlas.GridSize(width, height, depth) {
          var image := SaveImageData(imageData, i);
          saved := saved + [image];
        }
        i := i + 1;
      }
      return true, saved;
    }
  }
}

=== FILE: compute_shader.dfy ===
/**
 * `boza::ComputeShader`: a compute pipeline with one descriptor set and an optional
 * push-constant block kept on the host.
 *
 * The Vulkan driver is an oracle: `ShaderDriver` fixes the result of every call the
 * constructor makes. The shader object records, in `created`, the handles it holds
 * together with the create-info it passed for each of them.
 */
module Shaders {
  import opened Common
  import opened FailFast

  /** `vk::ShaderStageFlags`. */
  type ShaderStageFlags = bv32

  /** `VK_SHADER_STAGE_COMPUTE_BIT`. */
  const COMPUTE_STAGE: ShaderStageFlags := 0x20

  /** `vk::DescriptorType`. */
  datatype DescriptorType =
    | Sampler | CombinedImageSampler | SampledImage | StorageImage
    | UniformTexelBuffer | StorageTexelBuffer | UniformBuffer | StorageBuffer
    | UniformBufferDynamic | StorageBufferDynamic | InputAttachment

  /** `ComputeShader::DescriptorBindingInfo`; `descriptorCount` defaults to 1. */
  datatype DescriptorBindingInfo =
    DescriptorBindingInfo(binding: U32, descriptorType: DescriptorType, stageFlags: ShaderStageFlags, descriptorCount: U32 := 1)

  /** `ComputeShader::PushConstantRange`. */
  datatype PushConstantRange = PushConstantRange(stageFlags: ShaderStageFlags, offset: U32, size: U32)

  /** `vk::DescriptorSetLayoutBinding`, as passed to the driver. */
  datatype LayoutBinding =
    LayoutBinding(binding: U32, descriptorType: DescriptorType, descriptorCount: U32, stageFlags: ShaderStageFlags)

  /** `vk::PushConstantRange`, as passed to the driver. */
  datatype PushRange = PushRange(stageFlags: ShaderStageFlags, offset: U32, size: U32)

  /** `vk::DescriptorPoolSize`. */
  datatype PoolSize = PoolSize(descriptorType: DescriptorType, count: U32)

  /** A handle the shader owns, with the create-info it was made from. */
  datatype Resource =
    | ShaderModule(codeSize: nat)
    | DescriptorSetLayout(bindings: seq<LayoutBinding>)
    | PipelineLayout(setLayoutCount: nat, ranges: seq<PushRange>)
    | Pipeline(stage: ShaderStageFlags, entryPoint: string)
    | DescriptorPool(maxSets: nat, sizes: seq<PoolSize>)
    | DescriptorSet

  /**
   * What the environment answers: the byte size of the `.spv` file (`None` when it cannot
   * be opened), the result of each create call, and the number of sets the allocation returns.
   */
  datatype ShaderDriver = ShaderDriver(
    shaderFileSize: Option<nat>,
    moduleResult: VkResult,
    setLayoutResult: VkResult,
    pipelineLayoutResult: VkResult,
    pipelineResult: VkResult,
    poolResult: VkResult,
    setResult: VkResult,
    setCount: nat)

  /** A command recorded into a command buffer. */
  datatype Command =
    | BindPipeline
    | BindDescriptorSets(firstSet: nat, sets: nat)
    | PushConstants(stage: ShaderStageFlags, offset: nat, data: seq<Byte>)
    | DispatchGroups(x: U32, y: U32, z: U32)

  // ---------------------------------------------------------------------------------------
  // Shader binary
  // ---------------------------------------------------------------------------------------

  /**
   * `load_shader_binary`: the number of 32-bit words in the vector it returns for a file of
   * the given size, `file_size / 4`; a file that cannot be opened gives no words. The bytes
   * the read places beyond that length are not part of this model.
   */
  function ShaderWordCount(fileSize: Option<nat>): (n: nat)
    ensures fileSize.None? ==> n == 0
    ensures fileSize.Some? ==> 4 * n <= fileSize.value < 4 * n + 4
  {
    match fileSize
    case None => 0
    case Some(size) => size / 4
  }

  /** `create_shader_module` succeeds: the code is not empty and the driver accepts it. */
  predicate ShaderModuleOk(driver: ShaderDriver)
  {
    ShaderWordCount(driver.shaderFileSize) > 0 && driver.moduleResult == Success
  }

  /** The allocation counts only when it succeeds with exactly one set. */
  predicate SetAllocated(driver: ShaderDriver)
  {
    driver.setResult == Success && driver.setCount == 1
  }

  /** The outcome of each of the six creation steps, in constructor order. */
  function Outcomes(driver: ShaderDriver): seq<bool>
  {
    [ ShaderModuleOk(driver),
      driver.setLayoutResult == Success,
      driver.pipelineLayoutResult == Success,
      driver.pipelineResult == Success,
      driver.poolResult == Success,
      SetAllocated(driver) ]
  }

  // ---------------------------------------------------------------------------------------
  // Push-constant sizing
  // ---------------------------------------------------------------------------------------

  /** `pc.offset + pc.size`, computed in `uint32_t`. */
  function RangeEnd(r: PushConstantRange): U32
  {
    ToU32(r.offset + r.size)
  }

  /** The largest range end, or 0 when there are no ranges. */
  function MaxRangeEnd(ranges: seq<PushConstantRange>): U32
  {
    if ranges == [] then 0
    else
      Larger(MaxRangeEnd(ranges[..|ranges| - 1]), RangeEnd(ranges[|ranges| - 1]))
  }

  /** The block is large enough for every range, and no larger than the largest end. */
  lemma {:induction false} MaxRangeEndIsMax(ranges: seq<PushConstantRange>)
    ensures forall i :: 0 <= i < |ranges| ==> RangeEnd(ranges[i]) <= MaxRangeEnd(ranges)
    ensures MaxRangeEnd(ranges) == 0 || exists i :: 0 <= i < |ranges| && RangeEnd(ranges[i]) == MaxRangeEnd(ranges)
  {
    if ranges != [] {
      var prefix := ranges[..|ranges| - 1];
      MaxRangeEndIsMax(prefix);
      assert forall i :: 0 <= i < |prefix| ==> prefix[i] == ranges[i];
    }
  }

  function Larger(m: U32, e: U32): (r: U32)
    ensures r >= m && r >= e && (r == m || r == e)
  {
    if m < e then e else m
  }

  lemma MaxRangeEndStep(ranges: seq<PushConstantRange>, i: nat)
    requires i < |ranges|
    ensures MaxRangeEnd(ranges[..i + 1]) == Larger(MaxRangeEnd(ranges[..i]), RangeEnd(ranges[i]))
  {
    assert ranges[..i + 1][..i] == ranges[..i];
  }

  /** The running maximum of the constructor: the size of the push-constant block. */
  method TotalPushConstantSize(ranges: seq<PushConstantRange>) returns (total: U32)
    ensures total == MaxRangeEnd(ranges)
  {
    total := 0;
    var i := 0;
    while i < |ranges|
      invariant i <= |ranges|
      invariant total == MaxRangeEnd(ranges[..i])
    {
      MaxRangeEndStep(ranges, i);
      total := Larger(total, RangeEnd(ranges[i]));
      i := i + 1;
    }
    assert ranges[..i] == ranges;
  }

  // ---------------------------------------------------------------------------------------
  // Layout translation
  // ---------------------------------------------------------------------------------------

  /** The driver-side layout bindings: one per binding, in order, with the same fields. */
  function LayoutBindingsOf(bindings: seq<DescriptorBindingInfo>): (r: seq<LayoutBinding>)
    ensures |r| == |bindings|
    ensures forall i :: 0 <= i < |r| ==>
      && r[i].binding == bindings[i].binding
      && r[i].descriptorType == bindings[i].descriptorType
      && r[i].descriptorCount == bindings[i].descriptorCount
      && r[i].stageFlags == bindings[i].stageFlags
  {
    if bindings == [] then []
    else
      var b := bindings[|bindings| - 1];
      LayoutBindingsOf(bindings[..|bindings| - 1])
        + [LayoutBinding(b.binding, b.descriptorType, b.descriptorCount, b.stageFlags)]
  }

  /** The driver-side push ranges: one per range, in order, with the same fields. */
  function PushRangesOf(ranges: seq<PushConstantRange>): (r: seq<PushRange>)
    ensures |r| == |ranges|
    ensures forall i :: 0 <= i < |r| ==>
      r[i].stageFlags == ranges[i].stageFlags && r[i].offset == ranges[i].offset && r[i].size == ranges[i].size
  {
    if ranges == [] then []
    else
      var p := ranges[|ranges| - 1];
      PushRangesOf(ranges[..|ranges| - 1]) + [PushRange(p.stageFlags, p.offset, p.size)]
  }

  /** The `push_back` loop of `create_descriptor_set_layout`. */
  method TranslateBindings(bindings: seq<DescriptorBindingInfo>) returns (r: seq<LayoutBinding>)
    ensures r == LayoutBindingsOf(bindings)
  {
    r := [];
    var i := 0;
    while i < |bindings|
      invariant i <= |bindings|
      invariant r == LayoutBindingsOf(bindings[..i])
    {
      assert bindings[..i + 1][..i] == bindings[..i];
      var b := bindings[i];
      r := r + [LayoutBinding(b.binding, b.descriptorType, b.descriptorCount, b.stageFlags)];
      i := i + 1;
    }
    assert bindings[..i] == bindings;
  }

  /** The `push_back` loop of `create_pipeline_layout`. */
  method TranslateRanges(ranges: seq<PushConstantRange>) returns (r: seq<PushRange>)
    ensures r == PushRangesOf(ranges)
  {
    r := [];
    var i := 0;
    while i < |ranges|
      invariant i <= |ranges|
      invariant r == PushRangesOf(ranges[..i])
    {
      assert ranges[..i + 1][..i] == ranges[..i];
      var p := ranges[i];
      r := r + [PushRange(p.stageFlags, p.offset, p.size)];
      i := i + 1;
    }
    assert ranges[..i] == ranges;
  }

  // ---------------------------------------------------------------------------------------
  // Descriptor-pool sizes
  // ---------------------------------------------------------------------------------------

  /** The descriptor types the bindings use. */
  function TypesOf(bindings: seq<DescriptorBindingInfo>): set<DescriptorType>
  {
    set i | 0 <= i < |bindings| :: bindings[i].descriptorType
  }

  /**
   * `type_counts` after the accumulation loop: per type, the `uint32_t` sum of the
   * descriptor counts of the bindings of that type (`operator[]` starts a new type at 0).
   */
  function TypeCounts(bindings: seq<DescriptorBindingInfo>): map<DescriptorType, U32>
  {
    if bindings == [] then map[]
    else AddCount(TypeCounts(bindings[..|bindings| - 1]), bindings[|bindings| - 1])
  }

  /** `type_counts` has an entry exactly for each descriptor type the bindings use. */
  lemma {:induction false} TypeCountsKeys(bindings: seq<DescriptorBindingInfo>)
    ensures TypeCounts(bindings).Keys == TypesOf(bindings)
  {
    if bindings != [] {
      TypeCountsKeys(bindings[..|bindings| - 1]);
      TypesOfLast(bindings);
    }
  }

  /** `type_counts[b.descriptorType] += b.descriptorCount`, wrapping at 2^32. */
  function AddCount(counts: map<DescriptorType, U32>, b: DescriptorBindingInfo): (r: map<DescriptorType, U32>)
    ensures r.Keys == counts.Keys + {b.descriptorType}
  {
    var current := if b.descriptorType in counts then counts[b.descriptorType] else 0;
    counts[b.descriptorType := ToU32(current + b.descriptorCount)]
  }

  /** Reference definition: the exact (unbounded) number of descriptors of type t. */
  function TypeTotal(bindings: seq<DescriptorBindingInfo>, t: DescriptorType): nat
  {
    if bindings == [] then 0
    else
      var b := bindings[|bindings| - 1];
      TypeTotal(bindings[..|bindings| - 1], t) + if b.descriptorType == t then b.descriptorCount else 0
  }

  /** Reference definition: the exact number of descriptors over all bindings. */
  function Total(bindings: seq<DescriptorBindingInfo>): nat
  {
    if bindings == [] then 0
    else Total(bindings[..|bindings| - 1]) + bindings[|bindings| - 1].descriptorCount
  }

  /** Each accumulated count is the exact per-type total reduced modulo 2^32. */
  lemma {:induction false} TypeCountsAreTotals(bindings: seq<DescriptorBindingInfo>, t: DescriptorType)
    requires t in TypeCounts(bindings)
    ensures TypeCounts(bindings)[t] == TypeTotal(bindings, t) % U32_LIMIT
  {
    var prefix := bindings[..|bindings| - 1];
    var b := bindings[|bindings| - 1];
    var counts := TypeCounts(prefix);
    assert TypeCounts(bindings) == AddCount(counts, b);
    assert TypeTotal(bindings, t) == TypeTotal(prefix, t) + if b.descriptorType == t then b.descriptorCount else 0;
    if b.descriptorType == t {
      var current := if t in counts then counts[t] else 0;
      if t in counts {
        TypeCountsAreTotals(prefix, t);
      } else {
        TypeCountsKeys(prefix);
        TypeTotalAbsent(prefix, t);
      }
      AccumulateModulo(current, TypeTotal(prefix, t), b.descriptorCount);
      AddCountAt(counts, b, t);
    } else {
      assert t in counts;
      AddCountAt(counts, b, t);
      TypeCountsAreTotals(prefix, t);
    }
  }

  /** The entry of a type after one `+=`: updated for the binding's own type, unchanged for any other. */
  lemma AddCountAt(counts: map<DescriptorType, U32>, b: DescriptorBindingInfo, t: DescriptorType)
    requires t == b.descriptorType || t in counts
    ensures t in AddCount(counts, b)
    ensures AddCount(counts, b)[t]
         == if t == b.descriptorType then ToU32((if t in counts then counts[t] else 0) + b.descriptorCount) else counts[t]
  {
  }

  /** The types of a list are those of all but its last binding, plus the last one's. */
  lemma TypesOfLast(bindings: seq<DescriptorBindingInfo>)
    requires bindings != []
    ensures TypesOf(bindings) == TypesOf(bindings[..|bindings| - 1]) + {bindings[|bindings| - 1].descriptorType}
  {
    var prefix := bindings[..|bindings| - 1];
    assert forall i :: 0 <= i < |prefix| ==> prefix[i] == bindings[i];
  }

  /** One `+=` on a `uint32_t` counter that holds a reduced total holds the reduced new total. */
  lemma AccumulateModulo(current: int, total: nat, count: nat)
    requires current == total % U32_LIMIT
    ensures ToU32(current + count) == (total + count) % U32_LIMIT
  {
    AddModulo(total, count);
  }

  /** Adding to a value already reduced modulo 2^32 and reducing again is reducing the sum. */
  lemma AddModulo(a: nat, c: nat)
    ensures (a % U32_LIMIT + c) % U32_LIMIT == (a + c) % U32_LIMIT
  {
    var q := a / U32_LIMIT;
    assert a + c == (a % U32_LIMIT + c) + q * U32_LIMIT;
    ModShift(a % U32_LIMIT + c, q);
  }

  lemma ModShift(x: nat, q: nat)
    ensures (x + q * U32_LIMIT) % U32_LIMIT == x % U32_LIMIT
  {
    if q > 0 {
      ModShift(x, q - 1);
      assert x + q * U32_LIMIT == (x + (q - 1) * U32_LIMIT) + U32_LIMIT;
    }
  }

  /** A type no binding uses has total 0. */
  lemma {:induction false} TypeTotalAbsent(bindings: seq<DescriptorBindingInfo>, t: DescriptorType)
    requires t !in TypesOf(bindings)
    ensures TypeTotal(bindings, t) == 0
  {
    if bindings != [] {
      var prefix := bindings[..|bindings| - 1];
      assert TypesOf(prefix) <= TypesOf(bindings) by {
        forall u | u in TypesOf(prefix) ensures u in TypesOf(bindings) {
          var i :| 0 <= i < |prefix| && prefix[i].descriptorType == u;
          assert bindings[i] == prefix[i];
        }
      }
      assert bindings[|bindings| - 1].descriptorType in TypesOf(bindings);
      TypeTotalAbsent(prefix, t);
    }
  }

  /** A per-type total never exceeds the total over all bindings. */
  lemma {:induction false} TypeTotalBounded(bindings: seq<DescriptorBindingInfo>, t: DescriptorType)
    ensures TypeTotal(bindings, t) <= Total(bindings)
  {
    if bindings != [] {
      TypeTotalBounded(bindings[..|bindings| - 1], t);
    }
  }

  /**
   * The pool sizes of `create_descriptor_pool_and_set` for these bindings: one entry per
   * distinct descriptor type, carrying that type's accumulated count.
   */
  predicate PoolSizesFor(sizes: seq<PoolSize>, bindings: seq<DescriptorBindingInfo>)
  {
    var counts := TypeCounts(bindings);
    && (forall i, j :: 0 <= i < j < |sizes| ==> sizes[i].descriptorType != sizes[j].descriptorType)
    && (forall i :: 0 <= i < |sizes| ==>
          sizes[i].descriptorType in counts && sizes[i].count == counts[sizes[i].descriptorType])
    && (forall t :: t in counts ==> exists i :: 0 <= i < |sizes| && sizes[i].descriptorType == t)
  }

  /** One more binding adds its count to its type's entry, modulo 2^32. */
  lemma TypeCountsStep(bindings: seq<DescriptorBindingInfo>, i: nat)
    requires i < |bindings|
    ensures TypeCounts(bindings[..i + 1]) == AddCount(TypeCounts(bindings[..i]), bindings[i])
  {
    assert bindings[..i + 1][..i] == bindings[..i];
  }

  /** The accumulation loop over the bindings. */
  method CountTypes(bindings: seq<DescriptorBindingInfo>) returns (counts: map<DescriptorType, U32>)
    ensures counts == TypeCounts(bindings)
  {
    counts := map[];
    var i := 0;
    while i < |bindings|
      invariant i <= |bindings|
      invariant counts == TypeCounts(bindings[..i])
    {
      TypeCountsStep(bindings, i);
      counts := AddCount(counts, bindings[i]);
      i := i + 1;
    }
    assert bindings[..i] == bindings;
  }

  /**
   * The `emplace_back` loop over `type_counts`. An `unordered_map` has no defined
   * iteration order, so each step takes any type not yet listed.
   */
  method PoolSizesOf(counts: map<DescriptorType, U32>) returns (sizes: seq<PoolSize>)
    ensures |sizes| == |counts|
    ensures forall i, j :: 0 <= i < j < |sizes| ==> sizes[i].descriptorType != sizes[j].descriptorType
    ensures forall i :: 0 <= i < |sizes| ==>
      sizes[i].descriptorType in counts && sizes[i].count == counts[sizes[i].descriptorType]
    ensures forall t :: t in counts ==> exists i :: 0 <= i < |sizes| && sizes[i].descriptorType == t
  {
    sizes := [];
    var remaining := counts.Keys;
    while remaining != {}
      invariant remaining <= counts.Keys
      invariant |sizes| + |remaining| == |counts|
      invariant forall i, j :: 0 <= i < j < |sizes| ==> sizes[i].descriptorType != sizes[j].descriptorType
      invariant forall i :: 0 <= i < |sizes| ==>
        sizes[i].descriptorType in counts.Keys - remaining && sizes[i].count == counts[sizes[i].descriptorType]
      invariant forall t :: t in counts.Keys - remaining ==> exists i :: 0 <= i < |sizes| && sizes[i].descriptorType == t
      decreases |remaining|
    {
      var t :| t in remaining;
      ghost var before, remainingBefore := sizes, remaining;
      sizes := sizes + [PoolSize(t, counts[t])];
      remaining := remaining - {t};
      forall u | u in counts.Keys - remaining
        ensures exists i :: 0 <= i < |sizes| && sizes[i].descriptorType == u
      {
        if u == t {
          assert sizes[|sizes| - 1].descriptorType == u;
        } else {
          assert u in counts.Keys - remainingBefore;
          var i :| 0 <= i < |before| && before[i].descriptorType == u;
          assert sizes[i] == before[i];
        }
      }
    }
    assert counts.Keys - remaining == counts.Keys;
  }

  /** The sum of the counts of a list of pool sizes. */
  function SizeSum(sizes: seq<PoolSize>): nat
  {
    if sizes == [] then 0 else sizes[0].count + SizeSum(sizes[1..])
  }

  /** The sum of the exact per-type totals over a list of types. */
  function TotalsOver(bindings: seq<DescriptorBindingInfo>, types: seq<DescriptorType>): nat
  {
    if types == [] then 0 else TypeTotal(bindings, types[0]) + TotalsOver(bindings, types[1..])
  }

  lemma {:induction false} TotalsOverEmpty(types: seq<DescriptorType>)
    ensures TotalsOver([], types) == 0
  {
    if types != [] {
      TotalsOverEmpty(types[1..]);
    }
  }

  /** Adding one binding adds its count to the sum over a duplicate-free list that holds its type. */
  lemma {:induction false} TotalsOverSnoc(bindings: seq<DescriptorBindingInfo>, b: DescriptorBindingInfo, types: seq<DescriptorType>)
    requires forall i, j :: 0 <= i < j < |types| ==> types[i] != types[j]
    ensures TotalsOver(bindings + [b], types)
         == TotalsOver(bindings, types) + if b.descriptorType in types then b.descriptorCount else 0
  {
    if types != [] {
      assert (bindings + [b])[..|bindings + [b]| - 1] == bindings;
      TotalsOverSnoc(bindings, b, types[1..]);
      assert b.descriptorType in types <==> b.descriptorType == types[0] || b.descriptorType in types[1..];
      assert b.descriptorType == types[0] ==> b.descriptorType !in types[1..];
    }
  }

  /** Summing the per-type totals over every used type, once each, counts every descriptor once. */
  lemma {:induction false} TotalsOverAllTypes(bindings: seq<DescriptorBindingInfo>, types: seq<DescriptorType>)
    requires forall i, j :: 0 <= i < j < |types| ==> types[i] != types[j]
    requires forall i :: 0 <= i < |bindings| ==> bindings[i].descriptorType in types
    ensures TotalsOver(bindings, types) == Total(bindings)
  {
    if bindings == [] {
      TotalsOverEmpty(types);
    } else {
      var prefix := bindings[..|bindings| - 1];
      var b := bindings[|bindings| - 1];
      assert bindings == prefix + [b];
      TotalsOverAllTypes(prefix, types);
      TotalsOverSnoc(prefix, b, types);
    }
  }

  /**
   * When no per-type sum wraps, the pool-size entries together count exactly the
   * descriptors of all bindings.
   */
  lemma PoolSizesCountAll(sizes: seq<PoolSize>, bindings: seq<DescriptorBindingInfo>)
    requires PoolSizesFor(sizes, bindings)
    requires Total(bindings) < U32_LIMIT
    ensures SizeSum(sizes) == Total(bindings)
  {
    var types := SizeTypes(sizes);
    forall i | 0 <= i < |bindings| ensures bindings[i].descriptorType in types {
      var t := bindings[i].descriptorType;
      TypeCountsKeys(bindings);
      assert t in TypesOf(bindings);
      var k :| 0 <= k < |sizes| && sizes[k].descriptorType == t;
      assert types[k] == t;
    }
    SizeSumIsTotals(sizes, bindings);
    TotalsOverAllTypes(bindings, types);
  }

  /** Without wrap-around, each entry's count is the exact total of its type. */
  lemma {:induction false} SizeSumIsTotals(sizes: seq<PoolSize>, bindings: seq<DescriptorBindingInfo>)
    requires forall i :: 0 <= i < |sizes| ==>
      sizes[i].descriptorType in TypeCounts(bindings) && sizes[i].count == TypeCounts(bindings)[sizes[i].descriptorType]
    requires Total(bindings) < U32_LIMIT
    ensures SizeSum(sizes) == TotalsOver(bindings, SizeTypes(sizes))
  {
    if sizes != [] {
      var t := sizes[0].descriptorType;
      TypeCountsAreTotals(bindings, t);
      TypeTotalBounded(bindings, t);
      SizeSumIsTotals(sizes[1..], bindings);
      assert SizeTypes(sizes)[1..] == SizeTypes(sizes[1..]);
    }
  }

  /** The descriptor types of pool-size entries, in order. */
  function SizeTypes(sizes: seq<PoolSize>): (r: seq<DescriptorType>)
    ensures |r| == |sizes|
    ensures forall i :: 0 <= i < |sizes| ==> r[i] == sizes[i].descriptorType
  {
    if sizes == [] then [] else [sizes[0].descriptorType] + SizeTypes(sizes[1..])
  }

  /** The bindings `ComputeApp` declares: image 0, vertex and index buffers 1 and 2, uniform 3. */
  function AppBindings(): seq<DescriptorBindingInfo>
  {
    [ DescriptorBindingInfo(0, StorageImage, COMPUTE_STAGE),
      DescriptorBindingInfo(1, StorageBuffer, COMPUTE_STAGE),
      DescriptorBindingInfo(2, StorageBuffer, COMPUTE_STAGE),
      DescriptorBindingInfo(3, UniformBuffer, COMPUTE_STAGE) ]
  }

  /** For those bindings the pool gets one storage image, two storage buffers and one uniform buffer. */
  lemma AppTypeCounts()
    ensures TypeCounts(AppBindings()) == map[StorageImage := 1, StorageBuffer := 2, UniformBuffer := 1]
    ensures forall b :: b in AppBindings() ==> b.descriptorCount == 1
  {
    var bs := AppBindings();
    assert bs[..1][..0] == [];
    assert TypeCounts(bs[..1]) == map[StorageImage := 1];
    assert bs[..2][..1] == bs[..1];
    assert TypeCounts(bs[..2]) == map[StorageImage := 1, StorageBuffer := 1];
    assert bs[..3][..2] == bs[..2];
    assert TypeCounts(bs[..3]) == map[StorageImage := 1, StorageBuffer := 2];
    assert bs[..3] == bs[..|bs| - 1];
  }

  /** The number of creation steps that succeed before the first failure. */
  function StepsDone(driver: ShaderDriver): nat
  {
    if !ShaderModuleOk(driver) then 0
    else if driver.setLayoutResult != Success then 1
    else if driver.pipelineLayoutResult != Success then 2
    else if driver.pipelineResult != Success then 3
    else if driver.poolResult != Success then 4
    else if !SetAllocated(driver) then 5
    else 6
  }

  /** The constructor's sequence is fail-fast: it stops exactly at the first failing step. */
  lemma StepsDoneIsFirstFailure(driver: ShaderDriver)
    ensures StepsDone(driver) == FirstFailure(Outcomes(driver))
    ensures StepsDone(driver) == 6 <==> AllOk(Outcomes(driver))
  {
    FirstFailureIs(Outcomes(driver), StepsDone(driver));
  }

  /** The handle the constructor creates at step i, with the create-info it passes. */
  predicate ResourceAt(r: Resource, i: nat, driver: ShaderDriver, bindings: seq<DescriptorBindingInfo>, ranges: seq<PushConstantRange>)
  {
    if i == 0 then r == ShaderModule(4 * ShaderWordCount(driver.shaderFileSize))
    else if i == 1 then r == DescriptorSetLayout(LayoutBindingsOf(bindings))
    else if i == 2 then r == PipelineLayout(1, PushRangesOf(ranges))
    else if i == 3 then r == Pipeline(COMPUTE_STAGE, "main")
    else if i == 4 then r.DescriptorPool? && r.maxSets == 1 && PoolSizesFor(r.sizes, bindings)
    else i == 5 && r == DescriptorSet
  }

  /** Each held handle is the one of its step: module, set layout, pipeline layout, pipeline, pool, set. */
  predicate CreatedInOrder(created: seq<Resource>, driver: ShaderDriver, bindings: seq<DescriptorBindingInfo>, ranges: seq<PushConstantRange>)
  {
    forall i :: 0 <= i < |created| ==> ResourceAt(created[i], i, driver, bindings, ranges)
  }

  lemma InOrderSnoc(created: seq<Resource>, r: Resource, driver: ShaderDriver, bindings: seq<DescriptorBindingInfo>, ranges: seq<PushConstantRange>)
    requires CreatedInOrder(created, driver, bindings, ranges)
    requires ResourceAt(r, |created|, driver, bindings, ranges)
    ensures CreatedInOrder(created + [r], driver, bindings, ranges)
  {
  }

  // ---------------------------------------------------------------------------------------
  // The shader object
  // ---------------------------------------------------------------------------------------

  class ComputeShader {
    /** The owned handles, in creation order. */
    var created: seq<Resource>
    /** `push_constant_buffer`. */
    var pushConstantBuffer: seq<Byte>
    /** Whether `device` holds a device reference. */
    var hasDevice: bool
    var ok: bool

    /** `operator bool`. */
    predicate IsOk()
      reads this
    {
      ok
    }

    /** `ComputeShader(nullptr)`: holds nothing and is not ok. */
    constructor Null()
      ensures created == [] && pushConstantBuffer == [] && !hasDevice
      ensures !IsOk()
    {
      created := [];
      pushConstantBuffer := [];
      hasDevice := false;
      ok := false;
    }

    /**
     * The main constructor: the five creation steps in order, stopping at the first failure
     * with `ok` cleared; the push-constant block is sized only when every step succeeds.
     */
    constructor (driver: ShaderDriver, bindings: seq<DescriptorBindingInfo>, ranges: seq<PushConstantRange> := [])
      ensures hasDevice
      ensures ok == (StepsDone(driver) == 6)
      ensures |created| == StepsDone(driver)
      ensures CreatedInOrder(created, driver, bindings, ranges)
      ensures pushConstantBuffer == if ok then Zeros(MaxRangeEnd(ranges)) else []
    {
      hasDevice := true;
      ok := true;
      created := [];
      pushConstantBuffer := [];
      new;
      var success := CreatePipelineObjects(driver, bindings, ranges);
      if !success {
        return;
      }
      success := CreatePoolObjects(driver, bindings, ranges);
      if !success {
        return;
      }
      var total := TotalPushConstantSize(ranges);
      pushConstantBuffer := Zeros(total);
    }

    /** The first four creation steps: shader module, set layout, pipeline layout, pipeline. */
    method CreatePipelineObjects(driver: ShaderDriver, bindings: seq<DescriptorBindingInfo>, ranges: seq<PushConstantRange>)
      returns (success: bool)
      requires created == [] && ok
      modifies this
      ensures success == (StepsDone(driver) >= 4)
      ensures |created| == if success then 4 else StepsDone(driver)
      ensures CreatedInOrder(created, driver, bindings, ranges)
      ensures ok == success
      ensures pushConstantBuffer == old(pushConstantBuffer) && hasDevice == old(hasDevice)
    {
      success := CreateShaderModule(driver);
      if !success {
        return;
      }
      InOrderSnoc([], created[0], driver, bindings, ranges);
      ghost var before := created;
      success := CreateDescriptorSetLayout(driver, bindings);
      if !success {
        return;
      }
      InOrderSnoc(before, created[1], driver, bindings, ranges);
      before := created;
      success := CreatePipelineLayout(driver, ranges);
      if !success {
        return;
      }
      InOrderSnoc(before, created[2], driver, bindings, ranges);
      before := created;
      success := CreatePipeline(driver);
      if !success {
        return;
      }
      InOrderSnoc(before, created[3], driver, bindings, ranges);
    }

    /** The last two creation steps: the descriptor pool and the descriptor set. */
    method CreatePoolObjects(driver: ShaderDriver, bindings: seq<DescriptorBindingInfo>, ranges: seq<PushConstantRange>)
      returns (success: bool)
      requires StepsDone(driver) >= 4 && |created| == 4 && CreatedInOrder(created, driver, bindings, ranges) && ok
      modifies this
      ensures success == (StepsDone(driver) == 6)
      ensures |created| == StepsDone(driver)
      ensures CreatedInOrder(created, driver, bindings, ranges)
      ensures ok == success
      ensures pushConstantBuffer == old(pushConstantBuffer) && hasDevice == old(hasDevice)
    {
      ghost var before := created;
      success := CreateDescriptorPoolAndSet(driver, bindings);
      if driver.poolResult == Success {
        InOrderSnoc(before, created[4], driver, bindings, ranges);
      }
      if !success {
        return;
      }
      InOrderSnoc(before + [created[4]], created[5], driver, bindings, ranges);
    }

    /** `create_shader_module`: fails on empty code or a driver error; the code size is 4 bytes per word. */
    method CreateShaderModule(driver: ShaderDriver) returns (success: bool)
      modifies this
      ensures success == ShaderModuleOk(driver)
      ensures created == old(created) + if success then [ShaderModule(4 * ShaderWordCount(driver.shaderFileSize))] else []
      ensures ok == (old(ok) && success)
      ensures pushConstantBuffer == old(pushConstantBuffer) && hasDevice == old(hasDevice)
    {
      var words := ShaderWordCount(driver.shaderFileSize);
      if words == 0 {
        ok := false;
        return false;
      }
      if driver.moduleResult != Success {
        ok := false;
        return false;
      }
      created := created + [ShaderModule(4 * words)];
      return true;
    }

    /** `create_descriptor_set_layout`. */
    method CreateDescriptorSetLayout(driver: ShaderDriver, bindings: seq<DescriptorBindingInfo>) returns (success: bool)
      modifies this
      ensures success == (driver.setLayoutResult == Success)
      ensures created == old(created) + if success then [DescriptorSetLayout(LayoutBindingsOf(bindings))] else []
      ensures ok == (old(ok) && success)
      ensures pushConstantBuffer == old(pushConstantBuffer) && hasDevice == old(hasDevice)
    {
      var layoutBindings := TranslateBindings(bindings);
      if driver.setLayoutResult != Success {
        ok := false;
        return false;
      }
      created := created + [DescriptorSetLayout(layoutBindings)];
      return true;
    }

    /** `create_pipeline_layout`: one set layout and the translated push ranges. */
    method CreatePipelineLayout(driver: ShaderDriver, ranges: seq<PushConstantRange>) returns (success: bool)
      modifies this
      ensures success == (driver.pipelineLayoutResult == Success)
      ensures created == old(created) + if success then [PipelineLayout(1, PushRangesOf(ranges))] else []
      ensures ok == (old(ok) && success)
      ensures pushConstantBuffer == old(pushConstantBuffer) && hasDevice == old(hasDevice)
    {
      var pushRanges := TranslateRanges(ranges);
      if driver.pipelineLayoutResult != Success {
        ok := false;
        return false;
      }
      created := created + [PipelineLayout(1, pushRanges)];
      return true;
    }

    /** `create_pipeline`: a compute stage with entry point `main`. */
    method CreatePipeline(driver: ShaderDriver) returns (success: bool)
      modifies this
      ensures success == (driver.pipelineResult == Success)
      ensures created == old(created) + if success then [Pipeline(COMPUTE_STAGE, "main")] else []
      ensures ok == (old(ok) && success)
      ensures pushConstantBuffer == old(pushConstantBuffer) && hasDevice == old(hasDevice)
    {
      if driver.pipelineResult != Success {
        ok := false;
        return false;
      }
      created := created + [Pipeline(COMPUTE_STAGE, "main")];
      return true;
    }

    /**
     * `create_descriptor_pool_and_set`: a pool for one set with one size entry per used
     * descriptor type, then one set from it. The pool is kept even if the set allocation fails.
     */
    method CreateDescriptorPoolAndSet(driver: ShaderDriver, bindings: seq<DescriptorBindingInfo>) returns (success: bool)
      modifies this
      ensures success == (driver.poolResult == Success && SetAllocated(driver))
      ensures driver.poolResult != Success ==> created == old(created)
      ensures driver.poolResult == Success ==>
        && |created| == |old(created)| + (if success then 2 else 1)
        && created[..|old(created)|] == old(created)
        && created[|old(created)|].DescriptorPool?
        && created[|old(created)|].maxSets == 1
        && PoolSizesFor(created[|old(created)|].sizes, bindings)
        && (success ==> created[|old(created)| + 1] == DescriptorSet)
      ensures ok == (old(ok) && success)
      ensures pushConstantBuffer == old(pushConstantBuffer) && hasDevice == old(hasDevice)
    {
      var counts := CountTypes(bindings);
      var sizes := PoolSizesOf(counts);
      assert PoolSizesFor(sizes, bindings);
      if driver.poolResult != Success {
        ok := false;
        return false;
      }
      created := created + [DescriptorPool(1, sizes)];
      if driver.setResult != Success || driver.setCount != 1 {
        ok := false;
        return false;
      }
      created := created + [DescriptorSet];
      return true;
    }

    /**
     * `dispatch`: the commands recorded, in order. The push-constant block is pushed, whole
     * and at offset 0, only when it is not empty.
     */
    method Dispatch(x: U32, y: U32 := 1, z: U32 := 1) returns (commands: seq<Command>)
      ensures |commands| == if pushConstantBuffer == [] then 3 else 4
      ensures commands[0] == BindPipeline
      ensures commands[1] == BindDescriptorSets(0, 1)
      ensures pushConstantBuffer != [] ==> commands[2] == PushConstants(COMPUTE_STAGE, 0, pushConstantBuffer)
      ensures commands[|commands| - 1] == DispatchGroups(x, y, z)
      ensures forall i :: 0 <= i < |commands| - 1 ==> !commands[i].DispatchGroups?
    {
      commands := [BindPipeline, BindDescriptorSets(0, 1)];
      if pushConstantBuffer != [] {
        commands := commands + [PushConstants(COMPUTE_STAGE, 0, pushConstantBuffer)];
      }
      commands := commands + [DispatchGroups(x, y, z)];
    }

    /**
     * `set_push_constant`: writes the bytes of a value at offset when they fit in the block;
     * otherwise the block is left as it was and nothing is reported.
     */
    method SetPushConstant(data: seq<Byte>, offset: U32 := 0)
      modifies this
      ensures pushConstantBuffer == if offset + |data| <= |old(pushConstantBuffer)|
                                    then Overwrite(old(pushConstantBuffer), offset, data)
                                    else old(pushConstantBuffer)
      ensures |pushConstantBuffer| == |old(pushConstantBuffer)|
      ensures created == old(created) && ok == old(ok) && hasDevice == old(hasDevice)
    {
      if offset + |data| <= |pushConstantBuffer| {
        pushConstantBuffer := Overwrite(pushConstantBuffer, offset, data);
      }
    }

    /** The move constructor: takes everything from other and leaves it empty and not ok. */
    constructor MoveFrom(other: ComputeShader)
      modifies other
      ensures created == old(other.created) && pushConstantBuffer == old(other.pushConstantBuffer)
      ensures ok == old(other.ok) && hasDevice == old(other.hasDevice)
      ensures other.created == [] && other.pushConstantBuffer == [] && !other.ok && !other.hasDevice
    {
      created := other.created;
      pushConstantBuffer := other.pushConstantBuffer;
      ok := other.ok;
      hasDevice := other.hasDevice;
      new;
      other.created := [];
      other.pushConstantBuffer := [];
      other.ok := false;
      other.hasDevice := false;
    }

    /**
     * Move assignment: a no-op on itself; otherwise as the move constructor, except that a
     * target keeps its own device when the source has none.
     */
    method MoveAssign(other: ComputeShader)
      modifies this, other
      ensures other == this ==> created == old(created) && pushConstantBuffer == old(pushConstantBuffer)
                                && ok == old(ok) && hasDevice == old(hasDevice)
      ensures other != this ==>
        && created == old(other.created) && pushConstantBuffer == old(other.pushConstantBuffer)
        && ok == old(other.ok) && hasDevice == (old(other.hasDevice) || old(hasDevice))
        && other.created == [] && other.pushConstantBuffer == [] && !other.ok && !other.hasDevice
    {
      if other != this {
        created := other.created;
        pushConstantBuffer := other.pushConstantBuffer;
        ok := other.ok;
        if other.hasDevice {
          hasDevice := true;
        }
        other.created := [];
        other.pushConstantBuffer := [];
        other.ok := false;
        other.hasDevice := false;
      }
    }
  }
}

=== FILE: device.dfy ===
/**
 * `boza::Device`: the choice of a physical device with a compute-capable queue family, the
 * logical device created on it, and its compute queue.
 *
 * The instance's answers (the enumerated devices and the result of each call) are an
 * oracle, `DeviceDriver`.
 */
module Devices {
  import opened Common
  import opened FailFast

  /** `vk::QueueFlags`. */
  type QueueFlags = bv32

  /** `VK_QUEUE_COMPUTE_BIT`. */
  const COMPUTE_QUEUE: QueueFlags := 0x2

  /** The queue families of a device; the source indexes them with a `uint32_t`. */
  type QueueFamilies = s: seq<QueueFlags> | |s| < U32_LIMIT

  /** A physical device, seen through `getQueueFamilyProperties`. */
  datatype PhysicalDevice = PhysicalDevice(queueFamilies: QueueFamilies)

  /** `vk::DeviceQueueCreateInfo`: how many queues are asked for from which family. */
  datatype QueueRequest = QueueRequest(queueFamilyIndex: U32, queueCount: nat)

  /** `vk::DeviceCreateInfo`, as far as queues are concerned. */
  datatype DeviceInfo = DeviceInfo(queueRequests: seq<QueueRequest>)

  /** A queue handle: the family it comes from and its index inside the family. */
  datatype Queue = Queue(familyIndex: U32, queueIndex: nat)

  /** What the environment answers: enumeration, the devices found, and device creation. */
  datatype DeviceDriver = DeviceDriver(enumerateResult: VkResult, devices: seq<PhysicalDevice>, createResult: VkResult)

  predicate HasCompute(flags: QueueFlags)
  {
    flags & COMPUTE_QUEUE != 0
  }

  /** A device is suitable when at least one of its queue families supports compute. */
  predicate Suitable(device: PhysicalDevice)
  {
    exists i :: 0 <= i < |device.queueFamilies| && HasCompute(device.queueFamilies[i])
  }

  /** The highest-numbered compute-capable family, if there is one. */
  function LastComputeFamily(families: seq<QueueFlags>): (r: Option<nat>)
    ensures r.None? <==> forall i :: 0 <= i < |families| ==> !HasCompute(families[i])
    ensures r.Some? ==>
      && r.value < |families|
      && HasCompute(families[r.value])
      && forall j :: r.value < j < |families| ==> !HasCompute(families[j])
  {
    if families == [] then None
    else if HasCompute(families[|families| - 1]) then Some(|families| - 1)
    else LastComputeFamily(families[..|families| - 1])
  }

  /** The first suitable device in enumeration order, if there is one. */
  function FirstSuitable(devices: seq<PhysicalDevice>): (r: Option<nat>)
    ensures r.None? <==> forall k :: 0 <= k < |devices| ==> !Suitable(devices[k])
    ensures r.Some? ==>
      && r.value < |devices|
      && Suitable(devices[r.value])
      && forall k :: 0 <= k < r.value ==> !Suitable(devices[k])
  {
    if devices == [] then None
    else if Suitable(devices[0]) then Some(0)
    else match FirstSuitable(devices[1..])
      case None => None
      case Some(k) => Some(k + 1)
  }

  /** A suitable device preceded only by unsuitable ones is the one chosen. */
  lemma {:induction false} FirstSuitableIs(devices: seq<PhysicalDevice>, n: nat)
    requires n < |devices| && Suitable(devices[n])
    requires forall k :: 0 <= k < n ==> !Suitable(devices[k])
    ensures FirstSuitable(devices) == Some(n)
  {
    if n > 0 {
      FirstSuitableIs(devices[1..], n - 1);
    }
  }

  /** Only a suitable device has a compute family to record. */
  lemma SuitableIffComputeFamily(device: PhysicalDevice)
    ensures Suitable(device) <==> LastComputeFamily(device.queueFamilies).Some?
  {
    if LastComputeFamily(device.queueFamilies).Some? {
      var i := LastComputeFamily(device.queueFamilies).value;
      assert HasCompute(device.queueFamilies[i]);
    }
  }

  /** How many of the two steps (choose the physical device, create the logical device) succeed. */
  function DeviceSteps(driver: DeviceDriver): nat
  {
    if driver.enumerateResult != Success || FirstSuitable(driver.devices).None? then 0
    else if driver.createResult != Success then 1
    else 2
  }

  function DeviceOutcomes(driver: DeviceDriver): seq<bool>
  {
    [driver.enumerateResult == Success && FirstSuitable(driver.devices).Some?, driver.createResult == Success]
  }

  /** The device constructor stops at its first failing step. */
  lemma DeviceStepsIsFirstFailure(driver: DeviceDriver)
    ensures DeviceSteps(driver) == FirstFailure(DeviceOutcomes(driver))
    ensures DeviceSteps(driver) == 2 <==> AllOk(DeviceOutcomes(driver))
  {
    FirstFailureIs(DeviceOutcomes(driver), DeviceSteps(driver));
  }

  /** The device the constructor settles on, when choosing succeeds. */
  function ChosenDevice(driver: DeviceDriver): PhysicalDevice
    requires DeviceSteps(driver) >= 1
  {
    driver.devices[FirstSuitable(driver.devices).value]
  }

  class Device {
    var physicalDevice: Option<PhysicalDevice>
    var logicalDevice: Option<DeviceInfo>
    var computeQueue: Option<Queue>
    var computeQueueFamilyIndex: U32
    var ok: bool

    /** `operator bool`. */
    predicate IsOk()
      reads this
    {
      ok
    }

    /**
     * Choose a physical device, create the logical device on it, fetch queue 0 of the
     * compute family. A failure clears `ok` and ends construction.
     */
    constructor (driver: DeviceDriver)
      ensures ok == (DeviceSteps(driver) == 2)
      ensures physicalDevice == if DeviceSteps(driver) >= 1 then Some(ChosenDevice(driver)) else None
      ensures computeQueueFamilyIndex == if DeviceSteps(driver) >= 1
                                         then LastComputeFamily(ChosenDevice(driver).queueFamilies).value else 0
      ensures logicalDevice == if DeviceSteps(driver) == 2
                               then Some(DeviceInfo([QueueRequest(computeQueueFamilyIndex, 1)])) else None
      ensures computeQueue == if DeviceSteps(driver) == 2 then Some(Queue(computeQueueFamilyIndex, 0)) else None
    {
      physicalDevice := None;
      logicalDevice := None;
      computeQueue := None;
      computeQueueFamilyIndex := 0;
      ok := true;
      new;
      var chosen := ChoosePhysicalDevice(driver.enumerateResult, driver.devices);
      if !chosen {
        return;
      }
      var created := CreateLogicalDevice(driver.createResult);
      if !created {
        return;
      }
      computeQueue := Some(Queue(computeQueueFamilyIndex, 0));
    }

    /**
     * `choose_physical_device`: take the first device with a compute-capable family. While
     * scanning a device's families every compute-capable one overwrites the recorded index,
     * so the index kept is the last such family of the chosen device. Failure to enumerate
     * or the absence of a suitable device clears `ok`.
     */
    method ChoosePhysicalDevice(result: VkResult, devices: seq<PhysicalDevice>) returns (chosen: bool)
      modifies this
      ensures chosen == (result == Success && FirstSuitable(devices).Some?)
      ensures chosen ==>
        && physicalDevice == Some(devices[FirstSuitable(devices).value])
        && computeQueueFamilyIndex == LastComputeFamily(devices[FirstSuitable(devices).value].queueFamilies).value
        && ok == old(ok)
      ensures !chosen ==>
        && physicalDevice == old(physicalDevice)
        && computeQueueFamilyIndex == old(computeQueueFamilyIndex)
        && !ok
      ensures logicalDevice == old(logicalDevice) && computeQueue == old(computeQueue)
    {
      if result != Success {
        ok := false;
        return false;
      }
      var n := 0;
      while n < |devices|
        invariant n <= |devices|
        invariant forall k :: 0 <= k < n ==> !Suitable(devices[k])
        invariant computeQueueFamilyIndex == old(computeQueueFamilyIndex)
        invariant physicalDevice == old(physicalDevice) && ok == old(ok)
        invariant logicalDevice == old(logicalDevice) && computeQueue == old(computeQueue)
      {
        var suitable := ScanQueueFamilies(devices[n]);
        if suitable {
          FirstSuitableIs(devices, n);
          physicalDevice := Some(devices[n]);
          return true;
        }
        n := n + 1;
      }
      ok := false;
      return false;
    }

    /**
     * The inner loop of `choose_physical_device`: every compute-capable family of the device
     * overwrites the recorded family index; the loop never stops early.
     */
    method ScanQueueFamilies(device: PhysicalDevice) returns (suitable: bool)
      modifies this
      ensures suitable == Suitable(device)
      ensures computeQueueFamilyIndex == if suitable then LastComputeFamily(device.queueFamilies).value
                                         else old(computeQueueFamilyIndex)
      ensures physicalDevice == old(physicalDevice) && ok == old(ok)
      ensures logicalDevice == old(logicalDevice) && computeQueue == old(computeQueue)
    {
      var families := device.queueFamilies;
      suitable := false;
      var i := 0;
      while i < |families|
        invariant i <= |families|
        invariant LastComputeFamily(families[..i]) == if suitable then Some(computeQueueFamilyIndex as nat) else None
        invariant !suitable ==> computeQueueFamilyIndex == old(computeQueueFamilyIndex)
        invariant physicalDevice == old(physicalDevice) && ok == old(ok)
        invariant logicalDevice == old(logicalDevice) && computeQueue == old(computeQueue)
      {
        assert families[..i + 1][..i] == families[..i];
        if families[i] & COMPUTE_QUEUE != 0 {
          suitable := true;
          computeQueueFamilyIndex := i;
        }
        i := i + 1;
      }
      assert families[..i] == families;
      SuitableIffComputeFamily(device);
    }

    /** `create_logical_device`: one queue from the compute family; a failure clears `ok`. */
    method CreateLogicalDevice(result: VkResult) returns (created: bool)
      modifies this
      ensures created == (result == Success)
      ensures logicalDevice == if created then Some(DeviceInfo([QueueRequest(computeQueueFamilyIndex, 1)])) else old(logicalDevice)
      ensures ok == (old(ok) && created)
      ensures physicalDevice == old(physicalDevice) && computeQueueFamilyIndex == old(computeQueueFamilyIndex)
      ensures computeQueue == old(computeQueue)
    {
      if result != Success {
        ok := false;
        return false;
      }
      logicalDevice := Some(DeviceInfo([QueueRequest(computeQueueFamilyIndex, 1)]));
      return true;
    }

    /**
     * The move constructor: the logical device is taken over; the physical device and the
     * queue are plain handles and are copied; other's family index becomes 0 and its flag false.
     */
    constructor MoveFrom(other: Device)
      modifies other
      ensures physicalDevice == old(other.physicalDevice) && logicalDevice == old(other.logicalDevice)
      ensures computeQueue == old(other.computeQueue)
      ensures computeQueueFamilyIndex == old(other.computeQueueFamilyIndex) && ok == old(other.ok)
      ensures other.logicalDevice == None && other.computeQueueFamilyIndex == 0 && !other.ok
      ensures other.physicalDevice == old(other.physicalDevice) && other.computeQueue == old(other.computeQueue)
    {
      physicalDevice := other.physicalDevice;
      logicalDevice := other.logicalDevice;
      computeQueue := other.computeQueue;
      computeQueueFamilyIndex := other.computeQueueFamilyIndex;
      ok := other.ok;
      new;
      other.logicalDevice := None;
      other.computeQueueFamilyIndex := 0;
      other.ok := false;
    }

    /** Move assignment: a no-op on itself, otherwise as the move constructor. */
    method MoveAssign(other: Device)
      modifies this, other
      ensures other == this ==>
        && physicalDevice == old(physicalDevice) && logicalDevice == old(logicalDevice)
        && computeQueue == old(computeQueue) && computeQueueFamilyIndex == old(computeQueueFamilyIndex) && ok == old(ok)
      ensures other != this ==>
        && physicalDevice == old(other.physicalDevice) && logicalDevice == old(other.logicalDevice)
        && computeQueue == old(other.computeQueue)
        && computeQueueFamilyIndex == old(other.computeQueueFamilyIndex) && ok == old(other.ok)
        && other.logicalDevice == None && other.computeQueueFamilyIndex == 0 && !other.ok
        && other.physicalDevice == old(other.physicalDevice) && other.computeQueue == old(other.computeQueue)
    {
      if other != this {
        physicalDevice := other.physicalDevice;
        logicalDevice := other.logicalDevice;
        computeQueue := other.computeQueue;
        computeQueueFamilyIndex := other.computeQueueFamilyIndex;
        ok := other.ok;
        other.logicalDevice := None;
        other.computeQueueFamilyIndex := 0;
        other.ok := false;
      }
    }
  }
}

=== FILE: failfast.dfy ===
/**
 * The fail-fast pattern shared by every wrapper constructor: a fixed list of creation steps
 * run in order, and the first step that fails ends the sequence and clears the object's
 * `ok` flag. A step list is described by the outcome each step would have if it ran.
 */
module FailFast {

  /** The position of the first failing step, or the number of steps when none fails. */
  function FirstFailure(oks: seq<bool>): (k: nat)
    ensures k <= |oks|
    ensures forall i :: 0 <= i < k ==> oks[i]
    ensures k < |oks| ==> !oks[k]
  {
    if oks == [] || !oks[0] then 0 else 1 + FirstFailure(oks[1..])
  }

  /** Every step succeeds. */
  predicate AllOk(oks: seq<bool>)
  {
    forall i :: 0 <= i < |oks| ==> oks[i]
  }

  /** The first failure is the only index with a successful prefix and a failing step there. */
  lemma {:induction false} FirstFailureIs(oks: seq<bool>, k: nat)
    requires k <= |oks|
    requires forall i :: 0 <= i < k ==> oks[i]
    requires k < |oks| ==> !oks[k]
    ensures FirstFailure(oks) == k
  {
    if oks != [] && oks[0] {
      assert k > 0;
      FirstFailureIs(oks[1..], k - 1);
    }
  }

  /** A sequence of steps succeeds exactly when no step fails. */
  lemma AllOkIffNoFailure(oks: seq<bool>)
    ensures AllOk(oks) <==> FirstFailure(oks) == |oks|
  {
  }

  /** Appending a step to a sequence that succeeded so far moves the first failure only if the new step succeeds. */
  lemma FirstFailureSnoc(oks: seq<bool>, b: bool)
    requires AllOk(oks)
    ensures FirstFailure(oks + [b]) == if b then |oks| + 1 else |oks|
  {
    FirstFailureIs(oks + [b], if b then |oks| + 1 else |oks|);
  }

  /** Running two step lists one after the other: the second is reached only when the first succeeds. */
  lemma FirstFailureAppend(a: seq<bool>, b: seq<bool>)
    ensures FirstFailure(a + b) == if FirstFailure(a) < |a| then FirstFailure(a) else |a| + FirstFailure(b)
  {
    if FirstFailure(a) < |a| {
      FirstFailureIs(a + b, FirstFailure(a));
    } else {
      FirstFailureIs(a + b, |a| + FirstFailure(b));
    }
  }

  /** A failure among the first steps hides every later step. */
  lemma FirstFailurePrefix(oks: seq<bool>, rest: seq<bool>)
    requires !AllOk(oks)
    ensures FirstFailure(oks + rest) == FirstFailure(oks)
  {
    FirstFailureIs(oks + rest, FirstFailure(oks));
  }
}

=== FILE: image3d.dfy ===
/**
 * `boza::Image3D`: a 3D storage image in device-local memory, with an optional view and a
 * command buffer used to copy the image back to the host.
 *
 * The driver is an oracle (`ImageDriver`, `ReadbackDriver`). The GPU work that fills the
 * image is not modelled: the read-back is given the bytes a copy of the full extent writes.
 */
module Images {
  import opened Common
  import opened FailFast
  import opened Buffers

  /** `vk::Format`; only its identity matters here. */
  type Format = nat

  /** `VK_FORMAT_R8G8B8A8_UNORM`. */
  const R8G8B8A8_UNORM: Format := 37

  /** `vk::ImageUsageFlags`. */
  type ImageUsageFlags = bv32

  const TRANSFER_SRC_USAGE: ImageUsageFlags := 0x1
  const STORAGE_USAGE: ImageUsageFlags := 0x8

  /** `vk::Extent3D`. */
  datatype Extent3D = Extent3D(width: U32, height: U32, depth: U32)

  /** `vk::Offset3D`. */
  datatype Offset3D = Offset3D(x: int, y: int, z: int)

  /** `vk::ImageCreateInfo`: a 3D image with one mip level, one layer, one sample, optimal tiling. */
  datatype ImageInfo = ImageInfo(format: Format, extent: Extent3D, mipLevels: nat, arrayLayers: nat, usage: ImageUsageFlags)

  /** `vk::ImageViewCreateInfo`: a 3D view of the colour aspect. */
  datatype ViewInfo = ViewInfo(format: Format, baseMipLevel: nat, levelCount: nat, baseArrayLayer: nat, layerCount: nat)

  /** `vk::ImageSubresourceLayers` of the colour aspect. */
  datatype SubresourceLayers = SubresourceLayers(mipLevel: nat, baseArrayLayer: nat, layerCount: nat)

  /** `vk::BufferImageCopy`. */
  datatype BufferImageCopy = BufferImageCopy(
    bufferOffset: nat,
    bufferRowLength: nat,
    bufferImageHeight: nat,
    subresource: SubresourceLayers,
    imageOffset: Offset3D,
    imageExtent: Extent3D)

  // ---------------------------------------------------------------------------------------
  // Memory type
  // ---------------------------------------------------------------------------------------

  /** Memory type i is allowed by the image's requirements (bit i of `memoryTypeBits`) and is device-local. */
  predicate Eligible(types: MemoryTypes, typeBits: bv32, i: nat)
    requires i < |types|
  {
    typeBits & (1 << i) != 0 && types[i] & DEVICE_LOCAL != 0
  }

  predicate AnyEligible(types: MemoryTypes, typeBits: bv32)
  {
    exists i :: 0 <= i < |types| && Eligible(types, typeBits, i)
  }

  predicate IsFirstEligible(types: MemoryTypes, typeBits: bv32, i: nat)
  {
    i < |types| && Eligible(types, typeBits, i) && forall j :: 0 <= j < i ==> !Eligible(types, typeBits, j)
  }

  /** The memory-type loop of the constructor: the first eligible type, or `UINT32_MAX`. */
  method FindDeviceLocalType(types: MemoryTypes, typeBits: bv32) returns (memType: U32)
    ensures memType == UINT32_MAX <==> !AnyEligible(types, typeBits)
    ensures memType != UINT32_MAX ==> IsFirstEligible(types, typeBits, memType)
  {
    memType := UINT32_MAX;
    var i := 0;
    while i < |types|
      invariant i <= |types|
      invariant memType == UINT32_MAX
      invariant forall j :: 0 <= j < i ==> !Eligible(types, typeBits, j)
    {
      if typeBits & (1 << i) != 0 && types[i] & DEVICE_LOCAL != 0 {
        assert Eligible(types, typeBits, i);
        memType := i;
        break;
      }
      i := i + 1;
    }
  }

  // ---------------------------------------------------------------------------------------
  // Construction
  // ---------------------------------------------------------------------------------------

  /**
   * What the environment answers during construction: the result of each call, the image's
   * memory requirements (allowed types and size), the memory types of the physical device,
   * and whether the command pool hands out the one command buffer asked for.
   */
  datatype ImageDriver = ImageDriver(
    createResult: VkResult,
    memoryTypeBits: bv32,
    requirementSize: nat,
    memoryTypes: MemoryTypes,
    allocateResult: VkResult,
    bindResult: VkResult,
    viewResult: VkResult,
    commandBufferAllocated: bool)

  /** How many of the six steps (image, memory type, allocation, bind, view, command buffer) succeed; the view step cannot fail when no view is asked for. */
  function ImageSteps(driver: ImageDriver, createView: bool): nat
  {
    if driver.createResult != Success then 0
    else if !AnyEligible(driver.memoryTypes, driver.memoryTypeBits) then 1
    else if driver.allocateResult != Success then 2
    else if driver.bindResult != Success then 3
    else if createView && driver.viewResult != Success then 4
    else if !driver.commandBufferAllocated then 5
    else 6
  }

  function ImageOutcomes(driver: ImageDriver, createView: bool): seq<bool>
  {
    [ driver.createResult == Success,
      AnyEligible(driver.memoryTypes, driver.memoryTypeBits),
      driver.allocateResult == Success,
      driver.bindResult == Success,
      !createView || driver.viewResult == Success,
      driver.commandBufferAllocated ]
  }

  /** The image constructor is fail-fast: it stops at the first failing step. */
  lemma ImageStepsIsFirstFailure(driver: ImageDriver, createView: bool)
    ensures ImageSteps(driver, createView) == FirstFailure(ImageOutcomes(driver, createView))
    ensures ImageSteps(driver, createView) == 6 <==> AllOk(ImageOutcomes(driver, createView))
  {
    FirstFailureIs(ImageOutcomes(driver, createView), ImageSteps(driver, createView));
  }

  // ---------------------------------------------------------------------------------------
  // Read-back
  // ---------------------------------------------------------------------------------------

  /**
   * What the environment answers during `get_data`: the staging buffer's driver, the
   * result of each call, and the bytes the copy of the full extent writes at the start of
   * the staging buffer.
   */
  datatype ReadbackDriver = ReadbackDriver(
    staging: BufferDriver,
    bindResult: VkResult,
    beginResult: VkResult,
    endResult: VkResult,
    submitResult: VkResult,
    waitResult: VkResult,
    mapResult: VkResult,
    copied: seq<Byte>)

  const STAGING_PROPERTIES: MemoryPropertyFlags := HOST_VISIBLE | HOST_COHERENT

  /** How many of the seven read-back steps (staging buffer, bind, begin, end, submit, wait, map) succeed. */
  function ReadbackSteps(driver: ReadbackDriver): nat
  {
    if BufferSteps(driver.staging, STAGING_PROPERTIES) != 3 then 0
    else if driver.bindResult != Success then 1
    else if driver.beginResult != Success then 2
    else if driver.endResult != Success then 3
    else if driver.submitResult != Success then 4
    else if driver.waitResult != Success then 5
    else if driver.mapResult != Success then 6
    else 7
  }

  function ReadbackOutcomes(driver: ReadbackDriver): seq<bool>
  {
    [ BufferSteps(driver.staging, STAGING_PROPERTIES) == 3,
      driver.bindResult == Success,
      driver.beginResult == Success,
      driver.endResult == Success,
      driver.submitResult == Success,
      driver.waitResult == Success,
      driver.mapResult == Success ]
  }

  /** The read-back stops at its first failing step. */
  lemma ReadbackStepsIsFirstFailure(driver: ReadbackDriver)
    ensures ReadbackSteps(driver) == FirstFailure(ReadbackOutcomes(driver))
    ensures ReadbackSteps(driver) == 7 <==> AllOk(ReadbackOutcomes(driver))
  {
    FirstFailureIs(ReadbackOutcomes(driver), ReadbackSteps(driver));
  }

  /** The region `get_data` copies: the whole extent of mip 0, layer 0, tightly packed at offset 0. */
  function CopyRegion(extent: Extent3D): BufferImageCopy
  {
    BufferImageCopy(0, 0, 0, SubresourceLayers(0, 0, 1), Offset3D(0, 0, 0), extent)
  }

  /**
   * Where byte c of texel (x, y, z) of a copied region lands in the buffer, by the buffer
   * addressing rule of the Vulkan specification ("Copying Data Between Buffers and
   * Images"): a row length or image height of 0 means rows and slices are packed tightly,
   * as wide and as high as the copied extent.
   */
  function BufferAddress(region: BufferImageCopy, texelSize: nat, x: nat, y: nat, z: nat, c: nat): int
  {
    var rowLength := if region.bufferRowLength == 0 then region.imageExtent.width else region.bufferRowLength;
    var imageHeight := if region.bufferImageHeight == 0 then region.imageExtent.height else region.bufferImageHeight;
    region.bufferOffset
      + (((z - region.imageOffset.z) * imageHeight + (y - region.imageOffset.y)) * rowLength
         + (x - region.imageOffset.x)) * texelSize
      + c
  }

  class Image3D {
    var image: Option<ImageInfo>
    var allocation: Option<Allocation>
    var bound: bool
    var view: Option<ViewInfo>
    var hasCopyBuffer: bool
    var extent: Extent3D
    var hasDevice: bool
    var ok: bool

    /** `operator bool`. */
    predicate IsOk()
      reads this
    {
      ok
    }

    /** `Image3D(nullptr)`: holds nothing, with a zero extent. */
    constructor Null()
      ensures image == None && allocation == None && !bound && view == None && !hasCopyBuffer
      ensures extent == Extent3D(0, 0, 0) && !hasDevice && !IsOk()
    {
      image := None;
      allocation := None;
      bound := false;
      view := None;
      hasCopyBuffer := false;
      extent := Extent3D(0, 0, 0);
      hasDevice := false;
      ok := false;
    }

    /**
     * Create the image, pick the memory type, allocate and bind the memory, create the view
     * when asked, allocate the copy command buffer; the first failure clears `ok` and ends
     * construction. The extent is recorded whatever happens.
     */
    constructor (driver: ImageDriver, format: Format, extent: Extent3D,
                 usage: ImageUsageFlags := STORAGE_USAGE | TRANSFER_SRC_USAGE, createView: bool := true)
      ensures hasDevice && this.extent == extent
      ensures ok == (ImageSteps(driver, createView) == 6)
      ensures image == if ImageSteps(driver, createView) >= 1 then Some(ImageInfo(format, extent, 1, 1, usage)) else None
      ensures allocation.Some? <==> ImageSteps(driver, createView) >= 3
      ensures allocation.Some? ==>
        && allocation.value.size == driver.requirementSize
        && IsFirstEligible(driver.memoryTypes, driver.memoryTypeBits, allocation.value.memoryTypeIndex)
      ensures bound <==> ImageSteps(driver, createView) >= 4
      ensures view == if createView && ImageSteps(driver, createView) >= 5 then Some(ViewInfo(format, 0, 1, 0, 1)) else None
      ensures hasCopyBuffer <==> ImageSteps(driver, createView) == 6
    {
      image := None;
      allocation := None;
      bound := false;
      view := None;
      hasCopyBuffer := false;
      this.extent := extent;
      hasDevice := true;
      ok := true;
      new;
      if driver.createResult != Success {
        ok := false;
        return;
      }
      image := Some(ImageInfo(format, extent, 1, 1, usage));
      var memType := FindDeviceLocalType(driver.memoryTypes, driver.memoryTypeBits);
      if memType == UINT32_MAX {
        ok := false;
        return;
      }
      if driver.allocateResult != Success {
        ok := false;
        return;
      }
      allocation := Some(Allocation(driver.requirementSize, memType));
      if driver.bindResult != Success {
        ok := false;
        return;
      }
      bound := true;
      if createView {
        if driver.viewResult != Success {
          ok := false;
          return;
        }
        view := Some(ViewInfo(format, 0, 1, 0, 1));
      }
      if !driver.commandBufferAllocated {
        ok := false;
        return;
      }
      hasCopyBuffer := true;
    }

    /** The move constructor: takes every handle, the extent and the flag; other is left empty, zero-sized and not ok. */
    constructor MoveFrom(other: Image3D)
      modifies other
      ensures image == old(other.image) && allocation == old(other.allocation) && bound == old(other.bound)
      ensures view == old(other.view) && hasCopyBuffer == old(other.hasCopyBuffer)
      ensures extent == old(other.extent) && ok == old(other.ok) && hasDevice == old(other.hasDevice)
      ensures other.image == None && other.allocation == None && !other.bound && other.view == None
      ensures !other.hasCopyBuffer && other.extent == Extent3D(0, 0, 0) && !other.ok && !other.hasDevice
    {
      image := other.image;
      allocation := other.allocation;
      bound := other.bound;
      view := other.view;
      hasCopyBuffer := other.hasCopyBuffer;
      extent := other.extent;
      ok := other.ok;
      hasDevice := other.hasDevice;
      new;
      other.image := None;
      other.allocation := None;
      other.bound := false;
      other.view := None;
      other.hasCopyBuffer := false;
      other.extent := Extent3D(0, 0, 0);
      other.ok := false;
      other.hasDevice := false;
    }

    /** Move assignment: a no-op on itself; otherwise as the move constructor, keeping its own device if other has none. */
    method MoveAssign(other: Image3D)
      modifies this, other
      ensures other == this ==>
        && image == old(image) && allocation == old(allocation) && bound == old(bound) && view == old(view)
        && hasCopyBuffer == old(hasCopyBuffer) && extent == old(extent) && ok == old(ok) && hasDevice == old(hasDevice)
      ensures other != this ==>
        && image == old(other.image) && allocation == old(other.allocation) && bound == old(other.bound)
        && view == old(other.view) && hasCopyBuffer == old(other.hasCopyBuffer)
        && extent == old(other.extent) && ok == old(other.ok)
        && hasDevice == (old(other.hasDevice) || old(hasDevice))
        && other.image == None && other.allocation == None && !other.bound && other.view == None
        && !other.hasCopyBuffer && other.extent == Extent3D(0, 0, 0) && !other.ok && !other.hasDevice
    {
      if other != this {
        image := other.image;
        allocation := other.allocation;
        bound := other.bound;
        view := other.view;
        hasCopyBuffer := other.hasCopyBuffer;
        extent := other.extent;
        ok := other.ok;
        if other.hasDevice {
          hasDevice := true;
        }
        other.image := None;
        other.allocation := None;
        other.bound := false;
        other.view := None;
        other.hasCopyBuffer := false;
        other.extent := Extent3D(0, 0, 0);
        other.ok := false;
        other.hasDevice := false;
      }
    }

    /**
     * `get_data`: copy the image into a fresh host-visible staging buffer of the image's
     * memory-requirement size and read that buffer back. Any failing step gives an empty
     * vector; otherwise the result has exactly that size and starts with the copied bytes.
     * `region` is the copy recorded into the command buffer, once recording has begun.
     * The handles it uses exist only once construction succeeded; the staging buffer's memory
     * is at least as large as the buffer, and the copy fits in it, as Vulkan guarantees and demands.
     */
    method GetData(driver: ReadbackDriver) returns (data: seq<Byte>, region: Option<BufferImageCopy>)
      requires ok && allocation.Some?
      requires allocation.value.size <= |driver.staging.initialMemory|
      requires |driver.copied| <= allocation.value.size
      ensures ReadbackSteps(driver) < 7 ==> data == []
      ensures ReadbackSteps(driver) == 7 ==>
        && |data| == allocation.value.size
        && data[..|driver.copied|] == driver.copied
        && data[|driver.copied|..] == driver.staging.initialMemory[|driver.copied|..allocation.value.size]
      ensures region == if ReadbackSteps(driver) >= 3 then Some(CopyRegion(extent)) else None
    {
      region := None;
      var totalSize := allocation.value.size;
      var staging := new Buffer(driver.staging, totalSize, TRANSFER_DST_USAGE, STAGING_PROPERTIES);
      if !staging.IsOk() {
        return [], None;
      }
      var bindOk := staging.Bind(driver.bindResult);
      if !bindOk {
        return [], None;
      }
      if driver.beginResult != Success {
        return [], None;
      }
      region := Some(CopyRegion(extent));
      if driver.endResult != Success || driver.submitResult != Success || driver.waitResult != Success {
        return [], region;
      }
      var afterCopy := Overwrite(staging.memory, 0, driver.copied);
      if driver.mapResult != Success {
        return [], region;
      }
      data := afterCopy[..totalSize];
    }
  }
}

=== FILE: instance.dfy ===
/**
 * `boza::Instance`: the Vulkan instance, the check that the required extensions and layers
 * are available, and (in debug builds) the debug messenger that forwards validation
 * messages to the logger.
 *
 * Whether the program is a debug build (`NDEBUG` undefined) is the parameter `debug`; the
 * loader's answers are an oracle, `InstanceDriver`.
 */
module Instances {
  import opened Common
  import opened FailFast

  /** `VK_EXT_DEBUG_UTILS_EXTENSION_NAME`. */
  const DEBUG_UTILS_EXTENSION: string := "VK_EXT_debug_utils"

  /** The Khronos validation layer. */
  const VALIDATION_LAYER: string := "VK_LAYER_KHRONOS_validation"

  /** `vk::makeApiVersion(0, 0, 1, 0)`: variant 0, major 0, minor 1, patch 0. */
  const VERSION_0_1_0: U32 := 1 * 4096

  const ENGINE_NAME: string := "Boza"

  /** The extensions the instance enables: the debug-utils extension in debug builds, none otherwise. */
  function RequiredExtensions(debug: bool): seq<string>
  {
    if debug then [DEBUG_UTILS_EXTENSION] else []
  }

  /** The layers the instance enables: the validation layer in debug builds, none otherwise. */
  function RequiredLayers(debug: bool): seq<string>
  {
    if debug then [VALIDATION_LAYER] else []
  }

  // ---------------------------------------------------------------------------------------
  // Extension and layer support
  // ---------------------------------------------------------------------------------------

  /** Why the support check fails; each case is a distinct message the source logs. */
  datatype Unsupported =
    | ExtensionsNotEnumerated
    | LayersNotEnumerated
    | MissingExtension(extension: string)
    | MissingLayer(layer: string)

  /** An enumeration the check asks the loader for. */
  datatype Enumeration = EnumerateExtensions | EnumerateLayers

  /** The position of the first required name that no supported name equals. */
  function FirstMissing(required: seq<string>, supported: seq<string>): (r: Option<nat>)
    ensures r.None? <==> forall i :: 0 <= i < |required| ==> required[i] in supported
    ensures r.Some? ==>
      && r.value < |required|
      && required[r.value] !in supported
      && forall i :: 0 <= i < r.value ==> required[i] in supported
  {
    if required == [] then None
    else if required[0] !in supported then Some(0)
    else match FirstMissing(required[1..], supported)
      case None => None
      case Some(k) => Some(k + 1)
  }

  /**
   * The outcome of `check_extensions_and_layers_support`: nothing to check when both lists
   * are empty; otherwise the enumerations, then the extensions, then the layers, each
   * reporting its first missing name.
   */
  function SupportVerdict(extensions: seq<string>, layers: seq<string>,
                          extensionsResult: VkResult, supportedExtensions: seq<string>,
                          layersResult: VkResult, supportedLayers: seq<string>): Option<Unsupported>
  {
    if extensions == [] && layers == [] then None
    else if extensionsResult != Success then Some(ExtensionsNotEnumerated)
    else if layersResult != Success then Some(LayersNotEnumerated)
    else match FirstMissing(extensions, supportedExtensions)
      case Some(i) => Some(MissingExtension(extensions[i]))
      case None => match FirstMissing(layers, supportedLayers)
        case Some(j) => Some(MissingLayer(layers[j]))
        case None => None
  }

  /** The check passes exactly when nothing is required, or both enumerations work and every required name is supported. */
  lemma SupportVerdictNoneIff(extensions: seq<string>, layers: seq<string>,
                              extensionsResult: VkResult, supportedExtensions: seq<string>,
                              layersResult: VkResult, supportedLayers: seq<string>)
    ensures SupportVerdict(extensions, layers, extensionsResult, supportedExtensions, layersResult, supportedLayers).None? <==>
      || (extensions == [] && layers == [])
      || (&& extensionsResult == Success && layersResult == Success
          && (forall e :: e in extensions ==> e in supportedExtensions)
          && (forall l :: l in layers ==> l in supportedLayers))
  {
    var fe := FirstMissing(extensions, supportedExtensions);
    var fl := FirstMissing(layers, supportedLayers);
    if fe.Some? {
      assert extensions[fe.value] in extensions;
    }
    if fl.Some? {
      assert layers[fl.value] in layers;
    }
  }

  /** A missing extension is reported even when layers are missing too: extensions come first. */
  lemma ExtensionsCheckedFirst(extensions: seq<string>, layers: seq<string>,
                               supportedExtensions: seq<string>, supportedLayers: seq<string>, i: nat)
    requires i < |extensions| && extensions[i] !in supportedExtensions
    ensures SupportVerdict(extensions, layers, Success, supportedExtensions, Success, supportedLayers).value.MissingExtension?
  {
    assert FirstMissing(extensions, supportedExtensions).Some?;
  }

  /** The enumerations the check makes: none when nothing is required, and layers only after extensions were listed. */
  function SupportCalls(extensions: seq<string>, layers: seq<string>, extensionsResult: VkResult): seq<Enumeration>
  {
    if extensions == [] && layers == [] then []
    else if extensionsResult != Success then [EnumerateExtensions]
    else [EnumerateExtensions, EnumerateLayers]
  }

  /** The inner search of the check: does some supported name equal the required one? */
  method Contains(supported: seq<string>, name: string) returns (found: bool)
    ensures found == (name in supported)
  {
    found := false;
    var k := 0;
    while k < |supported|
      invariant k <= |supported|
      invariant forall j :: 0 <= j < k ==> supported[j] != name
    {
      if supported[k] == name {
        found := true;
        break;
      }
      k := k + 1;
    }
  }

  // ---------------------------------------------------------------------------------------
  // Debug messenger
  // ---------------------------------------------------------------------------------------

  /** `vk::DebugUtilsMessageSeverityFlagsEXT`. */
  type Severity = bv32

  const VERBOSE: Severity := 0x1
  const INFO: Severity := 0x10
  const WARNING: Severity := 0x100
  const ERROR: Severity := 0x1000

  /** `vk::DebugUtilsMessageTypeFlagsEXT`. */
  const GENERAL_MESSAGES: bv32 := 0x1
  const VALIDATION_MESSAGES: bv32 := 0x2
  const PERFORMANCE_MESSAGES: bv32 := 0x4

  /** The logger's levels, lowest first. */
  datatype LogLevel = Trace | Info | Warn | Error

  function LevelRank(level: LogLevel): nat
  {
    match level
    case Trace => 0
    case Info => 1
    case Warn => 2
    case Error => 3
  }

  /** What one callback invocation does: the level it logs at, if any, and what it returns to the driver. */
  datatype CallbackOutcome = CallbackOutcome(logged: Option<LogLevel>, returned: bool)

  /**
   * The messenger's callback: one severity bit selects one logger level; a value matching no
   * case is not logged. It always returns `VK_FALSE`, so the driver never aborts the call.
   */
  function DebugCallback(severity: Severity): (r: CallbackOutcome)
    ensures !r.returned
    ensures r.logged.Some? <==> severity == VERBOSE || severity == INFO || severity == WARNING || severity == ERROR
  {
    if severity == VERBOSE then CallbackOutcome(Some(Trace), false)
    else if severity == INFO then CallbackOutcome(Some(Info), false)
    else if severity == WARNING then CallbackOutcome(Some(Warn), false)
    else if severity == ERROR then CallbackOutcome(Some(LogLevel.Error), false)
    else CallbackOutcome(None, false)
  }

  /** A more severe message is never logged at a lower level. */
  lemma CallbackKeepsSeverityOrder(s1: Severity, s2: Severity)
    requires DebugCallback(s1).logged.Some? && DebugCallback(s2).logged.Some?
    ensures s1 < s2 <==> LevelRank(DebugCallback(s1).logged.value) < LevelRank(DebugCallback(s2).logged.value)
  {
  }

  /** `vk::DebugUtilsMessengerCreateInfoEXT`: which severities and message types reach the callback. */
  datatype MessengerInfo = MessengerInfo(severities: Severity, messageTypes: bv32)

  /** The messenger the source creates: warnings and errors only, of every message type. */
  const MESSENGER_INFO: MessengerInfo :=
    MessengerInfo(WARNING | ERROR, GENERAL_MESSAGES | VALIDATION_MESSAGES | PERFORMANCE_MESSAGES)

  /** Of the severities the callback knows, only those the messenger lets through reach it, and they log as warnings or errors. */
  lemma MessengerLogsWarningsAndErrors(severity: Severity)
    requires DebugCallback(severity).logged.Some?
    ensures severity & MESSENGER_INFO.severities != 0 <==> DebugCallback(severity).logged.value in {Warn, LogLevel.Error}
  {
  }

  // ---------------------------------------------------------------------------------------
  // Instance
  // ---------------------------------------------------------------------------------------

  /** `vk::InstanceCreateInfo` with its `vk::ApplicationInfo`. */
  datatype InstanceInfo = InstanceInfo(
    applicationName: string,
    applicationVersion: U32,
    engineName: string,
    engineVersion: U32,
    apiVersion: U32,
    enabledLayers: seq<string>,
    enabledExtensions: seq<string>)

  /** What the loader answers: the supported version, the two enumerations, instance and messenger creation. */
  datatype InstanceDriver = InstanceDriver(
    versionResult: VkResult,
    version: U32,
    extensionsResult: VkResult,
    supportedExtensions: seq<string>,
    layersResult: VkResult,
    supportedLayers: seq<string>,
    createResult: VkResult,
    messengerResult: VkResult)

  function DriverVerdict(driver: InstanceDriver, debug: bool): Option<Unsupported>
  {
    SupportVerdict(RequiredExtensions(debug), RequiredLayers(debug),
                   driver.extensionsResult, driver.supportedExtensions,
                   driver.layersResult, driver.supportedLayers)
  }

  /** How many of the four steps (version, support check, instance, messenger) succeed; the messenger step cannot fail in a release build. */
  function InstanceSteps(driver: InstanceDriver, debug: bool): nat
  {
    if driver.versionResult != Success then 0
    else if DriverVerdict(driver, debug).Some? then 1
    else if driver.createResult != Success then 2
    else if debug && driver.messengerResult != Success then 3
    else 4
  }

  function InstanceOutcomes(driver: InstanceDriver, debug: bool): seq<bool>
  {
    [ driver.versionResult == Success,
      DriverVerdict(driver, debug).None?,
      driver.createResult == Success,
      !debug || driver.messengerResult == Success ]
  }

  /** The instance constructor stops at its first failing step. */
  lemma InstanceStepsIsFirstFailure(driver: InstanceDriver, debug: bool)
    ensures InstanceSteps(driver, debug) == FirstFailure(InstanceOutcomes(driver, debug))
    ensures InstanceSteps(driver, debug) == 4 <==> AllOk(InstanceOutcomes(driver, debug))
  {
    FirstFailureIs(InstanceOutcomes(driver, debug), InstanceSteps(driver, debug));
  }

  /** The debug messenger the constructor leaves: one exactly when a debug build completed every step. */
  function MessengerOf(driver: InstanceDriver, debug: bool): Option<MessengerInfo>
  {
    if debug && InstanceSteps(driver, debug) == 4 then Some(MESSENGER_INFO) else None
  }

  /**
   * The support check of the constructor passes exactly in a release build, or when both
   * enumerations work and the loader lists the debug-utils extension and the validation layer.
   */
  lemma DriverVerdictNoneIff(driver: InstanceDriver, debug: bool)
    ensures DriverVerdict(driver, debug).None? <==>
      || !debug
      || (&& driver.extensionsResult == Success && driver.layersResult == Success
          && DEBUG_UTILS_EXTENSION in driver.supportedExtensions
          && VALIDATION_LAYER in driver.supportedLayers)
  {
    SupportVerdictNoneIff(RequiredExtensions(debug), RequiredLayers(debug),
                          driver.extensionsResult, driver.supportedExtensions,
                          driver.layersResult, driver.supportedLayers);
  }

  /** A created instance enables only names the loader reported as supported. */
  lemma EnabledNamesSupported(driver: InstanceDriver, debug: bool)
    requires InstanceSteps(driver, debug) >= 3
    ensures forall e :: e in RequiredExtensions(debug) ==> e in driver.supportedExtensions
    ensures forall l :: l in RequiredLayers(debug) ==> l in driver.supportedLayers
  {
    DriverVerdictNoneIff(driver, debug);
  }

  /** A messenger exists only on an instance that enabled the debug-utils extension and the validation layer. */
  lemma MessengerNeedsDebugUtils(driver: InstanceDriver, debug: bool)
    requires MessengerOf(driver, debug).Some?
    ensures DEBUG_UTILS_EXTENSION in RequiredExtensions(debug) && DEBUG_UTILS_EXTENSION in driver.supportedExtensions
    ensures VALIDATION_LAYER in RequiredLayers(debug) && VALIDATION_LAYER in driver.supportedLayers
  {
    DriverVerdictNoneIff(driver, debug);
  }

  /**
   * A release build requires nothing, so the support check passes without enumerating,
   * whatever the loader reports, and the constructor creates no messenger.
   */
  lemma ReleaseBuildSkipsCheck(driver: InstanceDriver)
    ensures RequiredExtensions(false) == [] && RequiredLayers(false) == []
    ensures SupportCalls(RequiredExtensions(false), RequiredLayers(false), driver.extensionsResult) == []
    ensures DriverVerdict(driver, false).None?
    ensures MessengerOf(driver, false) == None
    ensures InstanceSteps(driver, false) == if driver.versionResult != Success then 0
                                            else if driver.createResult != Success then 2 else 4
  {
  }

  class Instance {
    var instance: Option<InstanceInfo>
    var messenger: Option<MessengerInfo>
    var ok: bool

    /** `operator bool`. */
    predicate IsOk()
      reads this
    {
      ok
    }

    /**
     * Create the instance (query the version, check the required extensions and layers,
     * create), then, in a debug build, the debug messenger. A failure clears `ok` and ends
     * construction.
     */
    constructor (appName: string, driver: InstanceDriver, debug: bool)
      ensures ok == (InstanceSteps(driver, debug) == 4)
      ensures instance == if InstanceSteps(driver, debug) >= 3
                          then Some(InstanceInfo(appName, VERSION_0_1_0, ENGINE_NAME, VERSION_0_1_0, driver.version,
                                                 RequiredLayers(debug), RequiredExtensions(debug)))
                          else None
      ensures messenger == MessengerOf(driver, debug)
    {
      instance := None;
      messenger := None;
      ok := true;
      new;
      var created := CreateVkInstance(appName, driver, debug);
      if !created {
        return;
      }
      if debug {
        if driver.messengerResult != Success {
          ok := false;
          return;
        }
        messenger := Some(MESSENGER_INFO);
      }
    }

    /** `create_vk_instance`: query the version, run the support check, create the instance; a failure clears `ok`. */
    method CreateVkInstance(appName: string, driver: InstanceDriver, debug: bool) returns (created: bool)
      modifies this
      ensures created == (InstanceSteps(driver, debug) >= 3)
      ensures ok == (old(ok) && created)
      ensures instance == if created
                          then Some(InstanceInfo(appName, VERSION_0_1_0, ENGINE_NAME, VERSION_0_1_0, driver.version,
                                                 RequiredLayers(debug), RequiredExtensions(debug)))
                          else old(instance)
      ensures messenger == old(messenger)
    {
      if driver.versionResult != Success {
        ok := false;
        return false;
      }
      var extensions := RequiredExtensions(debug);
      var layers := RequiredLayers(debug);
      var supported, reason, calls := CheckExtensionsAndLayersSupport(
        extensions, layers, driver.extensionsResult, driver.supportedExtensions,
        driver.layersResult, driver.supportedLayers);
      if !supported {
        return false;
      }
      if driver.createResult != Success {
        ok := false;
        return false;
      }
      instance := Some(InstanceInfo(appName, VERSION_0_1_0, ENGINE_NAME, VERSION_0_1_0, driver.version, layers, extensions));
      return true;
    }

    /**
     * `check_extensions_and_layers_support`. `reason` names the failure the source logs and
     * `calls` the enumerations it made: none when nothing is required.
     */
    method CheckExtensionsAndLayersSupport(
      extensions: seq<string>, layers: seq<string>,
      extensionsResult: VkResult, supportedExtensions: seq<string>,
      layersResult: VkResult, supportedLayers: seq<string>)
      returns (supported: bool, reason: Option<Unsupported>, calls: seq<Enumeration>)
      modifies this
      ensures reason == SupportVerdict(extensions, layers, extensionsResult, supportedExtensions, layersResult, supportedLayers)
      ensures supported <==> reason.None?
      ensures ok == (old(ok) && supported)
      ensures calls == SupportCalls(extensions, layers, extensionsResult)
      ensures instance == old(instance) && messenger == old(messenger)
    {
      if extensions == [] && layers == [] {
        return true, None, [];
      }
      calls := [EnumerateExtensions];
      if extensionsResult != Success {
        ok := false;
        return false, Some(ExtensionsNotEnumerated), calls;
      }
      calls := calls + [EnumerateLayers];
      if layersResult != Success {
        ok := false;
        return false, Some(LayersNotEnumerated), calls;
      }
      var i := 0;
      while i < |extensions|
        invariant i <= |extensions|
        invariant forall j :: 0 <= j < i ==> extensions[j] in supportedExtensions
        invariant ok == old(ok) && instance == old(instance) && messenger == old(messenger)
      {
        var found := Contains(supportedExtensions, extensions[i]);
        if !found {
          FirstMissingIs(extensions, supportedExtensions, i);
          ok := false;
          return false, Some(MissingExtension(extensions[i])), calls;
        }
        i := i + 1;
      }
      var j := 0;
      while j < |layers|
        invariant j <= |layers|
        invariant forall k :: 0 <= k < j ==> layers[k] in supportedLayers
        invariant ok == old(ok) && instance == old(instance) && messenger == old(messenger)
      {
        var found := Contains(supportedLayers, layers[j]);
        if !found {
          FirstMissingIs(layers, supportedLayers, j);
          ok := false;
          return false, Some(MissingLayer(layers[j])), calls;
        }
        j := j + 1;
      }
      return true, None, calls;
    }

    /** The move constructor: takes the instance and the flag, leaving other not ok; the messenger stays with other. */
    constructor MoveFrom(other: Instance)
      modifies other
      ensures instance == old(other.instance) && ok == old(other.ok) && messenger == None
      ensures other.instance == None && !other.ok && other.messenger == old(other.messenger)
    {
      instance := other.instance;
      messenger := None;
      ok := other.ok;
      new;
      other.instance := None;
      other.ok := false;
    }

    /** Move assignment: a no-op on itself; otherwise the instance and flag move, and neither messenger changes. */
    method MoveAssign(other: Instance)
      modifies this, other
      ensures other == this ==> instance == old(instance) && ok == old(ok) && messenger == old(messenger)
      ensures other != this ==>
        && instance == old(other.instance) && ok == old(other.ok) && messenger == old(messenger)
        && other.instance == None && !other.ok && other.messenger == old(other.messenger)
    {
      if other != this {
        instance := other.instance;
        ok := other.ok;
        other.instance := None;
        other.ok := false;
      }
    }
  }

  /** A missing name preceded only by supported ones is the first missing name. */
  lemma {:induction false} FirstMissingIs(required: seq<string>, supported: seq<string>, n: nat)
    requires n < |required| && required[n] !in supported
    requires forall i :: 0 <= i < n ==> required[i] in supported
    ensures FirstMissing(required, supported) == Some(n)
  {
    if n > 0 {
      FirstMissingIs(required[1..], supported, n - 1);
    }
  }
}

=== FILE: triangle_loader.dfy ===
/**
 * `boza::TriangleLoader::loadFromObj`: the flattening of a parsed OBJ file into the mesh
 * the compute shader voxelizes. Parsing itself is done by tinyobjloader and is an input
 * here (`ObjParse`); coordinates are opaque 32-bit float bit patterns.
 */
module Meshes {
  import opened Common

  /** A `float`, kept as its bit pattern: the loader only copies coordinates. */
  type Float = bv32

  /** `glm::vec3`. */
  datatype Vec3 = Vec3(x: Float, y: Float, z: Float)

  /** `tinyobj::index_t`: a face corner's vertex, normal and texture-coordinate indices. */
  datatype ObjIndex = ObjIndex(vertexIndex: int, normalIndex: int, texcoordIndex: int)

  /** `tinyobj::shape_t`, as far as its mesh indices go. */
  datatype Shape = Shape(indices: seq<ObjIndex>)

  /**
   * What `tinyobj::LoadObj` produces: whether it succeeded, the flat coordinate array
   * `attrib.vertices`, the shapes, and its warning text.
   */
  datatype ObjParse = ObjParse(loaded: bool, vertices: seq<Float>, shapes: seq<Shape>, warning: string)

  /** Consecutive coordinate triples as vertices. */
  function Triples(coords: seq<Float>): (r: seq<Vec3>)
    requires |coords| % 3 == 0
    ensures |r| == |coords| / 3
  {
    if coords == [] then []
    else
      var n := |coords| - 3;
      Triples(coords[..n]) + [Vec3(coords[n], coords[n + 1], coords[n + 2])]
  }

  /** Vertex j is made of coordinates 3j, 3j+1 and 3j+2, in that order. */
  lemma {:induction false} TriplesAt(coords: seq<Float>, j: nat)
    requires |coords| % 3 == 0 && j < |coords| / 3
    ensures Triples(coords)[j] == Vec3(coords[3 * j], coords[3 * j + 1], coords[3 * j + 2])
  {
    var n := |coords| - 3;
    if j < n / 3 {
      TriplesAt(coords[..n], j);
    }
  }

  /** The vertex indices of one shape, each converted to `uint32_t`. */
  function ShapeIndices(indices: seq<ObjIndex>): (r: seq<U32>)
    ensures |r| == |indices|
    ensures forall k :: 0 <= k < |r| ==> r[k] == ToU32(indices[k].vertexIndex)
  {
    if indices == [] then [] else ShapeIndices(indices[..|indices| - 1]) + [ToU32(indices[|indices| - 1].vertexIndex)]
  }

  /** The vertex indices of every shape, shape after shape. */
  function MeshIndices(shapes: seq<Shape>): seq<U32>
  {
    if shapes == [] then [] else MeshIndices(shapes[..|shapes| - 1]) + ShapeIndices(shapes[|shapes| - 1].indices)
  }

  /** The total number of face corners over all shapes. */
  function CornerCount(shapes: seq<Shape>): nat
  {
    if shapes == [] then 0 else CornerCount(shapes[..|shapes| - 1]) + |shapes[|shapes| - 1].indices|
  }

  /** Loading shapes in two batches gives the indices of the first batch followed by those of the second. */
  lemma {:induction false} MeshIndicesAppend(a: seq<Shape>, b: seq<Shape>)
    ensures MeshIndices(a + b) == MeshIndices(a) + MeshIndices(b)
    decreases |b|
  {
    if b != [] {
      var last := b[|b| - 1];
      assert (a + b)[..|a + b| - 1] == a + b[..|b| - 1];
      MeshIndicesAppend(a, b[..|b| - 1]);
    } else {
      assert a + b == a;
    }
  }

  /** One index per face corner. */
  lemma {:induction false} MeshIndicesLength(shapes: seq<Shape>)
    ensures |MeshIndices(shapes)| == CornerCount(shapes)
  {
    if shapes != [] {
      MeshIndicesLength(shapes[..|shapes| - 1]);
    }
  }

  /** Reading one more triple appends one vertex. */
  lemma TriplesStep(coords: seq<Float>, i: nat)
    requires i % 3 == 0 && i + 3 <= |coords|
    ensures Triples(coords[..i + 3]) == Triples(coords[..i]) + [Vec3(coords[i], coords[i + 1], coords[i + 2])]
  {
    assert coords[..i + 3][..i] == coords[..i];
  }

  /** Whole triples: a triple that starts inside the array ends inside it. */
  lemma NextTripleFits(i: nat, n: nat)
    requires i % 3 == 0 && n % 3 == 0 && i < n
    ensures i + 3 <= n
  {
  }

  lemma ShapeIndicesStep(indices: seq<ObjIndex>, k: nat)
    requires k < |indices|
    ensures ShapeIndices(indices[..k + 1]) == ShapeIndices(indices[..k]) + [ToU32(indices[k].vertexIndex)]
  {
    assert indices[..k + 1][..k] == indices[..k];
  }

  lemma MeshIndicesStep(shapes: seq<Shape>, s: nat)
    requires s < |shapes|
    ensures MeshIndices(shapes[..s + 1]) == MeshIndices(shapes[..s]) + ShapeIndices(shapes[s].indices)
  {
    assert shapes[..s + 1][..s] == shapes[..s];
  }

  /** `boza::MeshData`. */
  class MeshData {
    var vertices: seq<Vec3>
    var indices: seq<U32>

    /** An empty mesh. */
    constructor ()
      ensures vertices == [] && indices == []
    {
      vertices := [];
      indices := [];
    }
  }

  /**
   * `loadFromObj`: on a failed parse return false and leave the mesh alone; otherwise
   * replace its contents by the vertex triples and the shapes' vertex indices and return
   * true, warnings or not. The parser yields whole triples; the loop reads three
   * coordinates at a time and would read past the end of a ragged array.
   */
  method LoadFromObj(parse: ObjParse, mesh: MeshData) returns (loaded: bool)
    requires parse.loaded ==> |parse.vertices| % 3 == 0
    modifies mesh
    ensures loaded == parse.loaded
    ensures !loaded ==> mesh.vertices == old(mesh.vertices) && mesh.indices == old(mesh.indices)
    ensures loaded ==> mesh.vertices == Triples(parse.vertices) && mesh.indices == MeshIndices(parse.shapes)
  {
    if !parse.loaded {
      return false;
    }
    ReadVertices(parse.vertices, mesh);
    ReadIndices(parse.shapes, mesh);
    return true;
  }

  /** The vertex loop: the mesh's vertices become the coordinate triples, in order. */
  method ReadVertices(coords: seq<Float>, mesh: MeshData)
    requires |coords| % 3 == 0
    modifies mesh
    ensures mesh.vertices == Triples(coords) && mesh.indices == old(mesh.indices)
  {
    mesh.vertices := [];
    var i := 0;
    while i < |coords|
      invariant i <= |coords| && i % 3 == 0
      invariant mesh.vertices == Triples(coords[..i])
      invariant mesh.indices == old(mesh.indices)
    {
      NextTripleFits(i, |coords|);
      TriplesStep(coords, i);
      mesh.vertices := mesh.vertices + [Vec3(coords[i], coords[i + 1], coords[i + 2])];
      i := i + 3;
    }
    assert coords[..i] == coords;
  }

  /** The index loops: the mesh's indices become every shape's vertex indices, shape after shape. */
  method ReadIndices(shapes: seq<Shape>, mesh: MeshData)
    modifies mesh
    ensures mesh.indices == MeshIndices(shapes) && mesh.vertices == old(mesh.vertices)
  {
    mesh.indices := [];
    var s := 0;
    while s < |shapes|
      invariant s <= |shapes|
      invariant mesh.vertices == old(mesh.vertices)
      invariant mesh.indices == MeshIndices(shapes[..s])
    {
      var shapeIndices := shapes[s].indices;
      var k := 0;
      while k < |shapeIndices|
        invariant k <= |shapeIndices|
        invariant mesh.vertices == old(mesh.vertices)
        invariant mesh.indices == MeshIndices(shapes[..s]) + ShapeIndices(shapeIndices[..k])
      {
        ShapeIndicesStep(shapeIndices, k);
        mesh.indices := mesh.indices + [ToU32(shapeIndices[k].vertexIndex)];
        k := k + 1;
      }
      assert shapeIndices[..k] == shapeIndices;
      MeshIndicesStep(shapes, s);
      s := s + 1;
    }
    assert shapes[..s] == shapes;
  }
}
